=== FILE: README.md ===
# BRCC Inventory: a Dafny model

This project models the core of the BRCC Inventory WordPress plugin. The
plugin keeps WooCommerce stock in step with Eventbrite ticket capacity and
records sales from WooCommerce, Eventbrite and Square. The model covers:

- **the product-mapping store.** This is the `brcc_product_mappings` option. The model includes its three-tier resolution (a time-specific key, then the date, then the product default), the full-replace save of a product's occurrence map, the merge-style single save, the admin "save all", and the flattening used by the Eventbrite sync (modules `Mappings`, `Assoc`).
- **occurrence discovery for a product.** Sources are tried in a fixed order: FooEvents dates; booking slots, read from seven meta keys in three shapes (`_booking_slots` keyed by date, `_wc_booking_availability` ranges, and a list under `_product_booking_slots` or the first non-empty of `_wc_slots`, `_event_slots`, `_bookings` and `_event_dates`) and then from variations and the title's weekday; the weekday named in the title; that weekday's Eventbrite events; and finally the seven days after today (`Discovery`).
- **the two mapping editors' date lists.** Stored dates are added, stored ids attached, and suggestions made. The time options are included (`Listing`, `Enhanced`).
- **the static helpers.** These are weekday and time extraction from titles, the minute-tolerance time comparison, upcoming weekdays, the lenient time and date normalisers, and the bounded operation log (`Helpers`, `Patterns`, `Text`, `Calendar`).
- **Eventbrite matching and reconciliation.** Ticket classes are ranked by relevance. The capacity is decremented after a local sale, never below the tickets already sold. The Eventbrite availability is pulled into local slot inventory, read and written through six slot-metadata keys in two formats (`Matching`, `Reconcile`, `Slots`, `Events`, `Sorting`).
- **the sales ledger.** This covers `brcc_daily_sales` and `brcc_product_summary` with their writers. It also covers the date-range reports, the dashboard chart series, and the resumable historical import, one source and one batch per request (`Ledger`, `Reports`, `Importer`).

Some things are passed in as parameters:
- the request's outside reads: the remote Eventbrite fetches, the order page query, the Square batch;
- the clock ("today");
- PHP's `similar_text` score.

Writes are returned as new values rather than performed. Dates are day numbers counted from 1970-01-01, and they are written out as `Y-m-d` strings wherever the plugin stores them as strings. Whenever the plugin compares `strtotime` results of `Y-m-d` strings, the model compares the strings in string order. That agrees with calendar order on strings that name real calendar dates. It does not follow `strtotime` on `Y-m-d`-shaped strings that name no date, such as day 31 of February or month 13 (see `Importer.Validate` under "## Left out").

Some behaviours of the code are easy to miss; the model follows the code:

- The slot reader and writer of the Eventbrite integration call the shared `BRCC_Helpers::is_time_close`. That helper answers false on an empty time. The integration's private `is_time_close` answers true on an empty time, but nothing calls it. It is modelled (`Helpers.PrivateIsTimeClose`), and the disagreement is proved.
- `get_product_booking_slots` ends with the title's weekday (product-mappings.php:1017-1035). So `get_product_dates` serves a weekday title from its booking-slot step, and its own title step (product-mappings.php:271-297) is reached only when a booking schema was present but empty (`Discovery.TitleStepShadowed`).
- The processed count of a WooCommerce import batch is raised once after the order loop. It is therefore 0 or 1, not the number of orders (`Importer.WooBatch`).
- A slash date with a one-digit month or day never survives the `date('Y-m-d', strtotime(…))` round-trip check, so the numeric branch rejects it (`Patterns.SlashDateSingleDigit`).

## Model

| member | source | states |
|---|---|---|
| Helpers.ExtractDay | includes/class-brcc-helpers.php:309-320 | no weekday is reported exactly when no day name occurs in the lower-cased title; a reported name is the first of the list that occurs |
| Helpers.ExtractDayListOrder | includes/class-brcc-helpers.php:310-318 | with two weekdays in a title, list order (Sunday first) decides, not position in the title |
| Helpers.TimeToMinutesFormatHM | includes/class-brcc-helpers.php:363-366 | reading a formatted `HH:MM` back gives hours × 60 + minutes |
| Helpers.IsTimeClose | includes/class-brcc-helpers.php:376-387 | a positive answer implies both times are non-empty in PHP's sense |
| Helpers.IsTimeCloseSymmetric | includes/class-brcc-helpers.php:376-387 | the comparison is symmetric in its two times |
| Helpers.IsTimeCloseReflexive | includes/class-brcc-helpers.php:376-387 | every non-empty time is close to itself under a non-negative buffer |
| Helpers.IsTimeCloseFormatted | includes/class-brcc-helpers.php:376-387 | on formatted times the answer is exactly the inclusive bound on the minute difference |
| Helpers.PrivateIsTimeClose | includes/integrations/class-brcc-eventbrite-integration.php:1368-1407 | the private variant answers "close" whenever either time is empty |
| Helpers.PrivateIsTimeCloseAgrees | includes/integrations/class-brcc-eventbrite-integration.php:1368-1407 | on non-empty in-day `H:i` times the two comparisons give the same answer |
| Helpers.PrivateIsTimeCloseDisagreesOnEmpty | includes/integrations/class-brcc-eventbrite-integration.php:1368-1371 | on an empty time the private variant says close and the shared helper says not close |
| Helpers.DayIndex | includes/class-brcc-helpers.php:397-406 | a day name is known exactly when its lower-cased form is in the weekday list, at the index returned |
| Helpers.ExtractDayIsDayName | includes/class-brcc-helpers.php:309-320 | every weekday found in a title is one the upcoming-dates helper knows |
| Helpers.NextWeekday | includes/class-brcc-helpers.php:415-435 | the next day on the weekday lies 1 to 7 days after today, and 7 days after when today is that weekday |
| Helpers.NextWeekdayIsNearest | includes/class-brcc-helpers.php:415-435 | no day strictly between today and that day falls on the weekday |
| Helpers.UpcomingDays | includes/class-brcc-helpers.php:396-454 | an unknown name gives nothing; today alone when it is the day and at most one date is asked; otherwise the requested number of dates, a week apart, from the next such day |
| Helpers.UpcomingDaysWeekday | includes/class-brcc-helpers.php:438-446 | every generated date falls on the named weekday |
| Helpers.UpcomingDates | includes/class-brcc-helpers.php:438-449 | entry k is the `Y-m-d` string of generated day k, and there is one per day |
| Helpers.LogOperation | includes/class-brcc-helpers.php:49-70 | when logging is off nothing changes; otherwise the new entry is last and at most 1000 entries are kept |
| Helpers.LogOperationBounded | includes/class-brcc-helpers.php:56-67 | a log within the cap stays within it and ends with the entry just logged |
| Patterns.FindMatch | includes/class-brcc-helpers.php:332-339 | the leftmost matching position from the start: it matches, and no earlier position does |
| Patterns.FindMatchSkips | includes/class-brcc-helpers.php:332-339 | skipping a stretch without digits leaves the leftmost match unchanged |
| Patterns.AdjustedHour | includes/class-brcc-helpers.php:343-348 | pm adds 12 below noon, 12 am becomes 0, other hours are kept |
| Patterns.CapturedTime | includes/class-brcc-helpers.php:340-350 | the time built from a match is always a two-digit `HH:MM` whose hour and minute are below 100, never clamped to a day |
| Patterns.ExtractTime | includes/class-brcc-helpers.php:328-355 | no time exactly when none of the three patterns matches the lower-cased title |
| Patterns.CapturedTimeValue | includes/class-brcc-helpers.php:340-350 | a match's time is the hour read and adjusted for am/pm with the captured minute (0 when absent), and reads back as that many minutes |
| Patterns.ExtractTimeOfFirstMatch | includes/class-brcc-helpers.php:332-351 | the extracted time comes from the first pattern, in the order show time, clock time, o'clock, that matches the lower-cased title: its hour adjusted for am/pm and its minute, 0 when not captured |
| Patterns.ExtractTimeOfFormatted | includes/class-brcc-helpers.php:328-355 | a formatted `HH:MM` extracts to itself |
| Patterns.ExtractTimeIdempotent | includes/class-brcc-helpers.php:328-355 | extracting again from an extracted time gives the same time |
| Patterns.ExtractTimeEvening | includes/class-brcc-helpers.php:329-350 | "Friday Improv 8pm" extracts to 20:00 |
| Patterns.ShowTimeNeedsMeridiem | includes/class-brcc-helpers.php:333 | without an 'a' or a 'p' the show-time pattern matches nowhere |
| Patterns.ParseTimeValue | includes/class-brcc-helpers.php:169-204 | empty input gives nothing; a value passing the anchored `H:i` check is kept, even with the final line feed PCRE's `$` allows; any other value with a digit is the time of the lenient pattern's leftmost match; exactly the digit-free remaining values go on to `strtotime` |
| Patterns.ParseTimeValueLenient | includes/class-brcc-helpers.php:180-195 | the lenient reading is the matched hour adjusted for am/pm in any case, with the matched minute or 0, and reads back as that many minutes |
| Patterns.ParseTimeValueKeepsLineFeed | includes/class-brcc-helpers.php:175-177 | "8:30" followed by a line feed passes the anchored check and is returned with its line feed |
| Patterns.ParseTimeValueIdempotent | includes/class-brcc-helpers.php:169-204 | a normalised time normalises to itself |
| Patterns.ParseTimeValueMeridiem | includes/class-brcc-helpers.php:180-195 | "8:30 PM" normalises to 20:30 |
| Patterns.Parts | includes/class-brcc-helpers.php:232-271 | the three numeric parts, when found, rebuild the input with the separator and have the digit counts the pattern allows |
| Patterns.PartsOfJoined | includes/class-brcc-helpers.php:232-271 | splitting a joined numeric date gives back the parts it was joined from |
| Patterns.ParseDateValue | includes/class-brcc-helpers.php:213-301 | a value passing the anchored ISO check is kept, even with a final line feed; a normalised result passes that check; empty input gives nothing; only date-looking strings go on to `strtotime` |
| Patterns.ParseDateValueIdempotent | includes/class-brcc-helpers.php:213-301 | a normalised date normalises to itself |
| Patterns.SlashDateMonthFirst | includes/class-brcc-helpers.php:232-249 | a slash date that reads as month/day is read month first, with a two-digit year taken as 20xx |
| Patterns.SlashDateDayFirst | includes/class-brcc-helpers.php:244-252 | a slash date whose month-first reading fails but whose day-first reading holds is read day first |
| Patterns.SlashDateSingleDigit | includes/class-brcc-helpers.php:232-255 | a one-digit month or day never round-trips, so the slash date goes on to `strtotime` |
| Patterns.DottedBranch | includes/class-brcc-helpers.php:257-271 | with no slash reading, a dotted date is normalised day first when that reading round-trips and otherwise goes on to `strtotime` |
| Patterns.DottedDateDayFirst | includes/class-brcc-helpers.php:257-271 | `D.M.Y` with one- or two-digit day and month gives `Y-M-D` (two-digit years as 20xx) when that reading round-trips, else goes on to `strtotime` |
| Mappings.Default | includes/class-brcc-product-mappings.php:75-78 | the stored product default, or empty ids when none is stored |
| Mappings.FirstClose | includes/class-brcc-product-mappings.php:55-67 | the mapping of the first key, in stored order, whose time part is within the buffer; none exactly when no key is |
| Mappings.GetProductMappings | includes/class-brcc-product-mappings.php:42-79 | no date gives the default; with date and time the first close key wins, then the exact date key, then the default |
| Mappings.OccurrenceKey | includes/class-brcc-product-mappings.php:163-164 | "<date>_<time>" for a non-empty time, else "<date>" |
| Mappings.SaveDateMappings | includes/class-brcc-product-mappings.php:83-185 | a missing or zero product id is rejected; test mode changes nothing; a live save replaces the product's occurrence map and reports the count of accepted rows |
| Mappings.FoldRowsLastWins | includes/class-brcc-product-mappings.php:150-174 | each key holds the last accepted row with that key, and no other key is present |
| Mappings.FoldRowsCount | includes/class-brcc-product-mappings.php:150-174 | the reported count is the number of accepted rows, overwritten ones included |
| Mappings.SaveDateMappingsLastWins | includes/class-brcc-product-mappings.php:142-177 | after a live save the product's map answers each key with the last accepted row for it |
| Mappings.SaveDateMappingsKeepsOthers | includes/class-brcc-product-mappings.php:142-177 | a live save leaves every other product's map untouched |
| Mappings.SaveDateMappingsReplaces | includes/class-brcc-product-mappings.php:142-147 | the save replaces rather than merges: a second save forgets the first |
| Mappings.DuplicateRowsCountTwice | includes/class-brcc-product-mappings.php:150-174 | two accepted rows with one key are counted twice but stored once |
| Mappings.SaveProductMapping | includes/class-brcc-product-mappings.php:196-227 | without a date only the defaults change; with a date only the occurrence maps change; the product is then present; every other product's default and occurrence map is unchanged |
| Mappings.SaveDefaultRoundTrip | includes/class-brcc-product-mappings.php:196-227 | a saved default is what an undated lookup returns |
| Mappings.SaveDatedRoundTrip | includes/class-brcc-product-mappings.php:196-227 | a saved date-only mapping is what a lookup by that date returns |
| Mappings.SaveTimedRoundTrip | includes/class-brcc-product-mappings.php:196-227 | a saved timed mapping is found by date and time unless another key of that date is also close |
| Mappings.SaveProductMappingKeepsOthers | includes/class-brcc-product-mappings.php:211-224 | the merge keeps every other occurrence key of the product |
| Mappings.AdminSaveAll | includes/admin/class-brcc-admin.php:1968-2016 | test mode changes nothing; a live save replaces the whole store, erasing every occurrence map |
| Mappings.AdminDefaultsLastWins | includes/admin/class-brcc-admin.php:1982-2016 | each product's default is the last submitted row for its numeric key |
| Mappings.AdminSaveAllResolves | includes/admin/class-brcc-admin.php:1968-2016 | after a live save every lookup of a product, at any date and time, answers its submitted default |
| Mappings.FlattenDefaults | includes/integrations/class-brcc-eventbrite-integration.php:929-943 | flattened defaults carry no date and a non-empty Eventbrite id |
| Mappings.SplitKey | includes/integrations/class-brcc-eventbrite-integration.php:953-969 | a key splits at its first '_' into a date free of '_' and an optional time |
| Mappings.FlattenOccurrences | includes/integrations/class-brcc-eventbrite-integration.php:946-973 | every flattened occurrence belongs to the product, has a date and a non-empty Eventbrite id |
| Mappings.AllDateTimeMappings | includes/integrations/class-brcc-eventbrite-integration.php:924-976 | every flattened mapping has a non-empty Eventbrite id |
| Mappings.SplitKeyOccurrenceKey | includes/integrations/class-brcc-eventbrite-integration.php:953-969 | splitting inverts the savers' key format when the date has no '_' |
| Mappings.FlattenOccurrencesComplete | includes/integrations/class-brcc-eventbrite-integration.php:946-973 | every stored occurrence with an Eventbrite id appears flattened, its key split back |
| Discovery.AvailabilitySlots | includes/class-brcc-product-mappings.php:910-935 | no slots without both bounds; otherwise one slot per day of the range |
| Discovery.AvailabilityExcludesEnd | includes/class-brcc-product-mappings.php:910-935 | every slot lies on a day in [from, to), so the end day is never produced, with the entry's quantity and start time |
| Discovery.BookingTime | includes/class-brcc-product-mappings.php:953-958 | the entry's time, else its hour and minute zero-padded |
| Discovery.BookingInventory | includes/class-brcc-product-mappings.php:960-967 | stock, else inventory, else quantity |
| Discovery.BookingSlots | includes/class-brcc-product-mappings.php:950-977 | every dated entry gives its slot and every slot comes from a dated entry |
| Discovery.BookingSlotsAppend | includes/class-brcc-product-mappings.php:950-977 | the slots of two runs of entries are the slots of each, in order |
| Discovery.BookingSlotsOne | includes/class-brcc-product-mappings.php:951-975 | one entry gives its own slot when it has a date and nothing otherwise, so with the previous row the list is the dated entries' slots in entry order |
| Discovery.FirstNonEmpty | includes/class-brcc-product-mappings.php:938-948 | when some schema is non-empty, the result is the non-empty schema with no non-empty one before it; with an empty default, the default is returned exactly when every schema is empty |
| Discovery.TitleSlots | includes/class-brcc-product-mappings.php:1017-1035 | no weekday gives nothing; otherwise slot i is upcoming date i of the title's weekday, with the title's time and no inventory |
| Discovery.TitleSlotsOnWeekday | includes/class-brcc-product-mappings.php:1017-1035 | slot i falls i weeks after the first day after today on the title's weekday |
| Discovery.UpcomingDatesAt | includes/class-brcc-helpers.php:396-454 | date i of eight asked for is the `Y-m-d` of the weekday's next day after today plus i weeks |
| Discovery.ProductBookingSlots | includes/class-brcc-product-mappings.php:886-1038 | each of the five answers (keyed slots, availability, booking list, variations, title weekday) is chosen exactly when it is the first non-empty source in fixed order; its slots are that source's own: the keyed entries' date, time and inventory, the availability days, the chosen booking list's dated entries, the variation slots, or the weekday's slots |
| Discovery.WeekdayTitleSlots | includes/class-brcc-product-mappings.php:886-1038 | a weekday title yields no slots only when a non-empty schema produced none |
| Discovery.FallbackRows | includes/class-brcc-product-mappings.php:340-356 | seven rows, the days after today |
| Discovery.TitleRows | includes/class-brcc-product-mappings.php:271-297 | no weekday gives no rows; otherwise row i is upcoming date i of the title's weekday, with the title's time and no inventory |
| Discovery.EventRows | includes/class-brcc-product-mappings.php:299-333 | at most one row per event, and every row is an Eventbrite row without inventory |
| Discovery.EventRowsComplete | includes/class-brcc-product-mappings.php:311-328 | every event with a start gives its row |
| Discovery.EventRowsAppend | includes/class-brcc-product-mappings.php:311-328 | the rows of two runs of events are the rows of each, in order |
| Discovery.EventRowsOne | includes/class-brcc-product-mappings.php:311-328 | one event gives its row when it has a start and nothing otherwise |
| Discovery.ProductDates | includes/class-brcc-product-mappings.php:235-361 | a missing product gives no dates, and a product always gets some |
| Discovery.ProductDatesPrecedence | includes/class-brcc-product-mappings.php:235-361 | every row comes from the first source that yields any; the fallback is used exactly when none does |
| Discovery.WeekdayTitleNeverFallsBack | includes/class-brcc-product-mappings.php:255-297 | with detection on, a weekday title never gets the seven-day fallback |
| Discovery.TitleStepShadowed | includes/class-brcc-product-mappings.php:255-297 | the title step is reached only when a booking schema was present but empty |
| Discovery.FallbackStartsTomorrow | includes/class-brcc-product-mappings.php:340-356 | the fallback runs from tomorrow to seven days ahead, without inventory |
| Listing.AddMappedDates | includes/class-brcc-product-mappings.php:1093-1121 | the listed rows are kept as a prefix, and every added row comes from the mappings |
| Listing.AddMappedDatesComplete | includes/class-brcc-product-mappings.php:1093-1121 | the date part of every stored "<date>_<time>" key ends up listed |
| Listing.AddMappedDatesFresh | includes/class-brcc-product-mappings.php:1098-1119 | an added row's date was not listed before it |
| Listing.AttachIds | includes/class-brcc-product-mappings.php:1124-1152 | the exact key's ids, else the date's, else a suggestion when a default id exists; the row itself is kept |
| Listing.MappedRowFindsItsKey | includes/class-brcc-product-mappings.php:1093-1152 | a row added for a stored timed key shows that key's ids |
| Listing.ListedAfterSave | includes/class-brcc-product-mappings.php:1124-1152 | after a live save, a listed occurrence shows the Eventbrite id of the last row saved for its key |
| Listing.CommonTimes | includes/class-brcc-product-mappings.php:1166-1194 | 32 options, 08:00 to 23:30 |
| Listing.CommonTimesAt | includes/class-brcc-product-mappings.php:1166-1194 | option i is i half hours after 08:00, an `H:i` value labelled with the same twelve-hour time |
| Listing.NoonLabel | includes/class-brcc-product-mappings.php:1171-1178 | noon is labelled "12:00 PM" |
| Listing.ProductDatesListing | includes/class-brcc-product-mappings.php:1044-1160 | a missing or zero id is an error; the times and default id are returned; the Eventbrite rows are returned exactly when fetching was asked, a default id exists and there are any; otherwise row i is discovered-or-stored row i with the ids of its exact key, else its date, else a suggestion |
| Listing.ListingShowsSaved | includes/class-brcc-product-mappings.php:1044-1160 | after a live save, every row of the editor's list whose key the save accepted shows the last id saved for that key |
| Enhanced.DayEventCandidate | includes/class-brcc-enhanced-mappings.php:110-163 | a kept event has a start, a first paid ticket with an id, and either a time match or a boosted similarity above 60 |
| Enhanced.DissimilarEventDropped | includes/class-brcc-enhanced-mappings.php:115-131 | an event without a time match needs a similarity above 60 |
| Enhanced.CandidatesAreKeptEvents | includes/class-brcc-enhanced-mappings.php:110-165 | the kept rows are exactly the candidates of the events that pass the filter |
| Enhanced.DayEventRowsOrdered | includes/class-brcc-enhanced-mappings.php:167-176 | the rows are a permutation of the kept events, in non-increasing similarity, ties in original order |
| Enhanced.ApplyMappings | includes/class-brcc-enhanced-mappings.php:186-200 | a row with neither its key nor its date stored is left as it was |
| Enhanced.ApplyMappingsAgreesWithAttach | includes/class-brcc-enhanced-mappings.php:186-200 | both editors attach the same ids whenever the row's key or date is stored |
| Enhanced.FoldSuggestionsLastWins | includes/class-brcc-enhanced-mappings.php:212-253 | each suggestion key holds the last qualifying event with that key |
| Enhanced.Suggestions | includes/class-brcc-enhanced-mappings.php:207-261 | no weekday gives no suggestions; otherwise each key holds the last qualifying event filed under it |
| Enhanced.SuggestionsSound | includes/class-brcc-enhanced-mappings.php:207-261 | every suggestion comes from an upcoming date of the weekday and a qualifying event under "<date>_<time>" |
| Enhanced.SuggestionsAsWritten | includes/class-brcc-enhanced-mappings.php:207-209 | the step as written fails exactly when the title names a weekday |
| Enhanced.SuggestionsAsWrittenFailsOnWeekday | includes/class-brcc-enhanced-mappings.php:207-209 | every weekday title makes the written step fail |
| Enhanced.EnhancedDates | includes/class-brcc-enhanced-mappings.php:85-178 | without fetching, the list is the discovered dates; fetching with a default id, the remote rows replace them when there are any; fetching with neither a default id nor a weekday changes nothing |
| Enhanced.EnhancedProductDates | includes/class-brcc-enhanced-mappings.php:63-270 | a missing product fails; the reply's dates are the date list row for row with the stored ids applied; it carries the fetch flag, the common times and the default id, with no suggestions for a title without a weekday |
| Enhanced.EnhancedRowShowsStored | includes/class-brcc-enhanced-mappings.php:181-201 | a reply row shows the ids stored under its date-and-time key, else those under its date, else is left as listed |
| Enhanced.EnhancedDatesAppendsDayEvents | includes/class-brcc-enhanced-mappings.php:103-176 | fetching without a default id appends the weekday's resembling events after the discovered dates |
| Matching.TimeMatch | includes/integrations/class-brcc-eventbrite-integration.php:305-308 | true when there is no target time or no event time |
| Matching.DateDiff | includes/integrations/class-brcc-eventbrite-integration.php:311-316 | a non-negative distance, 1000 without a target date |
| Matching.Relevance | includes/integrations/class-brcc-eventbrite-integration.php:318-322 | bounded by twice the similarity plus the two boosts, and at its maximum for an exact date and matching time |
| Matching.EventRow | includes/integrations/class-brcc-eventbrite-integration.php:285-344 | the row carries the event's id, relevance, similarity and exact-date flag |
| Events.PaidTickets | includes/integrations/class-brcc-eventbrite-integration.php:325-327 | every kept ticket class is in the input and not free, and every paid class of the input is kept |
| Events.PaidTicketsCount | includes/integrations/class-brcc-eventbrite-integration.php:325-327 | each paid ticket class is kept as often as it occurs in the input, each free one never |
| Events.PaidTicketsAppend | includes/integrations/class-brcc-eventbrite-integration.php:325-327 | the filter of two runs is the filter of each, in order |
| Events.PaidTicketsOne | includes/integrations/class-brcc-eventbrite-integration.php:327 | one ticket class is kept exactly when it is not free, so with the previous row the result is the paid classes in input order |
| Events.PaidTicketsHead | includes/integrations/class-brcc-eventbrite-integration.php:325-327 | the first paid class is the first input entry that is not free, preceded only by free ones |
| Events.FirstPaid | includes/class-brcc-enhanced-mappings.php:133-143 | none exactly when there is no paid class; otherwise a paid class preceded only by free ones |
| Matching.TicketRows | includes/integrations/class-brcc-eventbrite-integration.php:325-346 | one row per ticket class that is not free, in order |
| Matching.EventCandidates | includes/integrations/class-brcc-eventbrite-integration.php:299-346 | an event below 30% similarity or without ticket classes gives nothing |
| Matching.Suggest | includes/integrations/class-brcc-eventbrite-integration.php:250-359 | none for a missing product or a failed fetch; otherwise five of the candidates (all when there are fewer), each at least 30% similar |
| Matching.PaidTicketIsCandidate | includes/integrations/class-brcc-eventbrite-integration.php:325-345 | every paid ticket class of a similar-enough event is a candidate |
| Sorting.Top | includes/integrations/class-brcc-eventbrite-integration.php:355 | the first n elements, or all when there are fewer: a prefix of the input of length min(n, length of the input) |
| Matching.SuggestTopFive | includes/integrations/class-brcc-eventbrite-integration.php:349-355 | the result is drawn from the candidates, has five of them or all, is sorted by relevance, and a candidate left out is no more relevant than any returned |
| Matching.ExactDateOutranks | includes/integrations/class-brcc-eventbrite-integration.php:310-322 | an event on the target date outranks the same event on any other day |
| Reconcile.NewCapacity | includes/integrations/class-brcc-eventbrite-integration.php:536-547 | capacity minus the sale, but never below the tickets sold |
| Reconcile.TicketFor | includes/integrations/class-brcc-eventbrite-integration.php:471-476 | the time-specific mapping's ticket, retried without the time when it is empty |
| Reconcile.UpdateTicket | includes/integrations/class-brcc-eventbrite-integration.php:464-574 | nothing without a ticket; test mode only reports; a failed fetch is reported; otherwise the clamped capacity is written |
| Reconcile.TestModeMakesNoCall | includes/integrations/class-brcc-eventbrite-integration.php:486-520 | in test mode the outcome does not depend on the remote reply |
| Reconcile.CapacityClamped | includes/integrations/class-brcc-eventbrite-integration.php:536-547 | the new capacity never goes below the tickets sold, and a sale that fits lowers it by exactly its quantity |
| Reconcile.SyncStep | includes/integrations/class-brcc-eventbrite-integration.php:817-913 | one mapping changes only its own product, and nothing in test mode |
| Reconcile.Sync | includes/integrations/class-brcc-eventbrite-integration.php:779-922 | the sync keeps the set of products, and a product no mapping names is untouched |
| Reconcile.SyncAll | includes/integrations/class-brcc-eventbrite-integration.php:779-922 | over the whole store: products kept, unmapped products untouched, nothing written in test mode |
| Reconcile.SyncTestModeWritesNothing | includes/integrations/class-brcc-eventbrite-integration.php:779-922 | in test mode the sync writes nothing |
| Reconcile.DatedWriteOnlyOnMismatch | includes/integrations/class-brcc-eventbrite-integration.php:825-870 | a dated slot already at the Eventbrite availability is not written |
| Reconcile.DatedStepResult | includes/integrations/class-brcc-eventbrite-integration.php:825-870 | after a live dated step the reader finds the availability, or found nothing and nothing changed |
| Reconcile.UndatedStepResult | includes/integrations/class-brcc-eventbrite-integration.php:871-913 | an undated mapping sets the stock to the availability exactly when the product manages stock |
| Slots.KeyedField | includes/integrations/class-brcc-eventbrite-integration.php:1038-1066 | keyed entries are read by inventory, then stock, then quantity |
| Slots.ListedField | includes/integrations/class-brcc-eventbrite-integration.php:1070-1092 | listed entries are read by stock, then inventory, then quantity |
| Slots.FormatKey | includes/integrations/class-brcc-eventbrite-integration.php:1038 | "<date>_<time>" when a time is given, else "<date>" |
| Slots.KeyedKey | includes/integrations/class-brcc-eventbrite-integration.php:1038-1066 | the key consulted is the formatted key or the date, and its entry has a stock field |
| Slots.FirstListed | includes/integrations/class-brcc-eventbrite-integration.php:1070-1092 | no value exactly when no listed entry matches |
| Slots.LookupIn | includes/integrations/class-brcc-eventbrite-integration.php:1033-1095 | no value exactly when neither format finds an entry |
| Slots.Lookup | includes/integrations/class-brcc-eventbrite-integration.php:1024-1095 | no value exactly when no slot array yields one |
| Slots.Update | includes/integrations/class-brcc-eventbrite-integration.php:1206-1300 | the metas keep their number |
| Slots.UpdateInIffFound | includes/integrations/class-brcc-eventbrite-integration.php:1215-1300 | in one array a write is taken exactly when the reader finds a value |
| Slots.UpdateInRoundTrip | includes/integrations/class-brcc-eventbrite-integration.php:1215-1300 | after a taken write the reader finds the written quantity |
| Slots.UpdateRoundTrip | includes/integrations/class-brcc-eventbrite-integration.php:1154-1366 | the writer succeeds exactly when the reader finds a value, and the reader then finds the written quantity |
| Slots.FormatsDisagree | includes/integrations/class-brcc-eventbrite-integration.php:1040-1078 | an entry with both fields answers inventory when keyed and stock when listed |
| Ledger.LedgerKey | includes/class-brcc-sales-tracker.php:99 | "<product>_<booking date>" with a booking date, else "<product>" |
| Ledger.AddSale | includes/class-brcc-sales-tracker.php:101-120 | the total and one channel grow by the quantity and the others are kept; a new entry records the product and booking date |
| Ledger.Record | includes/class-brcc-sales-tracker.php:313-332 | the sale day is present afterwards and every other day is unchanged |
| Ledger.RecordChangesOneEntry | includes/class-brcc-sales-tracker.php:313-332 | a record changes the one entry under its day and key, by the upsert, and nothing else |
| Ledger.RecordBalanced | includes/class-brcc-sales-tracker.php:313-332 | recording keeps every entry's total equal to the sum of its channels |
| Ledger.AddGroup | includes/class-brcc-sales-tracker.php:141-175 | the product total grows by the quantity; a booking date's count grows only when there is one |
| Ledger.AddGroupUndated | includes/class-brcc-sales-tracker.php:141-175 | only sales without a booking date grow the undated part of a total |
| Ledger.UpdateSummary | includes/class-brcc-sales-tracker.php:141-175 | the sale day is present afterwards, holds the groups added to its old summary, and every other day is unchanged |
| Ledger.AddGroupsTotal | includes/class-brcc-sales-tracker.php:149-163 | each product's total grows by the quantity of its groups |
| Ledger.AddGroupsDate | includes/class-brcc-sales-tracker.php:165-171 | each product's booking-date count grows by the quantity of its groups with that booking date |
| Ledger.AddGroupsUntouched | includes/class-brcc-sales-tracker.php:149-172 | a product no group names keeps its summary |
| Ledger.UpdateSummaryTotals | includes/class-brcc-sales-tracker.php:141-175 | after the update a product's day total and date counts are the old ones plus its groups' quantities |
| Ledger.OrderStatusChanged | includes/class-brcc-sales-tracker.php:30-136 | nothing unless the order is completed; test mode writes nothing and fires only the plain action; the plain action always comes last |
| Ledger.RecordItems | includes/class-brcc-sales-tracker.php:65-124 | only the order's day changes; it is present once a line is known; an order with no known line writes nothing |
| Ledger.RecordItemsBalanced | includes/class-brcc-sales-tracker.php:65-121 | recording the order's lines keeps every entry balanced |
| Ledger.OrderKeepsBalance | includes/class-brcc-sales-tracker.php:30-136 | a completed order keeps every entry balanced |
| Ledger.OrderActionsCarryQuantity | includes/class-brcc-sales-tracker.php:65-135 | the per-date actions pass on exactly the quantity of the known lines |
| Ledger.RecordSale | includes/class-brcc-sales-tracker.php:264-442 | test mode or a missing product writes nothing; otherwise the entry under today and the ledger key is upserted |
| Ledger.RecordHistorical | includes/class-brcc-sales-tracker.php:1214-1280 | false and no write exactly when the product, quantity or sale date is empty or the product is gone; no day but the sale date changes |
| Ledger.HistoricalIsLiveWrite | includes/class-brcc-sales-tracker.php:1214-1280 | a historical sale writes what a live sale of that channel would write on the sale date, even in test mode |
| Ledger.FirstUndated | includes/class-brcc-sales-tracker.php:465-470 | none exactly when no entry is the product's without a booking date; otherwise the first such entry in stored order |
| Ledger.GetDailySales | includes/class-brcc-sales-tracker.php:444-481 | the whole ledger without a date, a day without a product, nothing for a missing day; with a booking date the composite key's entry or nothing; without one the first undated entry of the product, else the legacy `<product>` key, else nothing |
| Ledger.RecordThenRead | includes/class-brcc-sales-tracker.php:444-481 | after a dated sale is recorded, the reader returns its entry |
| Ledger.LedgerKeyIsPlain | includes/class-brcc-sales-tracker.php:98-99 | a ledger key equals the plain product id exactly for an undated entry of that product |
| Ledger.FirstUndatedIsPlainKey | includes/class-brcc-sales-tracker.php:465-475 | when every entry sits under its writers' key, the first undated entry is the one under the plain product key |
| Ledger.ReadIsKeyedEntry | includes/class-brcc-sales-tracker.php:444-481 | on such a ledger the reader returns, for every booking date, exactly the entry stored under its ledger key |
| Ledger.RecordWellKeyed | includes/class-brcc-sales-tracker.php:98-122 | recording keeps every entry under its writers' key |
| Ledger.RecordThenReadAny | includes/class-brcc-sales-tracker.php:444-481 | after any sale, dated or not, is recorded on such a ledger, the reader returns its entry |
| Reports.RangeDays | includes/class-brcc-sales-tracker.php:620-631 | the days from start to end inclusive, the end defaulting to the start |
| Reports.EntrySums | includes/class-brcc-sales-tracker.php:647-659 | an entry's sums balance exactly when the entry does |
| Reports.AddDayIsPlus | includes/class-brcc-sales-tracker.php:647-676 | accumulating a day adds exactly the day's own sums |
| Reports.SummaryByPeriod | includes/class-brcc-sales-tracker.php:610-683 | one day summary per day of the range |
| Reports.SummaryDay | includes/class-brcc-sales-tracker.php:634-679 | day i is the range's i-th day with its ledger map and the sums of its entries |
| Reports.SummaryOverallIsSumOfDays | includes/class-brcc-sales-tracker.php:610-683 | the overall sums equal the sum of the per-day sums |
| Reports.SummaryDaysBalanced | includes/class-brcc-sales-tracker.php:610-683 | with a balanced ledger every day's total is the sum of its channels |
| Reports.TotalSales | includes/class-brcc-sales-tracker.php:539-601 | the per-product totals together add up to the range's day sums |
| Reports.TotalSalesByKey | includes/class-brcc-sales-tracker.php:561-595 | the totals hold exactly the keys the range's entries are filed under (product id, with `_<booking date>` when there is one), and each key holds the sums of exactly the entries filed under it |
| Reports.DayKeysMember | includes/class-brcc-sales-tracker.php:565-572 | a key is one of a day's keys exactly when some entry of that day is filed under it |
| Reports.TotalSalesConserves | includes/class-brcc-sales-tracker.php:539-601 | the per-product totals add up to the range's day sums: no sale lost or doubled |
| Reports.TotalsAgreeWithSummary | includes/class-brcc-sales-tracker.php:539-683 | the totals and the period summary agree on the overall sums |
| Reports.ProductSummary | includes/class-brcc-sales-tracker.php:486-534 | each product's range total is the sum of its daily totals over the range |
| Reports.ProductSummaryTotal | includes/class-brcc-sales-tracker.php:486-534 | a product's range total is the sum of its daily totals |
| Reports.ProductSummaryDates | includes/class-brcc-sales-tracker.php:503-527 | a product's count for a booking date over the range is the sum of that date's counts in its daily entries over the range's days |
| Reports.ChartData | includes/admin/class-brcc-admin.php:2148-2207 | one point per day of the range |
| Reports.ChartAgreesWithSummary | includes/admin/class-brcc-admin.php:2182-2207 | the chart and the period summary report the same day figures, each point labelled with its day |
| Importer.WooBatch | includes/class-brcc-sales-tracker.php:1124-1202 | complete exactly on a short or empty page; count 0 or 1; the next offset moves past the page |
| Importer.ImportLines | includes/class-brcc-sales-tracker.php:1164-1178 | an empty sale date writes nothing, and no day but the sale date changes |
| Importer.ImportOrders | includes/class-brcc-sales-tracker.php:1152-1180 | a day that is no retrieved order's sale date is unchanged, and a page with no retrievable order writes nothing |
| Importer.WooBatchBalanced | includes/class-brcc-sales-tracker.php:1124-1202 | an import batch keeps every ledger entry balanced |
| Importer.SkippedLinesWriteNothing | includes/class-brcc-sales-tracker.php:1164-1176 | lines without a product or quantity write nothing |
| Importer.Validate | includes/admin/class-brcc-admin.php:2386-2394 | accepted exactly with two well-formed dates, start not after end, and some source; bad dates are reported first |
| Importer.Resume | includes/admin/class-brcc-admin.php:2405-2414 | a first call starts fresh; otherwise the posted cursor is used |
| Importer.SourceBatch | includes/admin/class-brcc-admin.php:2437-2470 | an unknown source, or Square without its batch method, finishes at once with nothing processed |
| Importer.NextState | includes/admin/class-brcc-admin.php:2474-2484 | the total grows by the batch; a finished source moves on with fresh positions |
| Importer.Progress | includes/admin/class-brcc-admin.php:2486-2503 | between 0 and 100, and 100 exactly when every source is done |
| Importer.NextParam | includes/admin/class-brcc-admin.php:2478-2503 | no cursor exactly when every source is done |
| Importer.Step | includes/admin/class-brcc-admin.php:2364-2511 | rejected exactly when validation fails; no cursor exactly at 100% |
| Importer.StepAsWritten | includes/admin/class-brcc-admin.php:2398-2511 | the reply as written never carries a cursor |
| Importer.AsWrittenStopsEarly | includes/admin/class-brcc-admin.php:2478-2511 | apart from the cursor the written reply is the corrected one, and it hands back none while work is left |
| Importer.AsWrittenSkipsSecondSource | includes/admin/class-brcc-admin.php:2398-2511 | with two sources the corrected step moves on at 50% while the written one stops |
| Importer.ProgressNeverDecreases | includes/admin/class-brcc-admin.php:2486-2503 | posting the cursor back never lowers the progress |
| Importer.CursorMoves | includes/admin/class-brcc-admin.php:2474-2499 | a finished source hands over the next one with fresh positions; the total grows by the batch |
| Importer.WooResumesPastPage | includes/admin/class-brcc-admin.php:2445-2451 | an unfinished WooCommerce source resumes just past the page it read |

## Left out

- Network calls are parameters of the model: Eventbrite's organisation events and ticket classes, ticket updates, the Square catalogue and batches, and the WooCommerce order query.
- The writes to the remote services and to WordPress (options, post meta, product saves) are returned as values; the model has no persistence, concurrency or locking.
- Logging sinks (`log_error`, `log_info`, `log_debug`) are left out.
- The bounded operation log is modelled on its own (`Helpers.LogOperation`), but the operations that call `log_operation` write no log entry in the model. These are `Matching.Suggest` (includes/integrations/class-brcc-eventbrite-integration.php:267-358), `Reconcile.UpdateTicket` (lines 489 and 505), `Reconcile.Sync` (lines 832-891), `Ledger.OrderStatusChanged` (includes/class-brcc-sales-tracker.php:38-52), `Mappings.SaveDateMappings` (includes/class-brcc-product-mappings.php:106-135) and the other callers. No modelled operation reads the log back.
- `strtotime` is not modelled. The normalisers report the inputs they would hand it (`ViaStrtotime`), and date comparisons of `Y-m-d` strings use string order.
- `similar_text` is not modelled. Each event carries its similarity score to the product as an integer percentage.
- FooEvents date extraction (`get_fooevents_date_from_item`), the FooEvents day-slot metadata, and variation attributes are supplied with the product as already-read dates and slots. Their parsing is not modelled.
- The inventory reader's and writer's FooEvents day-slot and variation branches are left out. So are their plain-stock fallbacks (`get_stock_quantity`). Only the six slot-metadata keys are modelled.
- `get_product_dates_from_eventbrite` is supplied as the list of remote rows. `suggest_eventbrite_id` for a listed row is a function parameter.
- Ledger values that are not arrays, left by older versions of the plugin, are not modelled. Every stored entry has the array shape.
- Display fields are carried by the store but not modelled: names, SKUs, order ids, customer and venue data, and formatted date labels. The exception is the chart's `M j` label.
- The shortcodes, dashboards, settings pages, script enqueueing and nonce and capability checks are left out, as are the bulk `import_historical_sales` and `import_from_woocommerce` paths. The batched importer is the one the admin page drives.
- Matching.Relevance: the source computes with floats and rounds to two decimals. The model uses integers: the similarity is an integer percentage, and the day distance is a whole number of days. A daylight-saving change between the two dates, which adds a fractional hour to the distance in PHP, is not modelled.
- Importer.Progress: PHP's `round` of a float percentage is computed exactly with integers, halves rounded away from zero. Floating-point error in the quotient is not modelled.
- Patterns.ParseDateValue: non-string inputs (`DateTime` objects, timestamps) are left out, and the `strtotime` branches only report their input.
- Patterns.ParseTimeValue: the `strtotime` fallback only reports its input.
- Enhanced.WithinBuffer: the plugin measures the distance between the title's time and the event's time as the difference of two `strtotime("1970-01-01 <time>")` results. The model uses the minute counts of `time_to_minutes` instead. The two agree on times of the day. They differ when the title yields a time that is not one, such as "12:75" from "Monday Improv $12.75": `strtotime` then returns false, the difference is taken from the epoch and depends on the server's time zone, while the model reads 12:75 as 795 minutes.
- Enhanced.DayEventCandidate: the time match that adds 20 to the similarity and keeps the event is decided by `Enhanced.WithinBuffer`, so for a title time that is not a time of day the model can keep an event the plugin drops, or drop one it keeps (includes/class-brcc-enhanced-mappings.php:123).
- Enhanced.Suggestions: the same substitution decides which events qualify as suggestions (includes/class-brcc-enhanced-mappings.php:222).
- Importer.Validate: the start and end dates are compared in string order. `strtotime` rolls a day past the month's end over into the next month ("2024-02-31" is 2 March) and fails on month 13, and the plugin's comparison then differs. The model accepts such a range when the strings are in order.
- Mappings.SaveDateMappings, Mappings.SaveProductMapping, Mappings.AdminSaveAll: the submitted dates, times and ids are taken as already cleaned by `sanitize_text_field`. The model does not strip tags, line breaks or surrounding white space, so " 2024-05-01 " is stored as given where the plugin stores "2024-05-01".
- Slots.KeyedKey: a slot value stored as `null` cannot be represented, because every stored key holds a `SlotEntry`. PHP's `isset($slots[$key])` is false on a null value, so the plugin falls through to the date entry (includes/integrations/class-brcc-eventbrite-integration.php:1039, 1047). In the model a present key always decides the lookup.
- Discovery.AvailabilitySlots: `from` and `to` are taken as already parsed days. The plugin builds them with `new DateTime`, so a `to` with a time after midnight also yields its own day, and an unparsable value throws. Neither is modelled.

## Findings

| source | as written | input that shows it | evidently intended | confidence | as-written member | corrected member |
|---|---|---|---|---|---|---|
| includes/class-brcc-enhanced-mappings.php:209 | the suggestion step asks the product-mappings object for the weekday's upcoming dates through a method that class does not define, so PHP stops with a fatal error | any product whose title names a weekday, e.g. "Monday Night Improv" | use the helper's `get_upcoming_dates_for_day` and build suggestions from the events of those dates | not executed | Enhanced.SuggestionsAsWritten (Enhanced.SuggestionsAsWrittenFailsOnWeekday) | Enhanced.Suggestions (Enhanced.SuggestionsSound) |
| includes/admin/class-brcc-admin.php:2398 | the reply's `next_offset` is set to null at the start and never assigned, so the cursor computed for the next request is dropped | two sources, the first of them Square without a batch method: the request reports 50% and no cursor, and the client stops | return the computed cursor while any source is unfinished | not executed | Importer.StepAsWritten (Importer.AsWrittenStopsEarly, Importer.AsWrittenSkipsSecondSource) | Importer.Step (Importer.ProgressNeverDecreases) |

=== FILE: assoc.dfy ===
/** PHP arrays with string or integer keys: ordered association lists in
    which a key occurs at most once, new keys are appended and an
    assignment to an existing key keeps that key's position. */
module Assoc {
  import opened Wrappers

  type Assoc<K, V> = seq<(K, V)>

  /** No key occurs twice. */
  ghost predicate NoDup<K, V>(a: Assoc<K, V>) {
    forall i, j :: 0 <= i < j < |a| ==> a[i].0 != a[j].0
  }

  function KeySet<K, V>(a: Assoc<K, V>): set<K> {
    set i | 0 <= i < |a| :: a[i].0
  }

  lemma KeySetCons<K, V>(a: Assoc<K, V>)
    requires |a| > 0
    ensures KeySet(a) == {a[0].0} + KeySet(a[1..])
  {
    forall k | k in KeySet(a) ensures k in {a[0].0} + KeySet(a[1..]) {
      var i :| 0 <= i < |a| && a[i].0 == k;
      if i > 0 {
        assert a[1..][i - 1].0 == k;
      }
    }
    forall k | k in KeySet(a[1..]) ensures k in KeySet(a) {
      var i :| 0 <= i < |a[1..]| && a[1..][i].0 == k;
      assert a[i + 1].0 == k;
    }
  }

  /** `$a[$k] ?? null`: the value stored under k. */
  function Get<K(==), V>(a: Assoc<K, V>, k: K): (r: Option<V>)
    ensures r.None? <==> k !in KeySet(a)
    ensures r.Some? ==> (k, r.value) in a
  {
    if |a| == 0 then None
    else
      KeySetCons(a);
      if a[0].0 == k then Some(a[0].1) else Get(a[1..], k)
  }

  /** In a list without duplicate keys, the pair at position i is what Get finds. */
  lemma {:induction false} GetAt<K, V>(a: Assoc<K, V>, i: nat)
    requires NoDup(a) && i < |a|
    ensures Get(a, a[i].0) == Some(a[i].1)
  {
    if i > 0 {
      assert a[0].0 != a[i].0;
      assert a[1..][i - 1] == a[i];
      GetAt(a[1..], i - 1);
    }
  }

  /** `$a[$k] = $v`: overwrite in place, or append a new key. */
  function Put<K(==), V>(a: Assoc<K, V>, k: K, v: V): (r: Assoc<K, V>)
  {
    if |a| == 0 then [(k, v)]
    else if a[0].0 == k then [(k, v)] + a[1..]
    else [a[0]] + Put(a[1..], k, v)
  }

  /** What Put changes: the value under k and nothing else. */
  lemma {:induction false} PutGet<K, V>(a: Assoc<K, V>, k: K, v: V, k': K)
    ensures Get(Put(a, k, v), k') == if k' == k then Some(v) else Get(a, k')
  {
    if |a| > 0 && a[0].0 != k {
      var r := Put(a, k, v);
      assert r[1..] == Put(a[1..], k, v);
      PutGet(a[1..], k, v, k');
    }
  }

  /** Put adds k to the keys and no other key. */
  lemma {:induction false} PutKeys<K, V>(a: Assoc<K, V>, k: K, v: V)
    ensures KeySet(Put(a, k, v)) == KeySet(a) + {k}
  {
    var r := Put(a, k, v);
    KeySetCons(r);
    if |a| > 0 {
      KeySetCons(a);
      if a[0].0 != k {
        assert r[1..] == Put(a[1..], k, v);
        PutKeys(a[1..], k, v);
      } else {
        assert r[1..] == a[1..];
      }
    }
  }

  /** Put keeps every position when k is present and appends otherwise. */
  lemma {:induction false} PutShape<K, V>(a: Assoc<K, V>, k: K, v: V)
    ensures k in KeySet(a) ==> |Put(a, k, v)| == |a|
    ensures k !in KeySet(a) ==> Put(a, k, v) == a + [(k, v)]
  {
    if |a| > 0 {
      KeySetCons(a);
      if a[0].0 != k {
        PutShape(a[1..], k, v);
        if k !in KeySet(a) {
          assert a == [a[0]] + a[1..];
        }
      }
    }
  }

  /** Put never introduces a duplicate key. */
  lemma {:induction false} PutNoDup<K, V>(a: Assoc<K, V>, k: K, v: V)
    requires NoDup(a)
    ensures NoDup(Put(a, k, v))
  {
    if |a| > 0 && a[0].0 != k {
      var r := Put(a, k, v);
      assert r[1..] == Put(a[1..], k, v);
      PutNoDup(a[1..], k, v);
      PutKeys(a[1..], k, v);
      KeySetCons(a);
      KeySetCons(r);
      assert a[0].0 !in KeySet(a[1..]);
      forall i, j | 0 <= i < j < |r| ensures r[i].0 != r[j].0 {
        if i == 0 {
          assert r[j].0 in KeySet(r[1..]) by {
            assert r[1..][j - 1] == r[j];
          }
        } else {
          assert r[1..][i - 1] == r[i] && r[1..][j - 1] == r[j];
        }
      }
    }
  }

  /** Every pair after Put is the new pair or was there before. */
  lemma {:induction false} PutMembers<K, V>(a: Assoc<K, V>, k: K, v: V)
    ensures forall p :: p in Put(a, k, v) ==> p == (k, v) || p in a
  {
    if |a| > 0 && a[0].0 != k {
      PutMembers(a[1..], k, v);
      assert forall p :: p in a[1..] ==> p in a;
    } else if |a| > 0 {
      assert forall p :: p in a[1..] ==> p in a;
    }
  }

  /** A second assignment to the same key overwrites the first in place. */
  lemma {:induction false} PutPut<K, V>(a: Assoc<K, V>, k: K, v1: V, v2: V)
    ensures Put(Put(a, k, v1), k, v2) == Put(a, k, v2)
  {
    if |a| > 0 && a[0].0 != k {
      var r := Put(a, k, v1);
      assert r[1..] == Put(a[1..], k, v1);
      PutPut(a[1..], k, v1, v2);
    }
  }

  /** The values in key order. */
  function Values<K, V>(a: Assoc<K, V>): (r: seq<V>)
    ensures |r| == |a|
    ensures forall i :: 0 <= i < |a| ==> r[i] == a[i].1
  {
    if |a| == 0 then [] else [a[0].1] + Values(a[1..])
  }
}

=== FILE: calendar.dfy ===
/** Calendar days as ordinals: day 0 is 1970-01-01, a Thursday. The
    plugin works with `Y-m-d` strings produced by PHP's `date()`; here a
    day is an integer, its weekday is arithmetic on it, and `Ymd` renders
    it in the proleptic Gregorian calendar. */
module Calendar {
  import opened Text

  /** Days since 1970-01-01. */
  type Date = int

  /** PHP's `date('w')`: 0 for Sunday through 6 for Saturday. */
  function Weekday(d: Date): (w: nat)
    ensures w < 7
    ensures w == (d + 4) % 7
  {
    (d + 4) % 7
  }

  /** Moving by whole weeks keeps the weekday; moving by fewer days does not. */
  lemma WeekdayShift(d: Date, k: int)
    ensures Weekday(d + k) == Weekday(d) <==> k % 7 == 0
  {
  }

  predicate IsLeapYear(y: int) {
    (y % 4 == 0 && y % 100 != 0) || y % 400 == 0
  }

  function DaysInMonth(y: int, m: int): (n: nat)
    requires 1 <= m <= 12
    ensures 28 <= n <= 31
  {
    if m == 2 then (if IsLeapYear(y) then 29 else 28)
    else if m == 4 || m == 6 || m == 9 || m == 11 then 30
    else 31
  }

  /** A day of the proleptic Gregorian calendar. */
  predicate ValidDate(y: int, m: int, d: int) {
    1 <= m <= 12 && 1 <= d <= DaysInMonth(y, m)
  }

  /** Days in month m and the months after it in year y. */
  function DaysFrom(y: int, m: int): (n: nat)
    requires 1 <= m <= 12
    ensures n >= DaysInMonth(y, m)
    decreases 12 - m
  {
    if m == 12 then DaysInMonth(y, m) else DaysInMonth(y, m) + DaysFrom(y, m + 1)
  }

  function DaysInYear(y: int): nat {
    DaysFrom(y, 1)
  }

  /** The year holding day r counted from January 1 of year y, and the
      day's offset within it. */
  function YearOf(y: int, r: int): (p: (int, nat))
    ensures p.1 < DaysInYear(p.0)
    decreases if r < 0 then -r else r
  {
    if r < 0 then
      var r' := r + DaysInYear(y - 1);
      if r' >= 0 then (y - 1, r') else YearOf(y - 1, r')
    else if r < DaysInYear(y) then (y, r)
    else YearOf(y + 1, r - DaysInYear(y))
  }

  /** Month and day of offset r counted from the first day of month m. */
  function MonthOf(y: int, m: int, r: nat): (p: (int, int))
    requires 1 <= m <= 12 && r < DaysFrom(y, m)
    ensures m <= p.0 <= 12 && ValidDate(y, p.0, p.1)
    decreases 12 - m
  {
    if r < DaysInMonth(y, m) then (m, r + 1)
    else MonthOf(y, m + 1, r - DaysInMonth(y, m))
  }

  /** Year, month and day of a day ordinal. */
  function Civil(d: Date): (r: (int, int, int))
    ensures ValidDate(r.0, r.1, r.2)
  {
    var (y, off) := YearOf(1970, d);
    var (m, day) := MonthOf(y, 1, off);
    (y, m, day)
  }

  /** A year as PHP's `date('Y')` renders it: at least four digits, with
      a leading minus sign before year 0. */
  function Year4(y: int): (r: string)
    ensures |r| >= 4
    ensures forall i :: 0 <= i < |r| ==> IsDigit(r[i]) || r[i] == '-'
  {
    var n: nat := if y < 0 then 0 - y else y;
    var ds := NatToString(n);
    var padded := if |ds| >= 4 then ds else seq(4 - |ds|, _ => '0') + ds;
    assert AllDigits(padded);
    if y < 0 then "-" + padded else padded
  }

  /** `date('Y-m-d')` of a day: only digits and dashes, so never a `_`. */
  function Ymd(d: Date): (r: string)
    ensures |r| >= 10
    ensures forall i :: 0 <= i < |r| ==> IsDigit(r[i]) || r[i] == '-'
  {
    var c := Civil(d);
    Year4(c.0) + "-" + Pad2(c.1) + "-" + Pad2(c.2)
  }

  lemma YmdHasNoUnderscore(d: Date)
    ensures '_' !in Ymd(d)
  {
  }

  /** The days of a `DatePeriod` from `from` by one day, excluding `to`. */
  function DayRange(from: Date, to: Date): (r: seq<Date>)
    ensures |r| == if to > from then to - from else 0
    ensures forall i :: 0 <= i < |r| ==> r[i] == from + i
  {
    seq(if to > from then to - from else 0, i => from + i)
  }
}

=== FILE: discovery.dfy ===
/** Occurrence discovery for a product (`get_product_dates` and
    `get_product_booking_slots`): the first source that yields dates wins,
    and a product no source describes gets the seven days after today.
    Product metadata arrives already read; the FooEvents dates, the dates
    built from product variations and the Eventbrite events of the title's
    weekday are supplied with the product. */
module Discovery {
  import opened Wrappers
  import opened Text
  import opened Calendar
  import opened Helpers
  import opened Patterns
  import opened Events

  /** A product meta value: absent (`get_meta` gives ''), a scalar, or an array. */
  datatype Meta<T> = NoMeta | Scalar(text: string) | Items(items: seq<T>)

  /** PHP's `empty()` on a meta value. */
  predicate MetaEmpty<T>(m: Meta<T>) {
    match m
    case NoMeta => true
    case Scalar(t) => Empty(t)
    case Items(xs) => |xs| == 0
  }

  /** A non-empty array, the only shape each schema reads. */
  predicate MetaList<T>(m: Meta<T>) {
    m.Items? && |m.items| > 0
  }

  /** An entry of `_booking_slots`, which is keyed by date. */
  datatype KeyedSlot = KeyedSlot(time: Option<string>, inventory: Option<int>)

  /** An entry of `_wc_booking_availability`; `from` and `to` are parsed days. */
  datatype Availability = Availability(from: Option<Date>, to: Option<Date>, fromTime: Option<string>, toTime: Option<string>, qty: Option<int>)

  /** An entry of the generic booking schemas. */
  datatype Booking = Booking(
    date: Option<string>, time: Option<string>, hour: Option<int>, minute: Option<int>,
    stock: Option<int>, inventory: Option<int>, quantity: Option<int>)

  datatype ProductMeta = ProductMeta(
    bookingSlots: Meta<(string, KeyedSlot)>,
    availability: Meta<Availability>,
    productBookingSlots: Meta<Booking>,
    /** `_wc_slots`, `_event_slots`, `_bookings`, `_event_dates`, in that order. */
    otherSchemas: seq<Meta<Booking>>,
    /** The slots read from date and time attributes of the variations;
        None unless the product is a variable product. */
    variationSlots: Option<seq<Slot>>)

  datatype Slot = Slot(date: string, time: string, inventory: Option<int>)

  /** Which branch of `get_product_booking_slots` answered. */
  datatype SlotSource = KeyedSlots | AvailabilityRange | BookingList | Variations | TitleDays | NoSlots

  /** The slots of one availability entry: one per day of [from, to), all
      with the entry's `qty`, and its `from_time` when both times are set. */
  function AvailabilitySlots(a: Availability): (r: seq<Slot>)
    ensures a.from.None? || a.to.None? ==> r == []
    ensures a.from.Some? && a.to.Some? ==>
              |r| == |DayRange(a.from.value, a.to.value)|
  {
    if a.from.None? || a.to.None? then []
    else
      var time := if a.fromTime.Some? && a.toTime.Some? then a.fromTime.value else "";
      var n := |DayRange(a.from.value, a.to.value)|;
      seq(n, i requires 0 <= i < n => Slot(Ymd(a.from.value + i), time, a.qty))
  }

  function AllAvailabilitySlots(xs: seq<Availability>): seq<Slot> {
    if |xs| == 0 then [] else AvailabilitySlots(xs[0]) + AllAvailabilitySlots(xs[1..])
  }

  /** Every slot of an entry falls on a day of [from, to), so the `to` day
      is never produced, and carries the entry's quantity and start time. */
  lemma AvailabilityExcludesEnd(a: Availability, s: Slot)
    requires a.from.Some? && a.to.Some? && s in AvailabilitySlots(a)
    ensures exists d :: a.from.value <= d < a.to.value && s.date == Ymd(d)
    ensures s.inventory == a.qty
    ensures s.time == if a.fromTime.Some? && a.toTime.Some? then a.fromTime.value else ""
  {
    var r := AvailabilitySlots(a);
    var i :| 0 <= i < |r| && r[i] == s;
    AvailabilitySlotDay(a, i);
  }

  lemma AvailabilitySlotDay(a: Availability, i: nat)
    requires a.from.Some? && a.to.Some? && i < |AvailabilitySlots(a)|
    ensures a.from.value + i < a.to.value && AvailabilitySlots(a)[i].date == Ymd(a.from.value + i)
    ensures AvailabilitySlots(a)[i].inventory == a.qty
    ensures AvailabilitySlots(a)[i].time == if a.fromTime.Some? && a.toTime.Some? then a.fromTime.value else ""
  {
  }

  /** `sprintf('%02d', n)`: zero-padded to two digits, a minus sign before a negative. */
  function Sprintf02(n: int): (r: string)
    ensures n >= 0 ==> r == Pad2(n)
  {
    if n < 0 then "-" + NatToString(-n) else Pad2(n)
  }

  /** The entry's `time`, else its hour and minute formatted, else ''. */
  function BookingTime(b: Booking): (r: string)
    ensures b.time.Some? ==> r == b.time.value
    ensures b.time.None? && b.hour.Some? && b.minute.Some? && b.hour.value >= 0 && b.minute.value >= 0 ==>
              r == FormatHM(b.hour.value, b.minute.value)
    ensures b.time.None? && (b.hour.None? || b.minute.None?) ==> r == ""
  {
    if b.time.Some? then b.time.value
    else if b.hour.Some? && b.minute.Some? then Sprintf02(b.hour.value) + ":" + Sprintf02(b.minute.value)
    else ""
  }

  /** Inventory in the order stock, inventory, quantity. */
  function BookingInventory(b: Booking): (r: Option<int>)
    ensures b.stock.Some? ==> r == b.stock
    ensures b.stock.None? && b.inventory.Some? ==> r == b.inventory
    ensures b.stock.None? && b.inventory.None? ==> r == b.quantity
  {
    if b.stock.Some? then b.stock else if b.inventory.Some? then b.inventory else b.quantity
  }

  /** One slot per entry that has a date, in order. */
  function BookingSlots(xs: seq<Booking>): (r: seq<Slot>)
    ensures |r| <= |xs|
    ensures forall s :: s in r ==>
              exists b :: b in xs && b.date.Some? && s == Slot(b.date.value, BookingTime(b), BookingInventory(b))
    ensures forall b :: b in xs && b.date.Some? ==> Slot(b.date.value, BookingTime(b), BookingInventory(b)) in r
  {
    if |xs| == 0 then []
    else
      var rest := BookingSlots(xs[1..]);
      assert forall b :: b in xs[1..] ==> b in xs;
      assert forall b :: b in xs ==> b == xs[0] || b in xs[1..];
      if xs[0].date.None? then rest
      else [Slot(xs[0].date.value, BookingTime(xs[0]), BookingInventory(xs[0]))] + rest
  }

  /** The slots of two runs of entries are the slots of each, in order. */
  lemma {:induction false} BookingSlotsAppend(xs: seq<Booking>, ys: seq<Booking>)
    ensures BookingSlots(xs + ys) == BookingSlots(xs) + BookingSlots(ys)
  {
    if |xs| == 0 {
      assert xs + ys == ys;
    } else {
      assert (xs + ys)[0] == xs[0] && (xs + ys)[1..] == xs[1..] + ys;
      BookingSlotsAppend(xs[1..], ys);
    }
  }

  /** One entry gives its slot when it has a date and nothing otherwise;
      with BookingSlotsAppend this fixes the result entry by entry. */
  lemma BookingSlotsOne(b: Booking)
    ensures BookingSlots([b]) == if b.date.Some? then [Slot(b.date.value, BookingTime(b), BookingInventory(b))] else []
  {
    assert [b][1..] == [];
  }

  /** The first non-empty meta value of the list, else the given one. */
  function FirstNonEmpty<T>(ms: seq<Meta<T>>, otherwise: Meta<T>): (r: Meta<T>)
    ensures r == otherwise || r in ms
    ensures r != otherwise ==> !MetaEmpty(r)
    ensures (forall m :: m in ms ==> MetaEmpty(m)) ==> r == otherwise
    ensures (exists i :: 0 <= i < |ms| && !MetaEmpty(ms[i])) ==>
              exists i :: 0 <= i < |ms| && r == ms[i] && !MetaEmpty(ms[i]) && forall j :: 0 <= j < i ==> MetaEmpty(ms[j])
    ensures MetaEmpty(otherwise) ==> (r == otherwise <==> forall m :: m in ms ==> MetaEmpty(m))
  {
    if |ms| == 0 then otherwise
    else if !MetaEmpty(ms[0]) then ms[0]
    else
      var r := FirstNonEmpty(ms[1..], otherwise);
      assert forall i :: 0 < i < |ms| ==> ms[i] == ms[1..][i - 1];
      r
  }

  /** `_product_booking_slots`, or when that is empty the first non-empty
      of the other schemas. */
  function ChosenBookings(p: ProductMeta): Meta<Booking> {
    if !MetaEmpty(p.productBookingSlots) then p.productBookingSlots
    else FirstNonEmpty(p.otherSchemas, p.productBookingSlots)
  }

  /** The title's weekday: eight weekly dates, all with the title's time. */
  function TitleSlots(title: string, today: Date): (r: seq<Slot>)
    ensures ExtractDay(title).None? ==> r == []
    ensures ExtractDay(title).Some? ==> |r| == 8 && |UpcomingDates(ExtractDay(title).value, 8, today)| == 8
    ensures ExtractDay(title).Some? ==> forall i :: 0 <= i < |r| ==>
              r[i] == Slot(UpcomingDates(ExtractDay(title).value, 8, today)[i], ExtractTime(title).GetOr(""), None)
  {
    var day := ExtractDay(title);
    if day.None? then []
    else
      ExtractDayIsDayName(title);
      DaySlots(day.value, ExtractTime(title).GetOr(""), today)
  }

  /** The eight upcoming dates of a weekday, all with the same time and no inventory. */
  function DaySlots(day: string, time: string, today: Date): (r: seq<Slot>)
    requires DayIndex(day).Some?
    ensures |r| == 8 && |UpcomingDates(day, 8, today)| == 8
    ensures forall i :: 0 <= i < |r| ==> r[i] == Slot(UpcomingDates(day, 8, today)[i], time, None)
  {
    DatedSlots(UpcomingDates(day, 8, today), time)
  }

  /** One slot per date, all with the same time and no inventory. */
  function DatedSlots(ds: seq<string>, time: string): (r: seq<Slot>)
    ensures |r| == |ds|
    ensures forall i :: 0 <= i < |r| ==> r[i] == Slot(ds[i], time, None)
  {
    seq(|ds|, i requires 0 <= i < |ds| => Slot(ds[i], time, None))
  }

  /** The title's slots fall on its weekday, weekly from the first such day
      after today. */
  lemma TitleSlotsOnWeekday(title: string, today: Date, i: nat)
    requires i < |TitleSlots(title, today)|
    ensures ExtractDay(title).Some? && DayIndex(ExtractDay(title).value).Some?
    ensures var day := ExtractDay(title).value;
            var d := UpcomingDays(day, 8, today)[i];
            TitleSlots(title, today)[i].date == Ymd(d)
            && d == NextWeekday(today, DayIndex(day).value) + 7 * i
            && Weekday(d) == DayIndex(day).value
  {
    ExtractDayIsDayName(title);
    UpcomingDatesAt(ExtractDay(title).value, today, i);
  }

  /** Date i of the eight upcoming dates of a weekday: the `Y-m-d` of the
      weekday's first day after today plus i weeks. */
  lemma UpcomingDatesAt(day: string, today: Date, i: nat)
    requires DayIndex(day).Some? && i < 8
    ensures var d := UpcomingDays(day, 8, today)[i];
            |UpcomingDates(day, 8, today)| == 8
            && UpcomingDates(day, 8, today)[i] == Ymd(d)
            && d == NextWeekday(today, DayIndex(day).value) + 7 * i
            && Weekday(d) == DayIndex(day).value
  {
    UpcomingDaysStep(day, 8, today, i);
    UpcomingDaysWeekday(day, 8, today, i);
  }

  lemma {:induction false} UpcomingDaysStep(day: string, n: int, today: Date, i: nat)
    requires n > 1 && i < |UpcomingDays(day, n, today)|
    ensures UpcomingDays(day, n, today)[i] == NextWeekday(today, DayIndex(day).value) + 7 * i
    decreases i
  {
    if i > 0 {
      UpcomingDaysStep(day, n, today, i - 1);
    }
  }

  /** `get_product_booking_slots`: the schemas in fixed order, each taken
      when it is a non-empty array, even when it yields no slot; then the
      variations; then the title's weekday. */
  function ProductBookingSlots(p: ProductMeta, title: string, today: Date): (r: (SlotSource, seq<Slot>))
    ensures r.0 == KeyedSlots <==> MetaList(p.bookingSlots)
    ensures r.0 == AvailabilityRange <==> !MetaList(p.bookingSlots) && MetaList(p.availability)
    ensures r.0 == BookingList <==> !MetaList(p.bookingSlots) && !MetaList(p.availability) && MetaList(ChosenBookings(p))
    ensures r.0 == Variations <==>
              !MetaList(p.bookingSlots) && !MetaList(p.availability) && !MetaList(ChosenBookings(p))
              && p.variationSlots.Some? && |p.variationSlots.value| > 0
    ensures r.0 == TitleDays <==>
              !MetaList(p.bookingSlots) && !MetaList(p.availability) && !MetaList(ChosenBookings(p))
              && !(p.variationSlots.Some? && |p.variationSlots.value| > 0) && ExtractDay(title).Some?
    ensures r.0 == KeyedSlots ==>
              |r.1| == |p.bookingSlots.items|
              && forall i :: 0 <= i < |r.1| ==>
                   var (date, slot) := p.bookingSlots.items[i];
                   r.1[i] == Slot(date, slot.time.GetOr(""), slot.inventory)
    ensures r.0 == AvailabilityRange ==> r.1 == AllAvailabilitySlots(p.availability.items)
    ensures r.0 == BookingList ==> r.1 == BookingSlots(ChosenBookings(p).items)
    ensures r.0 == Variations ==> r.1 == p.variationSlots.value
    ensures r.0 == TitleDays ==> r.1 == TitleSlots(title, today) && |r.1| == 8
    ensures r.0 == NoSlots ==> r.1 == []
  {
    if MetaList(p.bookingSlots) then
      var xs := p.bookingSlots.items;
      (KeyedSlots, seq(|xs|, i requires 0 <= i < |xs| => Slot(xs[i].0, xs[i].1.time.GetOr(""), xs[i].1.inventory)))
    else if MetaList(p.availability) then
      (AvailabilityRange, AllAvailabilitySlots(p.availability.items))
    else if MetaList(ChosenBookings(p)) then
      (BookingList, BookingSlots(ChosenBookings(p).items))
    else if p.variationSlots.Some? && |p.variationSlots.value| > 0 then
      (Variations, p.variationSlots.value)
    else if ExtractDay(title).Some? then
      (TitleDays, TitleSlots(title, today))
    else
      (NoSlots, [])
  }

  /** A weekday title yields no slots only when a schema that is a
      non-empty array produced none: the title's weekday is never reached. */
  lemma WeekdayTitleSlots(p: ProductMeta, title: string, today: Date)
    requires ExtractDay(title).Some?
    ensures var (src, slots) := ProductBookingSlots(p, title, today);
            slots == [] ==> src == AvailabilityRange || src == BookingList
  {
  }

  // ----- get_product_dates -----

  /** Where a listed occurrence came from. */
  datatype Origin = FooEvents | BookingSlot | TitleDay | EventbriteDay(eventId: string) | Fallback | FromMappings

  /** One listed occurrence. The display-formatted date and time are not modelled. */
  datatype DateRow = DateRow(date: string, time: Option<string>, inventory: Option<int>, origin: Origin)

  /** A date already read from FooEvents' booking options. */
  datatype FooDate = FooDate(date: string, time: string, inventory: Option<int>)

  /** A product as discovery sees it. `dayEvents` are the Eventbrite events
      falling on the title's weekday. */
  datatype Product = Product(title: string, fooEvents: seq<FooDate>, meta: ProductMeta, dayEvents: seq<Event>)

  function FooRows(xs: seq<FooDate>): (r: seq<DateRow>)
    ensures |r| == |xs|
    ensures forall i :: 0 <= i < |r| ==> r[i].origin == FooEvents
  {
    seq(|xs|, i requires 0 <= i < |xs| => DateRow(xs[i].date, Some(xs[i].time), xs[i].inventory, FooEvents))
  }

  function SlotRows(xs: seq<Slot>): (r: seq<DateRow>)
    ensures |r| == |xs|
    ensures forall i :: 0 <= i < |r| ==> r[i].origin == BookingSlot && r[i].date == xs[i].date
  {
    seq(|xs|, i requires 0 <= i < |xs| => DateRow(xs[i].date, Some(xs[i].time), xs[i].inventory, BookingSlot))
  }

  /** Step 3: the title's weekday dates, with the title's time (null when none). */
  function TitleRows(title: string, today: Date): (r: seq<DateRow>)
    ensures ExtractDay(title).None? ==> r == []
    ensures ExtractDay(title).Some? ==> |r| == 8 && |UpcomingDates(ExtractDay(title).value, 8, today)| == 8
    ensures ExtractDay(title).Some? ==>
              forall i :: 0 <= i < |r| ==> r[i] == DateRow(UpcomingDates(ExtractDay(title).value, 8, today)[i], ExtractTime(title), None, TitleDay)
    ensures forall i :: 0 <= i < |r| ==> r[i].origin == TitleDay && r[i].time == ExtractTime(title)
  {
    match ExtractDay(title)
    case None => []
    case Some(day) =>
      ExtractDayIsDayName(title);
      var ds := UpcomingDates(day, 8, today);
      seq(|ds|, i requires 0 <= i < |ds| => DateRow(ds[i], ExtractTime(title), None, TitleDay))
  }

  /** The row of an event that has a start. */
  function EventDateRow(e: Event): DateRow
    requires e.start.Some?
  {
    DateRow(StartDate(e.start.value), Some(StartTime(e.start.value)), None, EventbriteDay(e.id))
  }

  /** Step 4: the weekday's Eventbrite events that have a start, in order. */
  function EventRows(es: seq<Event>): (r: seq<DateRow>)
    ensures |r| <= |es|
    ensures forall row :: row in r ==> row.origin.EventbriteDay? && row.inventory.None?
  {
    if |es| == 0 then []
    else
      match es[0].start
      case None => EventRows(es[1..])
      case Some(s) => [EventDateRow(es[0])] + EventRows(es[1..])
  }

  /** Every event with a start gives a row. */
  lemma {:induction false} EventRowsComplete(es: seq<Event>)
    ensures forall i :: 0 <= i < |es| && es[i].start.Some? ==> EventDateRow(es[i]) in EventRows(es)
  {
    if |es| > 0 {
      var rest := es[1..];
      EventRowsComplete(rest);
      forall i | 0 <= i < |es| && es[i].start.Some? ensures EventDateRow(es[i]) in EventRows(es) {
        if i > 0 {
          assert es[i] == rest[i - 1];
          assert EventDateRow(rest[i - 1]) in EventRows(rest);
        }
      }
    }
  }

  /** The rows of two runs of events are the rows of each, in order. */
  lemma {:induction false} EventRowsAppend(xs: seq<Event>, ys: seq<Event>)
    ensures EventRows(xs + ys) == EventRows(xs) + EventRows(ys)
  {
    if |xs| == 0 {
      assert xs + ys == ys;
    } else {
      assert (xs + ys)[0] == xs[0] && (xs + ys)[1..] == xs[1..] + ys;
      EventRowsAppend(xs[1..], ys);
    }
  }

  /** One event gives its row when it has a start and nothing otherwise. */
  lemma EventRowsOne(e: Event)
    ensures EventRows([e]) == if e.start.Some? then [EventDateRow(e)] else []
  {
    assert [e][1..] == [];
  }

  /** Step 5: the seven days after today, without time or inventory. */
  function FallbackRows(today: Date): (r: seq<DateRow>)
    ensures |r| == 7
    ensures forall i :: 0 <= i < 7 ==>
              r[i] == DateRow(Ymd(today + 1 + i), Some(""), None, Fallback)
  {
    seq(7, i => DateRow(Ymd(today + 1 + i), Some(""), None, Fallback))
  }

  /** `get_product_dates`: nothing for a missing product; else the first
      of FooEvents dates, booking slots, the title's weekday (when
      intelligent detection is on), the weekday's Eventbrite events, and
      the seven-day fallback that yields any dates. */
  function ProductDates(product: Option<Product>, intelligent: bool, today: Date): (r: seq<DateRow>)
    ensures product.None? <==> r == []
  {
    match product
    case None => []
    case Some(p) =>
      var slots := ProductBookingSlots(p.meta, p.title, today).1;
      if |p.fooEvents| > 0 then FooRows(p.fooEvents)
      else if |slots| > 0 then SlotRows(slots)
      else if intelligent && ExtractDay(p.title).Some? then TitleRows(p.title, today)
      else if ExtractDay(p.title).Some? && |EventRows(p.dayEvents)| > 0 then EventRows(p.dayEvents)
      else FallbackRows(today)
  }

  /** Source precedence: every row comes from the first source that yields
      any, and the fallback is used exactly when none does. */
  lemma ProductDatesPrecedence(p: Product, intelligent: bool, today: Date)
    ensures var r := ProductDates(Some(p), intelligent, today);
            var slots := ProductBookingSlots(p.meta, p.title, today).1;
            && (|p.fooEvents| > 0 ==> forall row :: row in r ==> row.origin == FooEvents)
            && (|p.fooEvents| == 0 && |slots| > 0 ==> r == SlotRows(slots))
            && (r == FallbackRows(today) <==>
                  |p.fooEvents| == 0 && |slots| == 0
                  && !(intelligent && ExtractDay(p.title).Some?)
                  && !(ExtractDay(p.title).Some? && |EventRows(p.dayEvents)| > 0))
  {
    var r := ProductDates(Some(p), intelligent, today);
    var slots := ProductBookingSlots(p.meta, p.title, today).1;
    if |p.fooEvents| > 0 {
      assert r[0].origin == FooEvents;
    } else if |slots| > 0 {
      assert r[0].origin == BookingSlot;
    } else if intelligent && ExtractDay(p.title).Some? {
      assert r[0].origin == TitleDay;
    } else if ExtractDay(p.title).Some? && |EventRows(p.dayEvents)| > 0 {
      assert r[0] in EventRows(p.dayEvents);
    }
  }

  /** With intelligent detection on, a product whose title names a weekday
      never gets the seven-day fallback. */
  lemma WeekdayTitleNeverFallsBack(p: Product, today: Date)
    requires ExtractDay(p.title).Some?
    ensures forall row :: row in ProductDates(Some(p), true, today) ==> row.origin != Fallback
  {
    var slots := ProductBookingSlots(p.meta, p.title, today).1;
    var r := ProductDates(Some(p), true, today);
    if |p.fooEvents| == 0 && |slots| > 0 {
      assert r == SlotRows(slots);
    }
  }

  /** The title-weekday step of get_product_dates is only reached when a
      booking schema was present but produced no slot; otherwise the
      booking-slot step already answered with the same weekday dates. */
  lemma TitleStepShadowed(p: Product, today: Date)
    requires |p.fooEvents| == 0 && ExtractDay(p.title).Some?
    ensures var r := ProductDates(Some(p), true, today);
            r[0].origin == TitleDay ==>
              ProductBookingSlots(p.meta, p.title, today).0 in {AvailabilityRange, BookingList}
  {
    WeekdayTitleSlots(p.meta, p.title, today);
    var slots := ProductBookingSlots(p.meta, p.title, today).1;
    if |slots| > 0 {
      assert ProductDates(Some(p), true, today)[0].origin == BookingSlot;
    }
  }

  /** The fallback starts tomorrow and covers seven consecutive days. */
  lemma FallbackStartsTomorrow(today: Date)
    ensures FallbackRows(today)[0].date == Ymd(today + 1)
    ensures FallbackRows(today)[6].date == Ymd(today + 7)
    ensures forall row :: row in FallbackRows(today) ==> row.inventory.None? && row.origin == Fallback
  {
    var r := FallbackRows(today);
    assert r[0].date == Ymd(today + 1);
    assert r[6].date == Ymd(today + 7);
    forall row | row in r ensures row.inventory.None? && row.origin == Fallback {
      var i :| 0 <= i < |r| && r[i] == row;
    }
  }
}

=== FILE: enhanced.dfy ===
/** The enhanced mapping editor (`get_product_dates_enhanced`): the
    discovered dates, optionally extended by the Eventbrite events of the
    title's weekday that resemble the product, the stored ids applied to
    every row, and suggestions keyed "<date>_<event time>". */
module Enhanced {
  import opened Wrappers
  import opened Text
  import opened Assoc
  import opened Calendar
  import opened Helpers
  import opened Patterns
  import opened Events
  import opened Sorting
  import opened Mappings
  import opened Discovery
  import opened Listing

  /** The two clock times are at most the buffer apart. */
  predicate WithinBuffer(t1: string, t2: string) {
    Abs(TimeToMinutes(t1) - TimeToMinutes(t2)) <= TimeBufferMinutes
  }

  /** The title has a time and the event starts within the buffer of it. */
  predicate TitleTimeMatches(timeInfo: Option<string>, s: Start) {
    timeInfo.Some? && !Empty(timeInfo.value) && WithinBuffer(timeInfo.value, StartTime(s))
  }

  /** A weekday event kept for the date list, with its boosted similarity. */
  datatype Candidate = Candidate(item: Listed, similarity: int)

  /** The day-event filter: similarity boosted by 20 when the title's time
      matches; kept when the boosted similarity exceeds 60 or the time
      matches, and only with a first paid ticket whose id is non-empty. */
  function DayEventCandidate(e: Event, timeInfo: Option<string>): (r: Option<Candidate>)
    ensures r.Some? ==> e.start.Some?
    ensures r.Some? ==>
              r.value.similarity == e.similarity + (if TitleTimeMatches(timeInfo, e.start.value) then 20 else 0)
              && (r.value.similarity > 60 || TitleTimeMatches(timeInfo, e.start.value))
    ensures r.Some? ==>
              FirstPaid(e.tickets).Some? && !Empty(FirstPaid(e.tickets).value.id)
              && r.value.item.eventbriteId == Some(FirstPaid(e.tickets).value.id) && r.value.item.suggestion
    ensures r.Some? ==> r.value.item.row == DateRow(StartDate(e.start.value), Some(StartTime(e.start.value)), None, EventbriteDay(e.id))
    ensures e.start.Some? && e.similarity > 60 && FirstPaid(e.tickets).Some? && !Empty(FirstPaid(e.tickets).value.id) ==> r.Some?
  {
    match e.start
    case None => None
    case Some(s) =>
      var matches := TitleTimeMatches(timeInfo, s);
      var sim := e.similarity + (if matches then 20 else 0);
      if !(sim > 60 || matches) then None
      else
        match FirstPaid(e.tickets)
        case None => None
        case Some(ticket) =>
          if Empty(ticket.id) then None
          else
            var row := DateRow(StartDate(s), Some(StartTime(s)), None, EventbriteDay(e.id));
            Some(Candidate(Listed(row, Some(ticket.id), None, true), sim))
  }

  /** An event without a time match needs a similarity above 60. */
  lemma DissimilarEventDropped(e: Event, timeInfo: Option<string>)
    requires e.similarity <= 60
    requires e.start.None? || !TitleTimeMatches(timeInfo, e.start.value)
    ensures DayEventCandidate(e, timeInfo).None?
  {
  }

  function Candidates(es: seq<Event>, timeInfo: Option<string>): (r: seq<Candidate>)
    ensures |r| <= |es|
  {
    Somes(es, e => DayEventCandidate(e, timeInfo))
  }

  /** The kept rows are exactly the candidates of the events that pass the
      filter: each comes from some event, and every passing event gives one. */
  lemma CandidatesAreKeptEvents(es: seq<Event>, timeInfo: Option<string>, c: Candidate)
    ensures c in Candidates(es, timeInfo) <==> exists k :: 0 <= k < |es| && DayEventCandidate(es[k], timeInfo) == Some(c)
  {
    SomesMembers(es, e => DayEventCandidate(e, timeInfo), c);
  }

  function Similarity(c: Candidate): int {
    c.similarity
  }

  function Items(cs: seq<Candidate>): (r: seq<Listed>)
    ensures |r| == |cs|
    ensures forall i :: 0 <= i < |cs| ==> r[i] == cs[i].item
  {
    seq(|cs|, i requires 0 <= i < |cs| => cs[i].item)
  }

  /** The kept weekday events, most similar first. */
  function DayEventRows(es: seq<Event>, timeInfo: Option<string>): seq<Candidate> {
    SortDesc(Candidates(es, timeInfo), Similarity)
  }

  /** The day-event rows are exactly the kept events, in non-increasing
      similarity, events of equal similarity in their original order. */
  lemma DayEventRowsOrdered(es: seq<Event>, timeInfo: Option<string>, k: int)
    ensures multiset(DayEventRows(es, timeInfo)) == multiset(Candidates(es, timeInfo))
    ensures SortedDesc(DayEventRows(es, timeInfo), Similarity)
    ensures WithKey(DayEventRows(es, timeInfo), Similarity, k) == WithKey(Candidates(es, timeInfo), Similarity, k)
  {
    SortDescSorted(Candidates(es, timeInfo), Similarity);
    SortDescStable(Candidates(es, timeInfo), Similarity, k);
  }

  /** The enhanced editor's mapping step: the exact key's ids, else the
      date's, else the row as it was (no suggestion here). */
  function ApplyMappings(x: Listed, occ: Occurrences): (r: Listed)
    ensures Get(occ, OccurrenceKey(x.row.date, x.row.time)).None? && Get(occ, x.row.date).None? ==> r == x
  {
    match Get(occ, OccurrenceKey(x.row.date, x.row.time))
    case Some(m) => x.(eventbriteId := Some(m.eventbriteId), squareId := Some(m.squareId))
    case None =>
      match Get(occ, x.row.date)
      case Some(m) => x.(eventbriteId := Some(m.eventbriteId), squareId := Some(m.squareId))
      case None => x
  }

  /** Both editors attach the same stored ids whenever the row's key or
      date is stored; they differ only for rows with no stored mapping. */
  lemma ApplyMappingsAgreesWithAttach(x: Listed, occ: Occurrences, baseId: string, suggest: (string, string) -> string)
    requires Get(occ, OccurrenceKey(x.row.date, x.row.time)).Some? || Get(occ, x.row.date).Some?
    ensures ApplyMappings(x, occ) == AttachIds(x, occ, baseId, suggest)
  {
  }

  // ----- suggestions -----

  datatype Suggestion = Suggestion(eventbriteId: string, eventName: string, venue: string, eventTime: string, similarity: int)

  /** Every (date, event) pair in the order the suggestion loop visits them. */
  function SuggestionPairs(dates: seq<string>, eventsForDate: string -> seq<Event>): (r: seq<(string, Event)>)
    ensures forall p :: p in r ==> p.0 in dates && p.1 in eventsForDate(p.0)
  {
    if |dates| == 0 then []
    else
      var first := seq(|eventsForDate(dates[0])|, i requires 0 <= i < |eventsForDate(dates[0])| => (dates[0], eventsForDate(dates[0])[i]));
      first + SuggestionPairs(dates[1..], eventsForDate)
  }

  /** A pair yields a suggestion when the event starts within the buffer of
      the title's time, its similarity exceeds 60 and it has a paid ticket. */
  predicate Qualifies(timeInfo: Option<string>, p: (string, Event)) {
    p.1.start.Some? && TitleTimeMatches(timeInfo, p.1.start.value)
    && p.1.similarity > 60 && FirstPaid(p.1.tickets).Some?
  }

  function SuggestionKey(p: (string, Event)): string
    requires p.1.start.Some?
  {
    p.0 + "_" + StartTime(p.1.start.value)
  }

  function SuggestionOf(p: (string, Event)): Suggestion
    requires p.1.start.Some? && FirstPaid(p.1.tickets).Some?
  {
    Suggestion(FirstPaid(p.1.tickets).value.id, p.1.name, p.1.venue, StartTime(p.1.start.value), p.1.similarity)
  }

  /** The suggestion map, pairs taken in order, a later pair overwriting
      an earlier one with the same key. */
  function FoldSuggestions(pairs: seq<(string, Event)>, timeInfo: Option<string>): Assoc<string, Suggestion> {
    if |pairs| == 0 then []
    else
      var acc := FoldSuggestions(pairs[..|pairs| - 1], timeInfo);
      var p := pairs[|pairs| - 1];
      if Qualifies(timeInfo, p) then Put(acc, SuggestionKey(p), SuggestionOf(p)) else acc
  }

  /** Reference definition: the suggestion of the last qualifying pair with key k. */
  function LastSuggestion(pairs: seq<(string, Event)>, timeInfo: Option<string>, k: string): (r: Option<Suggestion>)
    ensures r.Some? ==> exists i :: 0 <= i < |pairs| && Qualifies(timeInfo, pairs[i]) && SuggestionKey(pairs[i]) == k && r.value == SuggestionOf(pairs[i])
  {
    if |pairs| == 0 then None
    else
      var p := pairs[|pairs| - 1];
      if Qualifies(timeInfo, p) && SuggestionKey(p) == k then Some(SuggestionOf(p))
      else LastSuggestion(pairs[..|pairs| - 1], timeInfo, k)
  }

  lemma {:induction false} FoldSuggestionsLastWins(pairs: seq<(string, Event)>, timeInfo: Option<string>, k: string)
    ensures Get(FoldSuggestions(pairs, timeInfo), k) == LastSuggestion(pairs, timeInfo, k)
  {
    if |pairs| > 0 {
      var init := pairs[..|pairs| - 1];
      var p := pairs[|pairs| - 1];
      FoldSuggestionsLastWins(init, timeInfo, k);
      if Qualifies(timeInfo, p) {
        PutGet(FoldSuggestions(init, timeInfo), SuggestionKey(p), SuggestionOf(p), k);
      }
    }
  }

  /** The suggestions with the weekday dates computed by the helper, as the
      code evidently intends: nothing without a weekday in the title. */
  function Suggestions(day: Option<string>, timeInfo: Option<string>, eventsForDate: string -> seq<Event>, today: Date): (r: Assoc<string, Suggestion>)
    ensures day.None? ==> r == []
    ensures day.Some? ==> forall k :: Get(r, k) == LastSuggestion(SuggestionPairs(UpcomingDates(day.value, 8, today), eventsForDate), timeInfo, k)
  {
    if day.None? then []
    else
      var pairs := SuggestionPairs(UpcomingDates(day.value, 8, today), eventsForDate);
      assert forall k :: Get(FoldSuggestions(pairs, timeInfo), k) == LastSuggestion(pairs, timeInfo, k) by {
        forall k {
          FoldSuggestionsLastWins(pairs, timeInfo, k);
        }
      }
      FoldSuggestions(pairs, timeInfo)
  }

  /** Every suggestion comes from an upcoming date of the weekday and a
      qualifying event of that date, under the key "<date>_<event time>",
      and a key holds the last such event. */
  lemma SuggestionsSound(day: string, timeInfo: Option<string>, eventsForDate: string -> seq<Event>, today: Date, k: string)
    requires Get(Suggestions(Some(day), timeInfo, eventsForDate, today), k).Some?
    ensures exists p :: p in SuggestionPairs(UpcomingDates(day, 8, today), eventsForDate)
              && p.0 in UpcomingDates(day, 8, today) && Qualifies(timeInfo, p)
              && k == SuggestionKey(p)
              && Get(Suggestions(Some(day), timeInfo, eventsForDate, today), k) == Some(SuggestionOf(p))
  {
    FoldSuggestionsLastWins(SuggestionPairs(UpcomingDates(day, 8, today), eventsForDate), timeInfo, k);
  }

  /** The suggestion step as written: it asks the mapping class, which has no
      such method, for the weekday's dates, so it stops with a fatal error
      whenever the title names a weekday. */
  function SuggestionsAsWritten(day: Option<string>): (r: Result<Assoc<string, Suggestion>>)
    ensures day.Some? <==> r.Failure?
  {
    if day.Some? then Failure("Call to undefined method BRCC_Product_Mappings::get_upcoming_dates_for_day()")
    else Success([])
  }

  /** Every product whose title names a weekday makes the enhanced editor
      fail as written, while the intended suggestion step is defined. */
  lemma SuggestionsAsWrittenFailsOnWeekday(title: string)
    requires ExtractDay(title).Some?
    ensures SuggestionsAsWritten(ExtractDay(title)).Failure?
  {
  }

  // ----- get_product_dates_enhanced -----

  datatype EnhancedReply = EnhancedReply(
    dates: seq<Listed>, baseId: string, fromEventbrite: bool,
    suggestions: Assoc<string, Suggestion>, times: seq<TimeOption>)

  /** The date list before mappings are applied: the discovered dates,
      replaced by Eventbrite dates of the default event (`remote`) when
      fetching with a default id, or extended by the weekday's resembling
      events when fetching without one. */
  function EnhancedDates(p: Product, baseId: string, fetch: bool, remote: seq<DateRow>, today: Date): (r: seq<Listed>)
    ensures !fetch ==> r == Unlisted(ProductDates(Some(p), true, today))
    ensures fetch && !Empty(baseId) ==>
              r == (if |remote| > 0 then Unlisted(remote) else Unlisted(ProductDates(Some(p), true, today)))
    ensures fetch && Empty(baseId) && ExtractDay(p.title).None? ==> r == Unlisted(ProductDates(Some(p), true, today))
  {
    var dates := Unlisted(ProductDates(Some(p), true, today));
    if fetch && !Empty(baseId) then (if |remote| > 0 then Unlisted(remote) else dates)
    else if fetch && ExtractDay(p.title).Some? then dates + Items(DayEventRows(p.dayEvents, ExtractTime(p.title)))
    else dates
  }

  /** `get_product_dates_enhanced`, with the suggestion step as intended:
      a missing product gives no dates; otherwise the date list with the
      stored ids applied and the suggestions. The reply's source says
      "eventbrite" whenever fetching was asked for. */
  function EnhancedProductDates(s: Store, pid: nat, product: Option<Product>, fetch: bool, remote: seq<DateRow>,
                                eventsForDate: string -> seq<Event>, today: Date): (r: Result<EnhancedReply>)
    ensures product.None? <==> r.Failure?
    ensures r.Success? ==> r.value.fromEventbrite == fetch && r.value.times == CommonTimes()
    ensures r.Success? ==> r.value.baseId == GetProductMappings(s, pid, "", "").eventbriteId
    ensures r.Success? && ExtractDay(product.value.title).None? ==> r.value.suggestions == []
    ensures r.Success? ==>
              var dates := EnhancedDates(product.value, r.value.baseId, fetch, remote, today);
              |r.value.dates| == |dates|
              && forall i :: 0 <= i < |dates| ==> r.value.dates[i] == ApplyMappings(dates[i], Occ(s, pid))
  {
    match product
    case None => Failure("Product not found.")
    case Some(p) =>
      var baseId := GetProductMappings(s, pid, "", "").eventbriteId;
      var dates := EnhancedDates(p, baseId, fetch, remote, today);
      var occ := Occ(s, pid);
      var applied := seq(|dates|, i requires 0 <= i < |dates| => ApplyMappings(dates[i], occ));
      var suggestions := Suggestions(ExtractDay(p.title), ExtractTime(p.title), eventsForDate, today);
      Success(EnhancedReply(applied, baseId, fetch, suggestions, CommonTimes()))
  }

  /** A reply row whose occurrence key is stored shows that key's ids;
      otherwise, when its date is stored, the date's ids. */
  lemma EnhancedRowShowsStored(s: Store, pid: nat, p: Product, fetch: bool, remote: seq<DateRow>,
                               eventsForDate: string -> seq<Event>, today: Date, i: nat)
    requires i < |EnhancedProductDates(s, pid, Some(p), fetch, remote, eventsForDate, today).value.dates|
    ensures var reply := EnhancedProductDates(s, pid, Some(p), fetch, remote, eventsForDate, today).value;
            var x := EnhancedDates(p, reply.baseId, fetch, remote, today)[i];
            var occ := Occ(s, pid);
            && (Get(occ, OccurrenceKey(x.row.date, x.row.time)).Some? ==>
                  var m := Get(occ, OccurrenceKey(x.row.date, x.row.time)).value;
                  reply.dates[i] == x.(eventbriteId := Some(m.eventbriteId), squareId := Some(m.squareId)))
            && (Get(occ, OccurrenceKey(x.row.date, x.row.time)).None? && Get(occ, x.row.date).Some? ==>
                  var m := Get(occ, x.row.date).value;
                  reply.dates[i] == x.(eventbriteId := Some(m.eventbriteId), squareId := Some(m.squareId)))
            && (Get(occ, OccurrenceKey(x.row.date, x.row.time)).None? && Get(occ, x.row.date).None? ==> reply.dates[i] == x)
  {
  }

  /** Fetching without a default id appends the weekday's resembling
      events after the discovered dates, most similar first. */
  lemma EnhancedDatesAppendsDayEvents(p: Product, fetch: bool, remote: seq<DateRow>, today: Date)
    requires fetch && ExtractDay(p.title).Some?
    ensures var found := Unlisted(ProductDates(Some(p), true, today));
            var extra := DayEventRows(p.dayEvents, ExtractTime(p.title));
            var r := EnhancedDates(p, "", fetch, remote, today);
            |r| == |found| + |extra| && r[..|found|] == found
            && forall i :: 0 <= i < |extra| ==> r[|found| + i] == extra[i].item
  {
  }
}

=== FILE: events.dfy ===
/** Eventbrite events as the plugin reads them from the API response. The
    start is already a day ordinal and a clock time (the response's local
    start time parsed by `strtotime`), and the title similarity against
    the product name, which PHP computes with `similar_text`, is supplied
    with each event as an integer percentage. */
module Events {
  import opened Wrappers
  import opened Text
  import opened Calendar
  import opened Helpers

  datatype Ticket = Ticket(id: string, free: bool)

  /** `start.local`: a day and an hour and minute of that day. */
  datatype Start = Start(day: Date, hour: nat, minute: nat)

  datatype Event = Event(
    id: string,
    name: string,
    start: Option<Start>,
    venue: string,
    tickets: Option<seq<Ticket>>,
    similarity: int)

  /** `date('Y-m-d', strtotime(start.local))`. */
  function StartDate(s: Start): string {
    Ymd(s.day)
  }

  /** `date('H:i', strtotime(start.local))`. */
  function StartTime(s: Start): (r: string)
    ensures |r| >= 5
  {
    FormatHM(s.hour, s.minute)
  }

  /** The ticket classes that are not free, in order. */
  function PaidTickets(ts: seq<Ticket>): (r: seq<Ticket>)
    ensures forall t :: t in r ==> t in ts && !t.free
    ensures forall t :: t in ts && !t.free ==> t in r
  {
    if |ts| == 0 then []
    else
      assert ts == [ts[0]] + ts[1..];
      if ts[0].free then PaidTickets(ts[1..])
      else [ts[0]] + PaidTickets(ts[1..])
  }

  /** Every paid ticket class is kept as often as it occurs, every free
      one is dropped. */
  lemma {:induction false} PaidTicketsCount(ts: seq<Ticket>)
    ensures forall t :: multiset(PaidTickets(ts))[t] == if t.free then 0 else multiset(ts)[t]
  {
    if |ts| > 0 {
      assert ts == [ts[0]] + ts[1..];
      PaidTicketsCount(ts[1..]);
    }
  }

  /** The filter distributes over concatenation, so together with its
      value on one ticket it fixes the order of the result. */
  lemma {:induction false} PaidTicketsAppend(a: seq<Ticket>, b: seq<Ticket>)
    ensures PaidTickets(a + b) == PaidTickets(a) + PaidTickets(b)
  {
    if |a| == 0 {
      assert a + b == b;
    } else {
      assert (a + b)[0] == a[0] && (a + b)[1..] == a[1..] + b;
      PaidTicketsAppend(a[1..], b);
    }
  }

  /** One ticket is kept exactly when it is not free. */
  lemma PaidTicketsOne(t: Ticket)
    ensures PaidTickets([t]) == if t.free then [] else [t]
  {
    assert [t][1..] == [];
  }

  /** The first paid ticket class sits after free ones only. */
  lemma {:induction false} PaidTicketsHead(ts: seq<Ticket>)
    requires |PaidTickets(ts)| > 0
    ensures exists i :: 0 <= i < |ts| && ts[i] == PaidTickets(ts)[0] && forall j :: 0 <= j < i ==> ts[j].free
  {
    if ts[0].free {
      PaidTicketsHead(ts[1..]);
      var i :| 0 <= i < |ts[1..]| && ts[1..][i] == PaidTickets(ts[1..])[0] && forall j :: 0 <= j < i ==> ts[1..][j].free;
      assert ts[i + 1] == ts[1..][i];
      assert forall j :: 0 <= j < i + 1 ==> ts[j].free by {
        forall j | 0 <= j < i + 1 ensures ts[j].free {
          if j > 0 { assert ts[j] == ts[1..][j - 1]; }
        }
      }
    } else {
      assert ts[0] == PaidTickets(ts)[0];
    }
  }

  /** The first ticket class that is not free, if the event lists any. */
  function FirstPaid(ts: Option<seq<Ticket>>): (r: Option<Ticket>)
    ensures r.Some? ==> !r.value.free && ts.Some? && r.value in ts.value
    ensures r.Some? ==> exists i :: 0 <= i < |ts.value| && ts.value[i] == r.value && forall j :: 0 <= j < i ==> ts.value[j].free
    ensures r.None? <==> ts.None? || forall t :: t in ts.value ==> t.free
  {
    if ts.None? || |PaidTickets(ts.value)| == 0 then None
    else
      PaidTicketsHead(ts.value);
      Some(PaidTickets(ts.value)[0])
  }
}

=== FILE: helpers.dfy ===
/** The plugin's static helpers: weekday detection in titles, the
    minute-tolerance time comparison, upcoming-weekday generation and the
    bounded operation log. */
module Helpers {
  import opened Wrappers
  import opened Text
  import opened Calendar

  /** The tolerance, in minutes, under which two show times are the same show. */
  const TimeBufferMinutes: nat := 30

  /** The weekday names in the order the plugin searches them, Sunday first,
      so that position i is also PHP's `date('w')` of that day. */
  const DayNames: seq<string> := ["sunday", "monday", "tuesday", "wednesday", "thursday", "friday", "saturday"]

  /** Index of the first name in DayNames, from position i on, that occurs in t. */
  function FirstDayFrom(t: string, i: nat): (r: Option<nat>)
    requires i <= 7
    ensures r.Some? ==> i <= r.value < 7 && Contains(t, DayNames[r.value])
    ensures r.Some? ==> forall j :: i <= j < r.value ==> !Contains(t, DayNames[j])
    ensures r.None? ==> forall j :: i <= j < 7 ==> !Contains(t, DayNames[j])
    decreases 7 - i
  {
    if i == 7 then None
    else if Contains(t, DayNames[i]) then Some(i)
    else FirstDayFrom(t, i + 1)
  }

  /** `extract_day_from_title`: the first weekday name, in Sunday-to-Saturday
      order, occurring anywhere in the lower-cased title; its position in
      the title does not matter and there is no word-boundary check. */
  function ExtractDay(title: string): (r: Option<string>)
    ensures r.None? <==> forall j :: 0 <= j < 7 ==> !Contains(ToLower(title), DayNames[j])
    ensures r.Some? ==>
              exists i :: 0 <= i < 7 && r.value == DayNames[i]
                && Contains(ToLower(title), DayNames[i])
                && forall j :: 0 <= j < i ==> !Contains(ToLower(title), DayNames[j])
  {
    match FirstDayFrom(ToLower(title), 0)
    case None => None
    case Some(i) => Some(DayNames[i])
  }

  /** Two weekdays in one title: list order wins, not position in the title. */
  lemma ExtractDayListOrder(title: string)
    requires title == "Monday & Sunday"
    ensures ExtractDay(title) == Some("sunday")
  {
    var t := ToLower(title);
    assert Contains(t, "sunday") by {
      assert LowerChar('S') == 's';
      assert t[9..15] == "sunday";
      assert OccursAt(t, "sunday", 9);
      ContainsIff(t, "sunday");
    }
    assert FirstDayFrom(t, 0) == Some(0) by {
      assert DayNames[0] == "sunday";
    }
  }

  /** `time_to_minutes`: hours before the first colon times 60 plus the
      minutes after it, each read by `intval`; a time without a colon has
      0 minutes (the missing list element is null). */
  function TimeToMinutes(t: string): int {
    match SplitFirst(t, ':')
    case None => IntVal(t) * 60
    case Some((h, m)) => IntVal(h) * 60 + IntVal(m)
  }

  /** `sprintf('%02d:%02d', h, m)`. */
  function FormatHM(h: nat, m: nat): (r: string)
    ensures |r| >= 5
  {
    Pad2(h) + ":" + Pad2(m)
  }

  /** Formatting a time and reading it back gives its minute count. */
  lemma TimeToMinutesFormatHM(h: nat, m: nat)
    ensures TimeToMinutes(FormatHM(h, m)) == h * 60 + m
  {
    var hs, ms := Pad2(h), Pad2(m);
    assert ':' !in hs by {
      assert AllDigits(hs);
    }
    SplitJoin(hs, ms, ':');
    assert FormatHM(h, m) == hs + [':'] + ms;
    IntValOfDigits(hs);
    IntValOfDigits(ms);
  }

  function Abs(x: int): nat {
    if x < 0 then -x else x
  }

  /** `BRCC_Helpers::is_time_close`: false when either time is empty
      (PHP-empty, so "0" too); otherwise whether the minute counts differ
      by at most the buffer, inclusive. */
  function IsTimeClose(t1: string, t2: string, buffer: int): (r: bool)
    ensures r ==> !Empty(t1) && !Empty(t2)
  {
    !Empty(t1) && !Empty(t2) && Abs(TimeToMinutes(t1) - TimeToMinutes(t2)) <= buffer
  }

  lemma IsTimeCloseSymmetric(t1: string, t2: string, buffer: int)
    ensures IsTimeClose(t1, t2, buffer) <==> IsTimeClose(t2, t1, buffer)
  {
  }

  /** Every non-empty time is close to itself under a non-negative buffer. */
  lemma IsTimeCloseReflexive(t: string, buffer: int)
    requires !Empty(t) && buffer >= 0
    ensures IsTimeClose(t, t, buffer)
  {
  }

  /** On two formatted times the comparison is the inclusive bound on the
      difference of their minute counts. */
  lemma IsTimeCloseFormatted(h1: nat, m1: nat, h2: nat, m2: nat, buffer: int)
    ensures IsTimeClose(FormatHM(h1, m1), FormatHM(h2, m2), buffer)
        <==> Abs((h1 * 60 + m1) - (h2 * 60 + m2)) <= buffer
  {
    var t1, t2 := FormatHM(h1, m1), FormatHM(h2, m2);
    TimeToMinutesFormatHM(h1, m1);
    TimeToMinutesFormatHM(h2, m2);
    FormattedNotEmpty(t1);
    FormattedNotEmpty(t2);
  }

  lemma FormattedNotEmpty(t: string)
    requires |t| >= 5
    ensures !Empty(t)
  {
  }

  /** `^\d{1,2}:\d{2}$`. */
  predicate IsHi(t: string) {
    (|t| == 4 || |t| == 5) && t[|t| - 3] == ':'
    && AllDigits(t[..|t| - 3]) && AllDigits(t[|t| - 2..])
  }

  /** What the integration's private `is_time_close` decides without
      `strtotime`'s own parsing: a verdict, or Undetermined when the answer
      rests on how `strtotime` reads a time not in `H:i` form or out of
      range. */
  datatype Verdict = Close(close: bool) | Undetermined

  /** The private `is_time_close` of the Eventbrite integration: true when
      either time is empty; two in-range `H:i` times compare by minutes. */
  function PrivateIsTimeClose(t1: string, t2: string, buffer: int): (r: Verdict)
    ensures Empty(t1) || Empty(t2) ==> r == Close(true)
  {
    if Empty(t1) || Empty(t2) then Close(true)
    else if IsHi(t1) && IsHi(t2) && InDay(t1) && InDay(t2) then
      Close(Abs(TimeToMinutes(t1) - TimeToMinutes(t2)) <= buffer)
    else Undetermined
  }

  /** An `H:i` time whose hour and minute name a time of day. */
  predicate InDay(t: string)
    requires IsHi(t)
  {
    var p := t[..|t| - 3];
    IntValOfDigits(p);
    IntValOfDigits(t[|t| - 2..]);
    DigitsValue(p) <= 23 && DigitsValue(t[|t| - 2..]) <= 59
  }

  /** The two comparisons agree on non-empty in-range times and disagree
      exactly when a time is missing. */
  lemma PrivateIsTimeCloseAgrees(t1: string, t2: string, buffer: int)
    requires IsHi(t1) && IsHi(t2) && InDay(t1) && InDay(t2) && !Empty(t1) && !Empty(t2)
    ensures PrivateIsTimeClose(t1, t2, buffer) == Close(IsTimeClose(t1, t2, buffer))
  {
  }

  lemma PrivateIsTimeCloseDisagreesOnEmpty(t: string, buffer: int)
    ensures PrivateIsTimeClose("", t, buffer) == Close(true)
    ensures !IsTimeClose("", t, buffer)
  {
  }

  /** Position of a lower-cased day name in DayNames. */
  function DayIndex(name: string): (r: Option<nat>)
    ensures r.Some? ==> r.value < 7 && DayNames[r.value] == ToLower(name)
    ensures r.None? ==> ToLower(name) !in DayNames
  {
    var t := ToLower(name);
    if t == "sunday" then Some(0) else if t == "monday" then Some(1)
    else if t == "tuesday" then Some(2) else if t == "wednesday" then Some(3)
    else if t == "thursday" then Some(4) else if t == "friday" then Some(5)
    else if t == "saturday" then Some(6) else None
  }

  /** Lower-casing leaves a string without capitals unchanged. */
  lemma ToLowerWithoutCapitals(s: string)
    requires forall i :: 0 <= i < |s| ==> !('A' <= s[i] <= 'Z')
    ensures ToLower(s) == s
  {
    assert forall i :: 0 <= i < |s| ==> ToLower(s)[i] == s[i];
  }

  /** The name extract_day_from_title returns is one get_upcoming_dates_for_day knows. */
  lemma ExtractDayIsDayName(title: string)
    requires ExtractDay(title).Some?
    ensures DayIndex(ExtractDay(title).value).Some?
  {
    var i :| 0 <= i < 7 && ExtractDay(title).value == DayNames[i];
    ToLowerWithoutCapitals(DayNames[i]);
  }

  /** The first day after today falling on weekday w: 1 to 7 days later,
      7 when today already is a w. */
  function NextWeekday(today: Date, w: nat): (r: Date)
    requires w < 7
    ensures today < r <= today + 7 && Weekday(r) == w
    ensures Weekday(today) == w ==> r == today + 7
  {
    var du := (w - Weekday(today) + 7) % 7;
    today + (if du == 0 then 7 else du)
  }

  /** No day strictly between today and NextWeekday falls on that weekday. */
  lemma NextWeekdayIsNearest(today: Date, w: nat, d: Date)
    requires w < 7 && today < d < NextWeekday(today, w)
    ensures Weekday(d) != w
  {
    WeekdayShift(NextWeekday(today, w), d - NextWeekday(today, w));
  }

  /** `get_upcoming_dates_for_day` on day ordinals, with today passed in:
      an unknown name gives no dates; today alone when it is the day and at
      most one date is asked for; otherwise numDates weekly dates from the
      next such day after today. */
  function UpcomingDays(dayName: string, numDates: int, today: Date): (r: seq<Date>)
    ensures DayIndex(dayName).None? ==> r == []
    ensures DayIndex(dayName).Some? && numDates >= 1 ==> |r| == numDates
    ensures DayIndex(dayName).Some? && Weekday(today) == DayIndex(dayName).value && numDates <= 1 ==> r == [today]
    ensures DayIndex(dayName).Some? && Weekday(today) != DayIndex(dayName).value && numDates <= 0 ==> r == []
    ensures forall k :: 0 < k < |r| ==> r[k] == r[k - 1] + 7
    ensures numDates > 1 && |r| > 0 ==> r[0] == NextWeekday(today, DayIndex(dayName).value)
  {
    match DayIndex(dayName)
    case None => []
    case Some(di) =>
      if Weekday(today) == di && numDates <= 1 then [today]
      else
        var start := NextWeekday(today, di);
        seq(if numDates < 0 then 0 else numDates, k => start + 7 * k)
  }

  /** Every generated date falls on the named weekday. */
  lemma {:induction false} UpcomingDaysWeekday(dayName: string, numDates: int, today: Date, k: nat)
    requires k < |UpcomingDays(dayName, numDates, today)|
    ensures DayIndex(dayName).Some?
    ensures Weekday(UpcomingDays(dayName, numDates, today)[k]) == DayIndex(dayName).value
  {
    var r := UpcomingDays(dayName, numDates, today);
    var di := DayIndex(dayName).value;
    if !(Weekday(today) == di && numDates <= 1) {
      var start := NextWeekday(today, di);
      assert r[k] == start + 7 * k;
      WeekdayShift(start, 7 * k);
    }
  }

  /** The dates as `Y-m-d` strings, as the plugin returns them. */
  function UpcomingDates(dayName: string, numDates: int, today: Date): (r: seq<string>)
    ensures |r| == |UpcomingDays(dayName, numDates, today)|
    ensures forall k :: 0 <= k < |r| ==> r[k] == Ymd(UpcomingDays(dayName, numDates, today)[k])
  {
    var days := UpcomingDays(dayName, numDates, today);
    seq(|days|, k requires 0 <= k < |days| => Ymd(days[k]))
  }

  /** Most entries the operation log keeps. */
  const LogCap: nat := 1000

  datatype LogEntry = LogEntry(timestamp: int, source: string, operation: string, details: string, testMode: bool)

  /** `should_log`. */
  predicate ShouldLog(testMode: bool, liveLogging: bool) {
    testMode || liveLogging
  }

  /** `log_operation`: nothing when logging is off; otherwise the entry is
      appended and only the most recent LogCap entries are kept. */
  function LogOperation(logs: seq<LogEntry>, testMode: bool, liveLogging: bool,
                        now: int, source: string, operation: string, details: string): (r: seq<LogEntry>)
    ensures !ShouldLog(testMode, liveLogging) ==> r == logs
    ensures ShouldLog(testMode, liveLogging) ==>
      |r| == (if |logs| + 1 > LogCap then LogCap else |logs| + 1)
      && r == (logs + [LogEntry(now, source, operation, details, testMode)])[|logs| + 1 - |r|..]
  {
    if !ShouldLog(testMode, liveLogging) then logs
    else
      var all := logs + [LogEntry(now, source, operation, details, testMode)];
      if |all| > LogCap then all[|all| - LogCap..] else all
  }

  /** A log within the cap stays within it, and its newest entry is the one just logged. */
  lemma LogOperationBounded(logs: seq<LogEntry>, testMode: bool, liveLogging: bool,
                            now: int, source: string, operation: string, details: string)
    requires |logs| <= LogCap
    ensures var r := LogOperation(logs, testMode, liveLogging, now, source, operation, details);
      |r| <= LogCap
      && (ShouldLog(testMode, liveLogging) ==> r[|r| - 1] == LogEntry(now, source, operation, details, testMode))
  {
  }
}

=== FILE: importer.dfy ===
/** The resumable historical import: one request of `ajax_import_batch`
    processes one batch of one source and hands back a cursor for the next
    request, and `import_woocommerce_batch` is the WooCommerce batch it
    runs. The order query and the Square batch are parameters. */
module Importer {
  import opened Wrappers
  import opened Text
  import opened Ledger

  /** Orders per batch. */
  const BatchSize: nat := 2

  // ---- import_woocommerce_batch ----

  /** An order line: product id (0 when none), quantity, the booking date
      read from the line, and whether the product exists in the catalogue. */
  datatype Line = Line(productId: nat, quantity: int, bookingDate: Option<string>, known: bool)

  /** A completed order: its completion and creation days, and its lines. */
  datatype Order = Order(completed: Option<string>, created: string, lines: seq<Line>)

  /** The day a historical sale is recorded under: completion, else creation. */
  function SaleDate(o: Order): (r: string)
    ensures o.completed.Some? ==> r == o.completed.value
  {
    if o.completed.Some? then o.completed.value else o.created
  }

  /** Lines without a product or with a non-positive quantity are skipped;
      every other line is a historical WooCommerce sale on the sale date. */
  function ImportLines(b: Books, date: string, lines: seq<Line>): (r: Books)
    ensures Empty(date) ==> r == b
    ensures forall d :: d != date ==> SameDay(b, r, d)
    decreases |lines|
  {
    if |lines| == 0 then b
    else
      var ln := lines[0];
      var b' := if ln.productId == 0 || ln.quantity <= 0 then b
                else RecordHistorical(b, WooCommerce, ln.productId, ln.known, ln.quantity, date, ln.bookingDate).0;
      ImportLines(b', date, lines[1..])
  }

  /** Every retrieved order of the page, in order; an order that cannot be
      retrieved is skipped. */
  function ImportOrders(b: Books, page: seq<Option<Order>>): (r: Books)
    ensures forall d :: (forall i :: 0 <= i < |page| && page[i].Some? ==> SaleDate(page[i].value) != d) ==> SameDay(b, r, d)
    ensures (forall i :: 0 <= i < |page| ==> page[i].None?) ==> r == b
    decreases |page|
  {
    if |page| == 0 then b
    else
      var b' := if page[0].Some? then ImportLines(b, SaleDate(page[0].value), page[0].value.lines) else b;
      var r := ImportOrders(b', page[1..]);
      assert forall d :: (forall i :: 0 <= i < |page| && page[i].Some? ==> SaleDate(page[i].value) != d) ==> SameDay(b, r, d) by {
        forall d | forall i :: 0 <= i < |page| && page[i].Some? ==> SaleDate(page[i].value) != d
          ensures SameDay(b, r, d)
        {
          forall i | 0 <= i < |page[1..]| && page[1..][i].Some? ensures SaleDate(page[1..][i].value) != d {
            assert page[1..][i] == page[i + 1];
          }
          assert SameDay(b', r, d);
          if page[0].Some? {
            assert SaleDate(page[0].value) != d;
          }
          assert SameDay(b, b', d);
        }
      }
      assert (forall i :: 0 <= i < |page| ==> page[i].None?) ==> r == b by {
        if forall i :: 0 <= i < |page| ==> page[i].None? {
          assert forall i :: 0 <= i < |page[1..]| ==> page[1..][i] == page[i + 1];
        }
      }
      r
  }

  datatype WooResult = WooResult(processed: nat, nextOffset: Option<nat>, complete: bool, books: Books)

  /** One WooCommerce batch over the page of order ids found at `offset`.
      The processed count is raised once after the order loop, so it is 1
      for any non-empty page. */
  function WooBatch(b: Books, offset: nat, limit: nat, page: seq<Option<Order>>): (r: WooResult)
    ensures r.complete <==> |page| == 0 || |page| < limit
    ensures r.processed == (if |page| == 0 then 0 else 1)
    ensures r.nextOffset.None? <==> r.complete
    ensures r.nextOffset.Some? ==> r.nextOffset.value == offset + |page| > offset
    ensures |page| == 0 ==> r.books == b
  {
    if |page| == 0 then WooResult(0, None, true, b)
    else
      var complete := |page| < limit;
      WooResult(1, if complete then None else Some(offset + |page|), complete, ImportOrders(b, page))
  }

  lemma {:induction false} ImportLinesBalanced(b: Books, date: string, lines: seq<Line>)
    requires SalesBalanced(b.sales)
    ensures SalesBalanced(ImportLines(b, date, lines).sales)
    decreases |lines|
  {
    if |lines| > 0 {
      var ln := lines[0];
      if !(ln.productId == 0 || ln.quantity <= 0) && ln.known && !Empty(date) {
        RecordBalanced(b.sales, date, ln.productId, ln.bookingDate, WooCommerce, ln.quantity);
      }
      var b' := if ln.productId == 0 || ln.quantity <= 0 then b
                else RecordHistorical(b, WooCommerce, ln.productId, ln.known, ln.quantity, date, ln.bookingDate).0;
      ImportLinesBalanced(b', date, lines[1..]);
    }
  }

  lemma {:induction false} ImportOrdersBalanced(b: Books, page: seq<Option<Order>>)
    requires SalesBalanced(b.sales)
    ensures SalesBalanced(ImportOrders(b, page).sales)
    decreases |page|
  {
    if |page| > 0 {
      var b' := if page[0].Some? then ImportLines(b, SaleDate(page[0].value), page[0].value.lines) else b;
      if page[0].Some? {
        ImportLinesBalanced(b, SaleDate(page[0].value), page[0].value.lines);
      }
      ImportOrdersBalanced(b', page[1..]);
    }
  }

  /** An import batch keeps every ledger entry's total equal to the sum of
      its channels. */
  lemma WooBatchBalanced(b: Books, offset: nat, limit: nat, page: seq<Option<Order>>)
    requires SalesBalanced(b.sales)
    ensures SalesBalanced(WooBatch(b, offset, limit, page).books.sales)
  {
    if |page| > 0 {
      ImportOrdersBalanced(b, page);
    }
  }

  /** Lines that fail the batch's own filter are never recorded, whatever
      the ledger holds. */
  lemma SkippedLinesWriteNothing(b: Books, date: string, lines: seq<Line>)
    requires forall i :: 0 <= i < |lines| ==> lines[i].productId == 0 || lines[i].quantity <= 0
    ensures ImportLines(b, date, lines) == b
    decreases |lines|
  {
    if |lines| > 0 {
      SkippedLinesWriteNothing(b, date, lines[1..]);
    }
  }

  // ---- ajax_import_batch ----

  /** The cursor the client posts back between requests. */
  datatype Cursor = Cursor(sourceIndex: nat, wcOffset: nat, squareCursor: Option<string>, totalProcessed: int)

  const Fresh := Cursor(0, 0, None, 0)

  /** A request: both dates, the selected sources, and the posted offset,
      which is a cursor or anything else (a first call). */
  datatype Request = Request(start: Option<string>, end: Option<string>, sources: seq<string>, offset: Option<Cursor>)

  /** The not-shown Square batch: processed count, next cursor, done flag. */
  datatype SquareResult = SquareResult(processed: int, nextCursor: Option<string>, complete: bool)

  /** What the request reads from outside: the page of completed-order ids
      in the date range at an offset (of at most `BatchSize` ids), and the
      Square importer when its batch method exists. */
  datatype Env = Env(orders: nat -> seq<Option<Order>>, square: Option<Option<string> -> SquareResult>)

  datatype Rejection = InvalidDates | StartAfterEnd | NoSources

  datatype Reply =
    | Rejected(reason: Rejection)
    | AlreadyDone
    | Batch(progress: int, next: Option<Cursor>, books: Books)

  predicate DigitsAt(s: string, lo: nat, hi: nat)
    requires lo <= hi <= |s|
  {
    forall i :: lo <= i < hi ==> IsDigit(s[i])
  }

  /** `^\d{4}-\d{2}-\d{2}$` on a sanitized field (no line breaks left). */
  predicate DateShaped(s: string) {
    |s| == 10 && DigitsAt(s, 0, 4) && s[4] == '-' && DigitsAt(s, 5, 7) && s[7] == '-' && DigitsAt(s, 8, 10)
  }

  /** String order, which on `Y-m-d` strings is calendar order. */
  predicate Before(a: string, b: string) {
    |a| > 0 && |b| > 0 && (a[0] < b[0] || (a[0] == b[0] && Before(a[1..], b[1..])))
  }

  /** The request checks, in the order they are made. */
  function Validate(req: Request): (r: Option<Rejection>)
    ensures r.None? <==> (req.start.Some? && req.end.Some? && DateShaped(req.start.value) && DateShaped(req.end.value)
                          && !Before(req.end.value, req.start.value) && |req.sources| > 0)
    ensures r == Some(InvalidDates) <==> !(req.start.Some? && req.end.Some? && DateShaped(req.start.value) && DateShaped(req.end.value))
  {
    if !(req.start.Some? && req.end.Some? && DateShaped(req.start.value) && DateShaped(req.end.value)) then Some(InvalidDates)
    else if Before(req.end.value, req.start.value) then Some(StartAfterEnd)
    else if |req.sources| == 0 then Some(NoSources)
    else None
  }

  /** The cursor a request starts from. */
  function Resume(req: Request): (c: Cursor)
    ensures req.offset.None? ==> c == Fresh
    ensures req.offset.Some? ==> c == req.offset.value
  {
    req.offset.GetOr(Fresh)
  }

  /** PHP's `round` of `halves / 2 / n * 100`, halves rounded away from zero. */
  function RoundPercent(halves: nat, n: nat): (r: nat)
    requires n > 0
  {
    (100 * halves + n) / (2 * n)
  }

  /** The processed count, the new cursor and whether the source is done,
      after one batch of the current source. */
  datatype Advance = Advance(processed: int, wcOffset: nat, squareCursor: Option<string>, complete: bool, books: Books)

  /** Run one batch of source `name`; an unknown source or a missing batch
      method finishes the source at once. */
  function SourceBatch(name: string, c: Cursor, env: Env, b: Books): (r: Advance)
    ensures name != "woocommerce" && name != "square" ==> r.complete && r.processed == 0 && r.books == b
    ensures name == "square" && env.square.None? ==> r.complete && r.processed == 0
  {
    if name == "woocommerce" then
      var w := WooBatch(b, c.wcOffset, BatchSize, env.orders(c.wcOffset));
      Advance(w.processed, w.nextOffset.GetOr(0), c.squareCursor, w.complete, w.books)
    else if name == "square" && env.square.Some? then
      var s := env.square.value(c.squareCursor);
      Advance(s.processed, c.wcOffset, s.nextCursor, s.complete, b)
    else Advance(0, c.wcOffset, c.squareCursor, true, b)
  }

  /** The state after the batch: the total grows by the batch's count; a
      finished source moves to the next one with both positions reset. */
  function NextState(c: Cursor, a: Advance): (r: Cursor)
    ensures r.totalProcessed == c.totalProcessed + a.processed
    ensures a.complete ==> r.sourceIndex == c.sourceIndex + 1 && r.wcOffset == 0 && r.squareCursor.None?
    ensures !a.complete ==> r.sourceIndex == c.sourceIndex && r.wcOffset == a.wcOffset
                            && r.squareCursor == a.squareCursor
  {
    var total := c.totalProcessed + a.processed;
    if a.complete then Cursor(c.sourceIndex + 1, 0, None, total)
    else Cursor(c.sourceIndex, a.wcOffset, a.squareCursor, total)
  }

  /** 100 when every source is done; otherwise the share of finished
      sources, counting a source in progress as half, capped at 99. */
  function Progress(c: Cursor, complete: bool, n: nat): (r: int)
    requires n > 0
    ensures 0 <= r <= 100
    ensures r == 100 <==> complete && c.sourceIndex >= n
  {
    if complete && c.sourceIndex >= n then 100
    else if complete then Min(99, RoundPercent(2 * c.sourceIndex, n))
    else Min(99, RoundPercent(2 * c.sourceIndex + 1, n))
  }

  function Min(a: int, b: int): int {
    if a < b then a else b
  }

  /** The next cursor the request computes: none once every source is done. */
  function NextParam(s: Cursor, complete: bool, n: nat): (r: Option<Cursor>)
    ensures r.None? <==> complete && s.sourceIndex >= n
  {
    if complete && s.sourceIndex >= n then None else Some(s)
  }

  /** One request with the next cursor handed back, as the client loop
      needs it to continue. */
  function Step(req: Request, env: Env, b: Books): (r: Reply)
    ensures r.Rejected? <==> Validate(req).Some?
    ensures r == AlreadyDone <==> Validate(req).None? && Resume(req).sourceIndex >= |req.sources|
    ensures r.Batch? ==> 0 <= r.progress <= 100 && (r.next.None? <==> r.progress == 100)
  {
    match Validate(req)
    case Some(why) => Rejected(why)
    case None =>
      var c := Resume(req);
      if c.sourceIndex >= |req.sources| then AlreadyDone
      else
        var a := SourceBatch(req.sources[c.sourceIndex], c, env, b);
        var s := NextState(c, a);
        Batch(Progress(s, a.complete, |req.sources|), NextParam(s, a.complete, |req.sources|), a.books)
  }

  /** The request as written: the reply's next offset is a variable set to
      null at the start and never assigned, so the computed cursor is
      dropped. */
  function StepAsWritten(req: Request, env: Env, b: Books): (r: Reply)
    ensures r.Batch? ==> r.next.None?
  {
    match Step(req, env, b)
    case Batch(p, _, books) => Batch(p, None, books)
    case other => other
  }

  /** Apart from the next offset, the written request replies as the
      corrected one; and whenever work is left, it hands back no cursor, so
      the client stops before the import is done. */
  lemma AsWrittenStopsEarly(req: Request, env: Env, b: Books)
    ensures StepAsWritten(req, env, b).Batch? <==> Step(req, env, b).Batch?
    ensures Step(req, env, b).Batch? ==> StepAsWritten(req, env, b) == Step(req, env, b).(next := None)
    ensures Step(req, env, b).Batch? && Step(req, env, b).progress < 100 ==>
              Step(req, env, b).next.Some? && StepAsWritten(req, env, b).next.None?
  {
  }

  /** A concrete case: two sources, the first with no batch method. The
      corrected request moves on to the second source at 50%; the written
      one returns no cursor at all. */
  lemma AsWrittenSkipsSecondSource(env: Env, b: Books)
    requires env.square.None?
    ensures var req := Request(Some("1999-12-31"), Some("2024-01-31"), ["square", "woocommerce"], None);
            Step(req, env, b) == Batch(50, Some(Cursor(1, 0, None, 0)), b)
            && StepAsWritten(req, env, b) == Batch(50, None, b)
  {
    var req := Request(Some("1999-12-31"), Some("2024-01-31"), ["square", "woocommerce"], None);
    assert DateShaped("1999-12-31") && DateShaped("2024-01-31");
    assert !Before("2024-01-31", "1999-12-31");
    assert req.sources[0] == "square";
    assert RoundPercent(2, 2) == 50;
  }

  lemma DivMonotone(a: nat, b: nat, d: nat)
    requires a <= b && d > 0
    ensures a / d <= b / d
  {
    var qa, qb := a / d, b / d;
    assert qa * d <= a;
    assert b < qb * d + d;
    assert (qa - qb) * d < d;
    MulBelow(qa - qb, d);
  }

  lemma MulBelow(x: int, d: int)
    requires d > 0 && x * d < d
    ensures x < 1
  {
  }

  /** Posting the corrected reply's cursor back never makes the progress go
      down. */
  lemma ProgressNeverDecreases(req: Request, env: Env, b: Books)
    requires Step(req, env, b).Batch? && Step(req, env, b).next.Some?
    ensures var r := Step(req, env, b);
            var r' := Step(req.(offset := r.next), env, r.books);
            r'.Batch? && r'.progress >= r.progress
  {
    var n := |req.sources|;
    var c := Resume(req);
    var a := SourceBatch(req.sources[c.sourceIndex], c, env, b);
    var s := NextState(c, a);
    var req' := req.(offset := Some(s));
    assert Resume(req') == s;
    var a' := SourceBatch(req.sources[s.sourceIndex], s, env, a.books);
    var s' := NextState(s, a');
    var h := if a.complete then 2 * s.sourceIndex else 2 * s.sourceIndex + 1;
    var h' := if a'.complete then 2 * s'.sourceIndex else 2 * s'.sourceIndex + 1;
    if !(a'.complete && s'.sourceIndex >= n) {
      assert h <= h';
      DivMonotone(100 * h + n, 100 * h' + n, 2 * n);
    }
  }

  /** A finished source hands the next request the following source with
      fresh positions; an unfinished one keeps the source and moves its own
      position. The processed total grows by the batch's count either way. */
  lemma CursorMoves(req: Request, env: Env, b: Books)
    requires Step(req, env, b).Batch? && Step(req, env, b).next.Some?
    ensures var c := Resume(req);
            var a := SourceBatch(req.sources[c.sourceIndex], c, env, b);
            var s := Step(req, env, b).next.value;
            s.totalProcessed == c.totalProcessed + a.processed
            && (s.sourceIndex == c.sourceIndex + 1 || s.sourceIndex == c.sourceIndex)
            && s.sourceIndex < |req.sources|
  {
  }

  /** A WooCommerce source in progress resumes at the offset just past the
      page it read. */
  lemma WooResumesPastPage(req: Request, env: Env, b: Books)
    requires Step(req, env, b).Batch?
    requires req.sources[Resume(req).sourceIndex] == "woocommerce"
    requires |env.orders(Resume(req).wcOffset)| >= BatchSize
    ensures var c := Resume(req);
            Step(req, env, b).next == Some(c.(wcOffset := c.wcOffset + |env.orders(c.wcOffset)|, totalProcessed := c.totalProcessed + 1))
  {
  }
}

=== FILE: ledger.dfy ===
/** The sales ledger (`brcc_daily_sales`) and the per-day product summary
    (`brcc_product_summary`) kept by the sales tracker, with their writers:
    a completed WooCommerce order, an Eventbrite or Square sale, and a
    historical sale from the importer. Each ledger entry carries a total
    quantity and a per-channel breakdown; a field that is not set reads as
    0, as PHP's `isset`/`??` guards make it. */
module Ledger {
  import opened Wrappers
  import opened Text
  import opened Assoc

  datatype Channel = WooCommerce | Eventbrite | Square

  /** One ledger entry; name and SKU are carried by the store but read by
      nothing modelled here. */
  datatype Entry = Entry(
    productId: Option<nat>, bookingDate: Option<string>,
    quantity: Option<int>, woocommerce: Option<int>, eventbrite: Option<int>, square: Option<int>)

  /** The entries of one sale day, by ledger key. */
  type DayMap = Assoc<string, Entry>

  /** Sale days by their `Y-m-d` string. */
  type Sales = Assoc<string, DayMap>

  function Qty(o: Option<int>): int {
    o.GetOr(0)
  }

  function ChannelQty(e: Entry, c: Channel): int {
    match c
    case WooCommerce => Qty(e.woocommerce)
    case Eventbrite => Qty(e.eventbrite)
    case Square => Qty(e.square)
  }

  /** The ledger invariant: the total is the sum of the channels. */
  predicate Balanced(e: Entry) {
    Qty(e.quantity) == Qty(e.woocommerce) + Qty(e.eventbrite) + Qty(e.square)
  }

  predicate SalesBalanced(l: Sales) {
    forall d, p :: d in l && p in d.1 ==> Balanced(p.1)
  }

  /** PHP truthiness of an optional booking date. */
  predicate HasBookingDate(bd: Option<string>) {
    bd.Some? && !Empty(bd.value)
  }

  /** The ledger key, the same in every writer: "<product>_<booking date>"
      or just "<product>". */
  function LedgerKey(pid: nat, bd: Option<string>): (r: string)
    ensures HasBookingDate(bd) ==> r == NatToString(pid) + "_" + bd.value
    ensures !HasBookingDate(bd) ==> r == NatToString(pid)
  {
    if HasBookingDate(bd) then NatToString(pid) + "_" + bd.value else NatToString(pid)
  }

  /** The upsert every writer performs: an existing entry gets q added to
      its total and to one channel; a new entry starts with q in both and
      0 in the other channels. */
  function AddSale(prev: Option<Entry>, pid: nat, bd: Option<string>, c: Channel, q: int): (r: Entry)
    ensures Qty(r.quantity) == (if prev.Some? then Qty(prev.value.quantity) else 0) + q
    ensures ChannelQty(r, c) == (if prev.Some? then ChannelQty(prev.value, c) else 0) + q
    ensures forall c' :: c' != c ==> ChannelQty(r, c') == (if prev.Some? then ChannelQty(prev.value, c') else 0)
    ensures prev.None? ==> r.productId == Some(pid) && r.bookingDate == bd
    ensures prev.Some? ==> r.productId == prev.value.productId && r.bookingDate == prev.value.bookingDate
  {
    match prev
    case None =>
      Entry(Some(pid), bd, Some(q),
            Some(if c == WooCommerce then q else 0),
            Some(if c == Eventbrite then q else 0),
            Some(if c == Square then q else 0))
    case Some(e) =>
      match c
      case WooCommerce => e.(quantity := Some(Qty(e.quantity) + q), woocommerce := Some(Qty(e.woocommerce) + q))
      case Eventbrite => e.(quantity := Some(Qty(e.quantity) + q), eventbrite := Some(Qty(e.eventbrite) + q))
      case Square => e.(quantity := Some(Qty(e.quantity) + q), square := Some(Qty(e.square) + q))
  }

  /** The entry stored under a day and key. */
  function EntryAt(l: Sales, date: string, key: string): Option<Entry> {
    match Get(l, date)
    case None => None
    case Some(day) => Get(day, key)
  }

  /** Record q units of a product on a sale day through one channel. */
  function Record(l: Sales, date: string, pid: nat, bd: Option<string>, c: Channel, q: int): (r: Sales)
    ensures date in KeySet(r)
    ensures forall d :: d != date ==> Get(r, d) == Get(l, d)
  {
    var day := Get(l, date).GetOr([]);
    var key := LedgerKey(pid, bd);
    var day' := Put(day, key, AddSale(Get(day, key), pid, bd, c, q));
    PutKeys(l, date, day');
    assert forall d :: d != date ==> Get(Put(l, date, day'), d) == Get(l, d) by {
      forall d { PutGet(l, date, day', d); }
    }
    Put(l, date, day')
  }

  /** A record changes the one entry under its day and key, by the upsert,
      and no other entry. */
  lemma RecordChangesOneEntry(l: Sales, date: string, pid: nat, bd: Option<string>, c: Channel, q: int, date': string, key': string)
    ensures var key := LedgerKey(pid, bd);
            var r := Record(l, date, pid, bd, c, q);
            EntryAt(r, date', key') ==
              if date' == date && key' == key then Some(AddSale(EntryAt(l, date, key), pid, bd, c, q))
              else EntryAt(l, date', key')
  {
    var day := Get(l, date).GetOr([]);
    var key := LedgerKey(pid, bd);
    var e := AddSale(Get(day, key), pid, bd, c, q);
    PutGet(l, date, Put(day, key, e), date');
    PutGet(day, key, e, key');
  }

  /** Recording keeps every entry balanced. */
  lemma RecordBalanced(l: Sales, date: string, pid: nat, bd: Option<string>, c: Channel, q: int)
    requires SalesBalanced(l)
    ensures SalesBalanced(Record(l, date, pid, bd, c, q))
  {
    var day := Get(l, date).GetOr([]);
    var key := LedgerKey(pid, bd);
    var prev := Get(day, key);
    var e := AddSale(prev, pid, bd, c, q);
    var day' := Put(day, key, e);
    if prev.Some? {
      assert (key, prev.value) in day && (date, day) in l;
    }
    assert Balanced(e);
    PutMembers(day, key, e);
    PutMembers(l, date, day');
    forall d, p | d in Record(l, date, pid, bd, c, q) && p in d.1 ensures Balanced(p.1) {
      if d != (date, day') {
        assert d in l;
      } else if p != (key, e) {
        assert p in day;
        assert Get(l, date).Some? && (date, Get(l, date).value) in l;
      }
    }
  }

  // ---- Product summary ----

  /** A product's summary for one sale day: its total and its quantity per
      booking date. */
  datatype ProductDay = ProductDay(total: int, dates: Assoc<string, int>)

  /** Sale days by their `Y-m-d` string, then products by id. */
  type Summary = Assoc<string, Assoc<nat, ProductDay>>

  /** A product-and-booking-date group with the quantity sold. */
  datatype Group = Group(productId: nat, bookingDate: Option<string>, quantity: int)

  const NoProductDay := ProductDay(0, [])

  function SumValues(a: Assoc<string, int>): int {
    if |a| == 0 then 0 else a[0].1 + SumValues(a[1..])
  }

  /** The part of a product's total not attributed to any booking date. */
  function Undated(p: ProductDay): int {
    p.total - SumValues(p.dates)
  }

  /** Adding to the value under a key adds to the sum of values. */
  lemma {:induction false} PutAddSum(a: Assoc<string, int>, k: string, q: int)
    ensures SumValues(Put(a, k, Get(a, k).GetOr(0) + q)) == SumValues(a) + q
  {
    if |a| > 0 && a[0].0 != k {
      var r := Put(a, k, Get(a, k).GetOr(0) + q);
      assert r[1..] == Put(a[1..], k, Get(a[1..], k).GetOr(0) + q);
      PutAddSum(a[1..], k, q);
    } else if |a| > 0 {
      var r := Put(a, k, Get(a, k).GetOr(0) + q);
      assert r[1..] == a[1..];
    }
  }

  /** One group added to a product's day: the total always grows by its
      quantity; the booking date's count grows only when there is a date. */
  function AddGroup(p: Option<ProductDay>, g: Group): (r: ProductDay)
    ensures r.total == p.GetOr(NoProductDay).total + g.quantity
    ensures HasBookingDate(g.bookingDate) ==>
              Get(r.dates, g.bookingDate.value) == Some(Get(p.GetOr(NoProductDay).dates, g.bookingDate.value).GetOr(0) + g.quantity)
    ensures !HasBookingDate(g.bookingDate) ==> r.dates == p.GetOr(NoProductDay).dates
  {
    var d := p.GetOr(NoProductDay);
    if HasBookingDate(g.bookingDate) then
      var bd := g.bookingDate.value;
      PutGet(d.dates, bd, Get(d.dates, bd).GetOr(0) + g.quantity, bd);
      ProductDay(d.total + g.quantity, Put(d.dates, bd, Get(d.dates, bd).GetOr(0) + g.quantity))
    else
      ProductDay(d.total + g.quantity, d.dates)
  }

  /** Only sales without a booking date grow the undated part; so a total
      never falls below the sum of its dated counts while quantities are
      non-negative. */
  lemma AddGroupUndated(p: Option<ProductDay>, g: Group)
    ensures Undated(AddGroup(p, g)) == Undated(p.GetOr(NoProductDay)) + (if HasBookingDate(g.bookingDate) then 0 else g.quantity)
  {
    if HasBookingDate(g.bookingDate) {
      PutAddSum(p.GetOr(NoProductDay).dates, g.bookingDate.value, g.quantity);
    }
  }

  function AddGroups(day: Assoc<nat, ProductDay>, gs: seq<Group>): Assoc<nat, ProductDay>
    decreases |gs|
  {
    if |gs| == 0 then day
    else AddGroups(Put(day, gs[0].productId, AddGroup(Get(day, gs[0].productId), gs[0])), gs[1..])
  }

  /** The quantity the groups carry for one product. */
  function ProductQty(gs: seq<Group>, pid: nat): int {
    if |gs| == 0 then 0
    else (if gs[0].productId == pid then gs[0].quantity else 0) + ProductQty(gs[1..], pid)
  }

  /** The quantity the groups carry for one product and booking date. */
  function DateQty(gs: seq<Group>, pid: nat, bd: string): int {
    if |gs| == 0 then 0
    else (if gs[0].productId == pid && HasBookingDate(gs[0].bookingDate) && gs[0].bookingDate.value == bd
          then gs[0].quantity else 0) + DateQty(gs[1..], pid, bd)
  }

  /** A product's summary for a day, the empty one when it has none. */
  function DayOf(day: Assoc<nat, ProductDay>, pid: nat): ProductDay {
    Get(day, pid).GetOr(NoProductDay)
  }

  /** A group's effect on one booking date's count of its product. */
  lemma AddGroupDate(p: Option<ProductDay>, g: Group, bd: string)
    ensures Get(AddGroup(p, g).dates, bd).GetOr(0) == Get(p.GetOr(NoProductDay).dates, bd).GetOr(0)
              + (if HasBookingDate(g.bookingDate) && g.bookingDate.value == bd then g.quantity else 0)
  {
    if HasBookingDate(g.bookingDate) {
      var dates := p.GetOr(NoProductDay).dates;
      PutGet(dates, g.bookingDate.value, Get(dates, g.bookingDate.value).GetOr(0) + g.quantity, bd);
    }
  }

  /** One group step as seen from one product: its entry is replaced by
      the group added to it, every other product's is kept. */
  lemma AddGroupStep(day: Assoc<nat, ProductDay>, g: Group, pid: nat)
    ensures var day' := Put(day, g.productId, AddGroup(Get(day, g.productId), g));
            Get(day', pid) == if g.productId == pid then Some(AddGroup(Get(day, pid), g)) else Get(day, pid)
  {
    PutGet(day, g.productId, AddGroup(Get(day, g.productId), g), pid);
  }

  /** Adding all groups grows each product's total by its groups' quantity. */
  lemma {:induction false} AddGroupsTotal(day: Assoc<nat, ProductDay>, gs: seq<Group>, pid: nat)
    ensures DayOf(AddGroups(day, gs), pid).total == DayOf(day, pid).total + ProductQty(gs, pid)
    decreases |gs|
  {
    if |gs| > 0 {
      AddGroupStep(day, gs[0], pid);
      AddGroupsTotal(Put(day, gs[0].productId, AddGroup(Get(day, gs[0].productId), gs[0])), gs[1..], pid);
    }
  }

  /** Adding all groups grows each booking date's count by that date's
      quantity. */
  lemma {:induction false} AddGroupsDate(day: Assoc<nat, ProductDay>, gs: seq<Group>, pid: nat, bd: string)
    ensures Get(DayOf(AddGroups(day, gs), pid).dates, bd).GetOr(0) == Get(DayOf(day, pid).dates, bd).GetOr(0) + DateQty(gs, pid, bd)
    decreases |gs|
  {
    if |gs| > 0 {
      AddGroupStep(day, gs[0], pid);
      if gs[0].productId == pid {
        AddGroupDate(Get(day, pid), gs[0], bd);
      }
      AddGroupsDate(Put(day, gs[0].productId, AddGroup(Get(day, gs[0].productId), gs[0])), gs[1..], pid, bd);
    }
  }

  /** A product no group names keeps its summary. */
  lemma {:induction false} AddGroupsUntouched(day: Assoc<nat, ProductDay>, gs: seq<Group>, pid: nat)
    requires forall i :: 0 <= i < |gs| ==> gs[i].productId != pid
    ensures Get(AddGroups(day, gs), pid) == Get(day, pid)
    decreases |gs|
  {
    if |gs| > 0 {
      AddGroupStep(day, gs[0], pid);
      assert forall i :: 0 <= i < |gs[1..]| ==> gs[1..][i] == gs[i + 1];
      AddGroupsUntouched(Put(day, gs[0].productId, AddGroup(Get(day, gs[0].productId), gs[0])), gs[1..], pid);
    }
  }

  /** `update_daily_product_summary`: the sale day's entry is created if
      missing, then every group is added to its product; other days are
      left alone. */
  function UpdateSummary(s: Summary, date: string, gs: seq<Group>): (r: Summary)
    ensures date in KeySet(r)
    ensures forall d :: d != date ==> Get(r, d) == Get(s, d)
    ensures Get(r, date) == Some(AddGroups(Get(s, date).GetOr([]), gs))
  {
    var day := Get(s, date).GetOr([]);
    PutKeys(s, date, AddGroups(day, gs));
    assert forall d :: Get(Put(s, date, AddGroups(day, gs)), d) == if d == date then Some(AddGroups(day, gs)) else Get(s, d) by {
      forall d { PutGet(s, date, AddGroups(day, gs), d); }
    }
    Put(s, date, AddGroups(day, gs))
  }

  /** After the update, a product's figures for the sale day are its old
      figures plus what the groups carry for it. */
  lemma UpdateSummaryTotals(s: Summary, date: string, gs: seq<Group>, pid: nat, bd: string)
    ensures var day := Get(UpdateSummary(s, date, gs), date).value;
            var before := Get(s, date).GetOr([]);
            && DayOf(day, pid).total == DayOf(before, pid).total + ProductQty(gs, pid)
            && Get(DayOf(day, pid).dates, bd).GetOr(0) == Get(DayOf(before, pid).dates, bd).GetOr(0) + DateQty(gs, pid, bd)
  {
    AddGroupsTotal(Get(s, date).GetOr([]), gs, pid);
    AddGroupsDate(Get(s, date).GetOr([]), gs, pid, bd);
  }

  // ---- Writers ----

  datatype Books = Books(sales: Sales, summary: Summary)

  /** The actions fired after a live order: one per product-and-date group,
      then the plain "product sold". */
  datatype Action = ProductSold | ProductSoldWithDate(productId: nat, quantity: int, bookingDate: Option<string>)

  /** An order line; `known` is whether the product still exists, and the
      booking date is what the item's metadata yields. */
  datatype OrderItem = OrderItem(productId: nat, known: bool, quantity: int, bookingDate: Option<string>)

  function ItemGroup(it: OrderItem): Group {
    Group(it.productId, it.bookingDate, it.quantity)
  }

  /** The order's groups by ledger key, first-seen order, quantities summed. */
  function GroupItems(acc: Assoc<string, Group>, items: seq<OrderItem>): Assoc<string, Group>
    decreases |items|
  {
    if |items| == 0 then acc
    else if !items[0].known then GroupItems(acc, items[1..])
    else
      var it := items[0];
      var key := LedgerKey(it.productId, it.bookingDate);
      var g := match Get(acc, key)
               case Some(g) => g.(quantity := g.quantity + it.quantity)
               case None => ItemGroup(it);
      GroupItems(Put(acc, key, g), items[1..])
  }

  /** The ledger writes of a live order, item by item: only the order's
      day changes, it is present once any line is known, and an order
      with no known line writes nothing. */
  function RecordItems(l: Sales, date: string, items: seq<OrderItem>): (r: Sales)
    ensures forall d :: d != date ==> Get(r, d) == Get(l, d)
    ensures (forall i :: 0 <= i < |items| ==> !items[i].known) ==> r == l
    ensures (exists i :: 0 <= i < |items| && items[i].known) ==> date in KeySet(r)
    decreases |items|
  {
    if |items| == 0 then l
    else if !items[0].known then RecordItems(l, date, items[1..])
    else
      var it := items[0];
      var l' := Record(l, date, it.productId, it.bookingDate, WooCommerce, it.quantity);
      RecordItems(l', date, items[1..])
  }

  function GroupValues(a: Assoc<string, Group>): seq<Group> {
    if |a| == 0 then [] else [a[0].1] + GroupValues(a[1..])
  }

  function SoldWithDate(gs: seq<Group>): (r: seq<Action>)
    ensures |r| == |gs|
  {
    if |gs| == 0 then [] else [ProductSoldWithDate(gs[0].productId, gs[0].quantity, gs[0].bookingDate)] + SoldWithDate(gs[1..])
  }

  /** `order_status_changed`: nothing unless the order became "completed";
      in test mode only the plain action fires and nothing is written;
      otherwise every known line is recorded under today's date through
      WooCommerce, the summary is updated and the actions fire. */
  function OrderStatusChanged(b: Books, status: string, testMode: bool, today: string, items: seq<OrderItem>): (r: (Books, seq<Action>))
    ensures status != "completed" ==> r == (b, [])
    ensures status == "completed" && testMode ==> r == (b, [ProductSold])
    ensures status == "completed" ==> |r.1| >= 1 && r.1[|r.1| - 1] == ProductSold
  {
    if status != "completed" then (b, [])
    else if testMode then (b, [ProductSold])
    else
      var groups := GroupValues(GroupItems([], items));
      (Books(RecordItems(b.sales, today, items), UpdateSummary(b.summary, today, groups)),
       SoldWithDate(groups) + [ProductSold])
  }

  lemma {:induction false} RecordItemsBalanced(l: Sales, date: string, items: seq<OrderItem>)
    requires SalesBalanced(l)
    ensures SalesBalanced(RecordItems(l, date, items))
    decreases |items|
  {
    if |items| > 0 {
      if items[0].known {
        var it := items[0];
        RecordBalanced(l, date, it.productId, it.bookingDate, WooCommerce, it.quantity);
        RecordItemsBalanced(Record(l, date, it.productId, it.bookingDate, WooCommerce, it.quantity), date, items[1..]);
      } else {
        RecordItemsBalanced(l, date, items[1..]);
      }
    }
  }

  /** A completed order keeps every ledger entry balanced. */
  lemma OrderKeepsBalance(b: Books, status: string, testMode: bool, today: string, items: seq<OrderItem>)
    requires SalesBalanced(b.sales)
    ensures SalesBalanced(OrderStatusChanged(b, status, testMode, today, items).0.sales)
  {
    if status == "completed" && !testMode {
      RecordItemsBalanced(b.sales, today, items);
    }
  }

  function KnownQuantity(items: seq<OrderItem>): int {
    if |items| == 0 then 0
    else (if items[0].known then items[0].quantity else 0) + KnownQuantity(items[1..])
  }

  function GroupsQuantity(gs: seq<Group>): int {
    if |gs| == 0 then 0 else gs[0].quantity + GroupsQuantity(gs[1..])
  }

  function ActionsQuantity(acts: seq<Action>): int {
    if |acts| == 0 then 0
    else (if acts[0].ProductSoldWithDate? then acts[0].quantity else 0) + ActionsQuantity(acts[1..])
  }

  lemma {:induction false} PutGroupQuantity(acc: Assoc<string, Group>, key: string, g: Group, q: int)
    requires Get(acc, key).Some? ==> g == Get(acc, key).value.(quantity := Get(acc, key).value.quantity + q)
    requires Get(acc, key).None? ==> g.quantity == q
    ensures GroupsQuantity(GroupValues(Put(acc, key, g))) == GroupsQuantity(GroupValues(acc)) + q
  {
    if |acc| > 0 && acc[0].0 != key {
      var r := Put(acc, key, g);
      assert r[1..] == Put(acc[1..], key, g);
      PutGroupQuantity(acc[1..], key, g, q);
    } else if |acc| > 0 {
      var r := Put(acc, key, g);
      assert r[1..] == acc[1..];
    }
  }

  lemma {:induction false} GroupItemsQuantity(acc: Assoc<string, Group>, items: seq<OrderItem>)
    ensures GroupsQuantity(GroupValues(GroupItems(acc, items))) == GroupsQuantity(GroupValues(acc)) + KnownQuantity(items)
    decreases |items|
  {
    if |items| > 0 {
      if items[0].known {
        var it := items[0];
        var key := LedgerKey(it.productId, it.bookingDate);
        var g := match Get(acc, key)
                 case Some(g) => g.(quantity := g.quantity + it.quantity)
                 case None => ItemGroup(it);
        PutGroupQuantity(acc, key, g, it.quantity);
        GroupItemsQuantity(Put(acc, key, g), items[1..]);
      } else {
        GroupItemsQuantity(acc, items[1..]);
      }
    }
  }

  lemma {:induction false} SoldWithDateQuantity(gs: seq<Group>)
    ensures ActionsQuantity(SoldWithDate(gs)) == GroupsQuantity(gs)
  {
    if |gs| > 0 {
      SoldWithDateQuantity(gs[1..]);
      assert SoldWithDate(gs)[1..] == SoldWithDate(gs[1..]);
    }
  }

  lemma {:induction false} ActionsQuantityAppend(a: seq<Action>, b: seq<Action>)
    ensures ActionsQuantity(a + b) == ActionsQuantity(a) + ActionsQuantity(b)
  {
    if |a| > 0 {
      assert (a + b)[1..] == a[1..] + b;
      ActionsQuantityAppend(a[1..], b);
    } else {
      assert a + b == b;
    }
  }

  /** The per-date actions of a live completed order pass on exactly the
      quantity of its known lines, nothing lost or counted twice. */
  lemma OrderActionsCarryQuantity(b: Books, today: string, items: seq<OrderItem>)
    ensures ActionsQuantity(OrderStatusChanged(b, "completed", false, today, items).1) == KnownQuantity(items)
  {
    var groups := GroupValues(GroupItems([], items));
    GroupItemsQuantity([], items);
    SoldWithDateQuantity(groups);
    ActionsQuantityAppend(SoldWithDate(groups), [ProductSold]);
  }

  /** `record_eventbrite_sale` and `record_square_sale`: nothing in test
      mode or for a missing product; otherwise the sale is recorded under
      today's date and added to the summary. */
  function RecordSale(b: Books, c: Channel, pid: nat, known: bool, q: int, bd: Option<string>, today: string, testMode: bool): (r: Books)
    ensures testMode || !known ==> r == b
    ensures !testMode && known ==> EntryAt(r.sales, today, LedgerKey(pid, bd))
                                    == Some(AddSale(EntryAt(b.sales, today, LedgerKey(pid, bd)), pid, bd, c, q))
  {
    if testMode || !known then b
    else
      RecordChangesOneEntry(b.sales, today, pid, bd, c, q, today, LedgerKey(pid, bd));
      Books(Record(b.sales, today, pid, bd, c, q), UpdateSummary(b.summary, today, [Group(pid, bd, q)]))
  }

  /** The ledger and the summary agree on day d. */
  predicate SameDay(b: Books, b': Books, d: string) {
    Get(b'.sales, d) == Get(b.sales, d) && Get(b'.summary, d) == Get(b.summary, d)
  }

  /** `record_historical_sale`: false without writing when the product,
      quantity or sale date is empty or the product is gone; otherwise the
      sale is recorded under the sale date, whatever the test mode, and no
      live-sync action fires (the result carries no actions). */
  function RecordHistorical(b: Books, c: Channel, pid: nat, known: bool, q: int, saleDate: string, bd: Option<string>): (r: (Books, bool))
    ensures !r.1 ==> r.0 == b
    ensures r.1 <==> pid != 0 && q != 0 && !Empty(saleDate) && known
    ensures forall d :: d != saleDate ==> SameDay(b, r.0, d)
  {
    if pid == 0 || q == 0 || Empty(saleDate) || !known then (b, false)
    else (Books(Record(b.sales, saleDate, pid, bd, c, q), UpdateSummary(b.summary, saleDate, [Group(pid, bd, q)])), true)
  }

  /** A historical sale writes exactly what a live sale of the same channel
      would write on its sale date, even when test mode would have stopped
      the live one. */
  lemma HistoricalIsLiveWrite(b: Books, c: Channel, pid: nat, q: int, saleDate: string, bd: Option<string>)
    requires pid != 0 && q != 0 && !Empty(saleDate)
    ensures RecordHistorical(b, c, pid, true, q, saleDate, bd).0 == RecordSale(b, c, pid, true, q, bd, saleDate, false)
    ensures RecordSale(b, c, pid, true, q, bd, saleDate, true) == b
  {
  }

  // ---- Reading ----

  datatype DailyReply = WholeLedger(sales: Sales) | OneDay(day: DayMap) | OneEntry(entry: Entry) | NoSales

  /** An entry of the product whose booking date is empty in PHP's sense. */
  predicate IsUndatedOf(e: Entry, pid: nat) {
    e.productId == Some(pid) && !HasBookingDate(e.bookingDate)
  }

  /** The first entry, in stored order, of a product without a booking date. */
  function FirstUndated(day: DayMap, pid: nat): (r: Option<Entry>)
    ensures r.None? <==> forall i :: 0 <= i < |day| ==> !IsUndatedOf(day[i].1, pid)
    ensures r.Some? ==> exists i :: 0 <= i < |day| && day[i].1 == r.value && IsUndatedOf(day[i].1, pid)
                                    && forall j :: 0 <= j < i ==> !IsUndatedOf(day[j].1, pid)
  {
    var k := FirstIndex(day, (p: (string, Entry)) => IsUndatedOf(p.1, pid));
    if k.Some? then Some(day[k.value].1) else None
  }

  /** `get_daily_sales`: the whole ledger with no date; a day's map with no
      product; with a booking date the composite key's entry; without one
      the product's first undated entry, then the legacy "<product>" key. */
  function GetDailySales(l: Sales, date: Option<string>, pid: Option<nat>, bd: Option<string>): (r: DailyReply)
    ensures date.None? <==> r.WholeLedger?
    ensures r.OneDay? <==> date.Some? && pid.None? && Get(l, date.value).Some?
    ensures date.Some? && Get(l, date.value).None? ==> r == NoSales
    ensures date.Some? && pid.Some? ==> r.OneEntry? || r.NoSales?
    ensures date.Some? && pid.Some? && HasBookingDate(bd) ==>
              && (r.OneEntry? <==> EntryAt(l, date.value, LedgerKey(pid.value, bd)).Some?)
              && (r.OneEntry? ==> EntryAt(l, date.value, LedgerKey(pid.value, bd)) == Some(r.entry))
    ensures date.Some? && pid.Some? && !HasBookingDate(bd) ==>
              var day := Get(l, date.value).GetOr([]);
              && (r.OneEntry? <==> FirstUndated(day, pid.value).Some? || Get(day, NatToString(pid.value)).Some?)
              && (FirstUndated(day, pid.value).Some? ==> r == OneEntry(FirstUndated(day, pid.value).value))
              && (FirstUndated(day, pid.value).None? && r.OneEntry? ==> Get(day, NatToString(pid.value)) == Some(r.entry))
  {
    if date.None? then WholeLedger(l)
    else match Get(l, date.value)
      case None => NoSales
      case Some(day) =>
        if pid.None? then OneDay(day)
        else if HasBookingDate(bd) then
          match Get(day, NatToString(pid.value) + "_" + bd.value)
          case Some(e) => OneEntry(e)
          case None => NoSales
        else match FirstUndated(day, pid.value)
          case Some(e) => OneEntry(e)
          case None =>
            match Get(day, NatToString(pid.value))
            case Some(e) => OneEntry(e)
            case None => NoSales
  }

  /** Every entry of a day sits under the key the writers give it. */
  predicate WellKeyed(day: DayMap) {
    forall p :: p in day ==> p.1.productId.Some? && p.0 == LedgerKey(p.1.productId.value, p.1.bookingDate)
  }

  predicate SalesWellKeyed(l: Sales) {
    forall d :: d in l ==> WellKeyed(d.1)
  }

  /** A string with an underscore is not a run of digits. */
  lemma UnderscoreNotDigits(a: string, b: string, c: string)
    requires AllDigits(c)
    ensures a + "_" + b != c
  {
    assert (a + "_" + b)[|a|] == '_';
  }

  /** An entry's ledger key names its product as "<product>" exactly when
      it is undated. */
  lemma LedgerKeyIsPlain(p: nat, bd: Option<string>, pid: nat)
    ensures LedgerKey(p, bd) == NatToString(pid) <==> p == pid && !HasBookingDate(bd)
  {
    if LedgerKey(p, bd) == NatToString(pid) {
      if HasBookingDate(bd) {
        UnderscoreNotDigits(NatToString(p), bd.value, NatToString(pid));
      }
      NatToStringRoundTrip(p);
      NatToStringRoundTrip(pid);
    }
  }

  /** In a well-keyed day the first undated entry of a product is the one
      under its plain key. */
  lemma {:induction false} FirstUndatedIsPlainKey(day: DayMap, pid: nat)
    requires WellKeyed(day)
    ensures FirstUndated(day, pid) == Get(day, NatToString(pid))
  {
    if |day| > 0 {
      var e := day[0].1;
      assert day[0] in day;
      LedgerKeyIsPlain(e.productId.value, e.bookingDate, pid);
      if !IsUndatedOf(e, pid) {
        assert forall p :: p in day[1..] ==> p in day;
        FirstUndatedIsPlainKey(day[1..], pid);
        FirstUndatedSkip(day, pid);
      }
    }
  }

  /** An entry that does not qualify is skipped. */
  lemma FirstUndatedSkip(day: DayMap, pid: nat)
    requires |day| > 0 && !IsUndatedOf(day[0].1, pid)
    ensures FirstUndated(day, pid) == FirstUndated(day[1..], pid)
  {
    var tail := day[1..];
    if FirstUndated(tail, pid).Some? {
      var i :| 0 <= i < |tail| && tail[i].1 == FirstUndated(tail, pid).value && IsUndatedOf(tail[i].1, pid)
               && forall j :: 0 <= j < i ==> !IsUndatedOf(tail[j].1, pid);
      forall j | 0 <= j < i + 1 ensures !IsUndatedOf(day[j].1, pid) {
        if j > 0 { assert day[j] == tail[j - 1]; }
      }
      assert day[i + 1] == tail[i];
      FirstUndatedUnique(day, pid, i + 1);
    } else {
      forall j | 0 <= j < |day| ensures !IsUndatedOf(day[j].1, pid) {
        if j > 0 { assert day[j] == tail[j - 1]; }
      }
    }
  }

  /** The entry FirstUndated reports is fixed by the first qualifying index. */
  lemma FirstUndatedUnique(day: DayMap, pid: nat, i: nat)
    requires i < |day| && IsUndatedOf(day[i].1, pid)
    requires forall j :: 0 <= j < i ==> !IsUndatedOf(day[j].1, pid)
    ensures FirstUndated(day, pid) == Some(day[i].1)
  {
    if FirstUndated(day, pid).Some? {
      var k :| 0 <= k < |day| && day[k].1 == FirstUndated(day, pid).value && IsUndatedOf(day[k].1, pid)
               && forall j :: 0 <= j < k ==> !IsUndatedOf(day[j].1, pid);
      assert k == i;
    }
  }

  /** On a well-keyed ledger the reader returns, for any product and
      booking date, exactly the entry the writers keep under its key. */
  lemma ReadIsKeyedEntry(l: Sales, date: string, pid: nat, bd: Option<string>)
    requires SalesWellKeyed(l)
    ensures GetDailySales(l, Some(date), Some(pid), bd)
              == match EntryAt(l, date, LedgerKey(pid, bd)) case Some(e) => OneEntry(e) case None => NoSales
  {
    if Get(l, date).Some? && !HasBookingDate(bd) {
      FirstUndatedIsPlainKey(Get(l, date).value, pid);
    }
  }

  /** Recording keeps every entry under the key the writers give it. */
  lemma RecordWellKeyed(l: Sales, date: string, pid: nat, bd: Option<string>, c: Channel, q: int)
    requires SalesWellKeyed(l)
    ensures SalesWellKeyed(Record(l, date, pid, bd, c, q))
  {
    var day := Get(l, date).GetOr([]);
    var key := LedgerKey(pid, bd);
    var prev := Get(day, key);
    var e := AddSale(prev, pid, bd, c, q);
    var day' := Put(day, key, e);
    PutMembers(day, key, e);
    PutMembers(l, date, day');
    assert WellKeyed(day) by {
      if Get(l, date).Some? {
        assert (date, day) in l;
      }
    }
    assert WellKeyed(day') by {
      if prev.Some? {
        assert (key, prev.value) in day;
      }
    }
  }

  /** After a sale of any booking date is recorded on a well-keyed ledger,
      the reader returns its entry. */
  lemma RecordThenReadAny(l: Sales, date: string, pid: nat, bd: Option<string>, c: Channel, q: int)
    requires SalesWellKeyed(l)
    ensures var r := Record(l, date, pid, bd, c, q);
            GetDailySales(r, Some(date), Some(pid), bd)
              == OneEntry(AddSale(EntryAt(l, date, LedgerKey(pid, bd)), pid, bd, c, q))
  {
    RecordWellKeyed(l, date, pid, bd, c, q);
    RecordChangesOneEntry(l, date, pid, bd, c, q, date, LedgerKey(pid, bd));
    ReadIsKeyedEntry(Record(l, date, pid, bd, c, q), date, pid, bd);
  }

  /** After a dated sale is recorded, the reader returns its entry. */
  lemma RecordThenRead(l: Sales, date: string, pid: nat, bd: Option<string>, c: Channel, q: int)
    requires HasBookingDate(bd)
    ensures var r := Record(l, date, pid, bd, c, q);
            GetDailySales(r, Some(date), Some(pid), bd)
              == OneEntry(AddSale(EntryAt(l, date, LedgerKey(pid, bd)), pid, bd, c, q))
  {
    RecordChangesOneEntry(l, date, pid, bd, c, q, date, LedgerKey(pid, bd));
  }
}

=== FILE: listing.dfy ===
/** The occurrence list the mapping editor shows (`ajax_get_product_dates`):
    the discovered dates, then one row for each stored "<date>_<time>" key
    whose date is not listed yet, each row then given the stored ids of its
    exact key, of its date, or a suggested id; and the time options of the
    editor (`get_common_times`). */
module Listing {
  import opened Wrappers
  import opened Text
  import opened Assoc
  import opened Calendar
  import opened Helpers
  import opened Mappings
  import opened Discovery

  /** A listed occurrence with the ids attached to it. */
  datatype Listed = Listed(row: DateRow, eventbriteId: Option<string>, squareId: Option<string>, suggestion: bool)

  function Unlisted(rows: seq<DateRow>): (r: seq<Listed>)
    ensures |r| == |rows|
    ensures forall i :: 0 <= i < |r| ==> r[i].row == rows[i]
  {
    seq(|rows|, i requires 0 <= i < |rows| => Listed(rows[i], None, None, false))
  }

  predicate Lists(xs: seq<Listed>, date: string) {
    exists i :: 0 <= i < |xs| && xs[i].row.date == date
  }

  /** The row added for a stored "<date>_<time>" key. */
  function MappedRow(date: string, time: string, m: Mapping): Listed {
    Listed(DateRow(date, Some(time), None, FromMappings), Some(m.eventbriteId), Some(m.squareId), false)
  }

  /** Walks the occurrence map in stored order and appends a row for each
      key with a '_' whose date part is not yet in the (growing) list. */
  function AddMappedDates(xs: seq<Listed>, occ: Occurrences): (r: seq<Listed>)
    ensures |xs| <= |r| && r[..|xs|] == xs
    ensures forall i :: |xs| <= i < |r| ==> r[i].row.origin == FromMappings
    decreases |occ|
  {
    if |occ| == 0 then xs
    else
      match SplitFirst(occ[0].0, '_')
      case None => AddMappedDates(xs, occ[1..])
      case Some((date, time)) =>
        if Lists(xs, date) then AddMappedDates(xs, occ[1..])
        else
          var r := AddMappedDates(xs + [MappedRow(date, time, occ[0].1)], occ[1..]);
          assert r[..|xs|] == (xs + [MappedRow(date, time, occ[0].1)])[..|xs|];
          r
  }

  lemma ListsPrefix(xs: seq<Listed>, ys: seq<Listed>, date: string)
    requires |xs| <= |ys| && ys[..|xs|] == xs && Lists(xs, date)
    ensures Lists(ys, date)
  {
    var i :| 0 <= i < |xs| && xs[i].row.date == date;
    assert ys[i] == ys[..|xs|][i];
  }

  /** Every date part of a stored "<date>_<time>" key ends up listed. */
  lemma {:induction false} AddMappedDatesComplete(xs: seq<Listed>, occ: Occurrences, k: nat)
    requires k < |occ| && SplitFirst(occ[k].0, '_').Some?
    ensures Lists(AddMappedDates(xs, occ), SplitFirst(occ[k].0, '_').value.0)
    decreases |occ|
  {
    var r := AddMappedDates(xs, occ);
    match SplitFirst(occ[0].0, '_')
    case None =>
      assert occ[1..][k - 1] == occ[k];
      AddMappedDatesComplete(xs, occ[1..], k - 1);
    case Some((date, time)) =>
      var ys := if Lists(xs, date) then xs else xs + [MappedRow(date, time, occ[0].1)];
      assert r == AddMappedDates(ys, occ[1..]);
      if k == 0 {
        assert Lists(ys, date) by {
          if !Lists(xs, date) {
            assert ys[|xs|].row.date == date;
          }
        }
        ListsPrefix(ys, r, date);
      } else {
        assert occ[1..][k - 1] == occ[k];
        AddMappedDatesComplete(ys, occ[1..], k - 1);
      }
  }

  /** An added row's date was not listed before it: the added dates are new
      and pairwise distinct. */
  lemma {:induction false} AddMappedDatesFresh(xs: seq<Listed>, occ: Occurrences, i: nat)
    requires |xs| <= i < |AddMappedDates(xs, occ)|
    ensures !Lists(AddMappedDates(xs, occ)[..i], AddMappedDates(xs, occ)[i].row.date)
    decreases |occ|
  {
    var r := AddMappedDates(xs, occ);
    match SplitFirst(occ[0].0, '_')
    case None =>
      AddMappedDatesFresh(xs, occ[1..], i);
    case Some((date, time)) =>
      if Lists(xs, date) {
        AddMappedDatesFresh(xs, occ[1..], i);
      } else {
        var ys := xs + [MappedRow(date, time, occ[0].1)];
        if i == |xs| {
          assert r[..i] == xs && r[i] == ys[|xs|] by {
            assert r[..|ys|] == ys;
            assert r[..i] == ys[..|xs|];
          }
        } else {
          AddMappedDatesFresh(ys, occ[1..], i);
        }
      }
  }

  /** The ids of a listed row: the exact key's mapping, else the date's,
      else a suggested Eventbrite id when the product has a default one
      (square id left as it was), else empty ids. */
  function AttachIds(x: Listed, occ: Occurrences, baseId: string, suggest: (string, string) -> string): (r: Listed)
    ensures r.row == x.row
    ensures Get(occ, OccurrenceKey(x.row.date, x.row.time)).Some? ==>
              r.eventbriteId == Some(Get(occ, OccurrenceKey(x.row.date, x.row.time)).value.eventbriteId)
    ensures Get(occ, OccurrenceKey(x.row.date, x.row.time)).None? && Get(occ, x.row.date).Some? ==>
              r.eventbriteId == Some(Get(occ, x.row.date).value.eventbriteId)
    ensures Get(occ, OccurrenceKey(x.row.date, x.row.time)).None? && Get(occ, x.row.date).None? ==>
              if Empty(baseId) then r.eventbriteId == Some("") && r.squareId == Some("")
              else r.squareId == x.squareId && r.eventbriteId.Some?
                   && (r.suggestion <==> x.suggestion || !Empty(r.eventbriteId.value))
  {
    var date := x.row.date;
    match Get(occ, OccurrenceKey(date, x.row.time))
    case Some(m) => x.(eventbriteId := Some(m.eventbriteId), squareId := Some(m.squareId))
    case None =>
      match Get(occ, date)
      case Some(m) => x.(eventbriteId := Some(m.eventbriteId), squareId := Some(m.squareId))
      case None =>
        if Empty(baseId) then x.(eventbriteId := Some(""), squareId := Some(""))
        else
          var id := suggest(date, x.row.time.GetOr(""));
          x.(eventbriteId := Some(id), suggestion := x.suggestion || !Empty(id))
  }

  /** A row added for a stored "<date>_<time>" key with a non-empty time
      finds that same key again, so it shows the stored ids. */
  lemma MappedRowFindsItsKey(occ: Occurrences, k: nat, baseId: string, suggest: (string, string) -> string)
    requires NoDup(occ) && k < |occ|
    requires SplitFirst(occ[k].0, '_').Some? && !Empty(SplitFirst(occ[k].0, '_').value.1)
    ensures var (date, time) := SplitFirst(occ[k].0, '_').value;
            var r := AttachIds(MappedRow(date, time, occ[k].1), occ, baseId, suggest);
            r.eventbriteId == Some(occ[k].1.eventbriteId) && r.squareId == Some(occ[k].1.squareId)
  {
    var (date, time) := SplitFirst(occ[k].0, '_').value;
    assert OccurrenceKey(date, Some(time)) == occ[k].0;
    GetAt(occ, k);
  }

  /** A listed occurrence whose key a live date-mapping save accepted
      shows the Eventbrite id of the last row saved for that key. */
  lemma ListedAfterSave(s: Store, productId: Option<string>, rows: seq<Row>, x: Listed, baseId: string, suggest: (string, string) -> string)
    requires AbsInt(productId) != 0
    requires LastAccepted(rows, OccurrenceKey(x.row.date, x.row.time)).Some?
    ensures var saved := SaveDateMappings(s, productId, rows, false).value.0;
            AttachIds(x, Occ(saved, AbsInt(productId)), baseId, suggest).eventbriteId
              == Some(LastAccepted(rows, OccurrenceKey(x.row.date, x.row.time)).value.eventbriteId)
  {
    SaveDateMappingsLastWins(s, productId, rows, OccurrenceKey(x.row.date, x.row.time));
  }

  // ----- get_common_times -----

  datatype TimeOption = TimeOption(value: string, text: string)

  /** The hour on a twelve-hour clock: 12 for noon and midnight. */
  function Hour12(h: nat): (r: nat)
    ensures 1 <= r <= 12 && r % 12 == h % 12
  {
    if h % 12 == 0 then 12 else h % 12
  }

  /** "g:MM AM" / "g:MM PM". */
  function TimeLabel(h: nat, m: nat): string {
    NatToString(Hour12(h)) + ":" + Pad2(m) + " " + (if h >= 12 then "PM" else "AM")
  }

  function Choice(hh: nat, mm: nat): TimeOption {
    TimeOption(FormatHM(hh, mm), TimeLabel(hh, mm))
  }

  /** The i-th half hour from hour h on. */
  function HalfHour(h: nat, i: nat): TimeOption {
    Choice(h + i / 2, (i % 2) * 30)
  }

  /** The full and the half hour of every hour from h to 23. */
  function TimesFrom(h: nat): (r: seq<TimeOption>)
    requires h <= 24
    ensures |r| == 2 * (24 - h)
    decreases 24 - h
  {
    if h == 24 then []
    else [HalfHour(h, 0), HalfHour(h, 1)] + TimesFrom(h + 1)
  }

  lemma TimesFromShift(h: nat, j: nat)
    requires h < 24 && j < 2 * (24 - h - 1)
    ensures TimesFrom(h)[j + 2] == TimesFrom(h + 1)[j]
  {
    assert TimesFrom(h) == [HalfHour(h, 0), HalfHour(h, 1)] + TimesFrom(h + 1);
  }

  lemma HalfHourShift(h: nat, j: nat)
    ensures HalfHour(h + 1, j) == HalfHour(h, j + 2)
  {
    assert h + 1 + j / 2 == h + (j + 2) / 2 && j % 2 == (j + 2) % 2;
  }

  lemma {:induction false} TimesFromAt(h: nat, i: nat)
    requires h <= 24 && i < 2 * (24 - h)
    ensures TimesFrom(h)[i] == HalfHour(h, i)
    decreases 24 - h
  {
    if i >= 2 {
      TimesFromAt(h + 1, i - 2);
      TimesFromShift(h, i - 2);
      HalfHourShift(h, i - 2);
    }
  }

  /** `get_common_times` (the same in the enhanced editor): 08:00 to 23:30. */
  function CommonTimes(): (r: seq<TimeOption>)
    ensures |r| == 32
  {
    TimesFrom(8)
  }

  /** Formatting an in-day hour and minute gives an `H:i` time. */
  lemma FormatHMIsHi(h: nat, m: nat)
    requires h < 100 && m < 100
    ensures IsHi(FormatHM(h, m))
  {
    var t := FormatHM(h, m);
    assert t[..|t| - 3] == Pad2(h);
    assert t[|t| - 2..] == Pad2(m);
  }

  /** Option i is i half hours after 08:00, an `H:i` value whose label
      shows the same time on a twelve-hour clock. */
  lemma CommonTimesAt(i: nat)
    requires i < 32
    ensures var o := CommonTimes()[i];
            IsHi(o.value) && TimeToMinutes(o.value) == 480 + 30 * i
            && o.text == TimeLabel(8 + i / 2, (i % 2) * 30)
  {
    TimesFromAt(8, i);
    TimeToMinutesFormatHM(8 + i / 2, (i % 2) * 30);
    FormatHMIsHi(8 + i / 2, (i % 2) * 30);
  }

  /** Noon is labelled "12:00 PM". */
  lemma NoonLabel()
    ensures TimeLabel(12, 0) == "12:00 PM"
  {
    assert NatToString(12) == "12" by {
      assert NatToString(1) == "1";
    }
    assert Pad2(0) == "00";
  }

  // ----- ajax_get_product_dates -----

  /** What the editor receives. */
  datatype Listing = Listing(dates: seq<Listed>, baseId: string, fromEventbrite: bool, times: seq<TimeOption>)

  /** The ids attached to every row, in order. */
  function AttachAll(xs: seq<Listed>, occ: Occurrences, baseId: string, suggest: (string, string) -> string): (r: seq<Listed>)
    ensures |r| == |xs|
    ensures forall i :: 0 <= i < |xs| ==> r[i] == AttachIds(xs[i], occ, baseId, suggest)
  {
    seq(|xs|, i requires 0 <= i < |xs| => AttachIds(xs[i], occ, baseId, suggest))
  }

  /** `ajax_get_product_dates`: a missing or zero product id is an error;
      Eventbrite-fetched dates (supplied as `remote`) are returned as they
      are when fetching was asked for, the product has a default Eventbrite
      id and there are any; otherwise the discovered dates, extended by the
      stored timed keys, with ids attached. */
  function ProductDatesListing(s: Store, productId: Option<string>, fetch: bool, remote: seq<DateRow>,
                               product: Option<Product>, today: Date, suggest: (string, string) -> string): (r: Result<Listing>)
    ensures r.Failure? <==> AbsInt(productId) == 0
    ensures r.Success? ==> r.value.times == CommonTimes()
    ensures r.Success? ==> r.value.baseId == (if Empty(Default(s, AbsInt(productId)).eventbriteId) then "" else Default(s, AbsInt(productId)).eventbriteId)
    ensures r.Success? ==> (r.value.fromEventbrite <==> fetch && !Empty(r.value.baseId) && |remote| > 0)
    ensures r.Success? && r.value.fromEventbrite ==> r.value.dates == Unlisted(remote)
    ensures r.Success? && !r.value.fromEventbrite ==>
              r.value.dates == AttachAll(AddMappedDates(Unlisted(ProductDates(product, true, today)), Occ(s, AbsInt(productId))),
                                         Occ(s, AbsInt(productId)), r.value.baseId, suggest)
    ensures r.Success? && !r.value.fromEventbrite ==>
              |r.value.dates| >= |ProductDates(product, true, today)|
              && forall i :: 0 <= i < |ProductDates(product, true, today)| ==> r.value.dates[i].row == ProductDates(product, true, today)[i]
  {
    var pid := AbsInt(productId);
    if pid == 0 then Failure("Product ID is required.")
    else
      var occ := Occ(s, pid);
      var base := Default(s, pid).eventbriteId;
      var baseId := if Empty(base) then "" else base;
      if fetch && !Empty(baseId) && |remote| > 0 then
        Success(Listing(Unlisted(remote), baseId, true, CommonTimes()))
      else
        var found := Unlisted(ProductDates(product, true, today));
        var xs := AddMappedDates(found, occ);
        assert forall i :: 0 <= i < |found| ==> xs[i] == found[i] by {
          assert xs[..|found|] == found;
        }
        Success(Listing(AttachAll(xs, occ, baseId, suggest), baseId, false, CommonTimes()))
  }

  /** After a live date-mapping save, every row of the editor's own list
      whose key the save accepted shows the Eventbrite id of the last row
      saved for that key. */
  lemma ListingShowsSaved(s: Store, productId: Option<string>, rows: seq<Row>, fetch: bool, remote: seq<DateRow>,
                          product: Option<Product>, today: Date, suggest: (string, string) -> string, i: nat)
    requires AbsInt(productId) != 0
    requires var l := ProductDatesListing(SaveDateMappings(s, productId, rows, false).value.0, productId, fetch, remote, product, today, suggest);
             !l.value.fromEventbrite && i < |l.value.dates|
             && LastAccepted(rows, OccurrenceKey(l.value.dates[i].row.date, l.value.dates[i].row.time)).Some?
    ensures var l := ProductDatesListing(SaveDateMappings(s, productId, rows, false).value.0, productId, fetch, remote, product, today, suggest);
            l.value.dates[i].eventbriteId
              == Some(LastAccepted(rows, OccurrenceKey(l.value.dates[i].row.date, l.value.dates[i].row.time)).value.eventbriteId)
  {
    var saved := SaveDateMappings(s, productId, rows, false).value.0;
    var l := ProductDatesListing(saved, productId, fetch, remote, product, today, suggest);
    var xs := AddMappedDates(Unlisted(ProductDates(product, true, today)), Occ(saved, AbsInt(productId)));
    assert l.value.dates[i] == AttachIds(xs[i], Occ(saved, AbsInt(productId)), l.value.baseId, suggest);
    ListedAfterSave(s, productId, rows, xs[i], l.value.baseId, suggest);
  }
}

=== FILE: mappings.dfy ===
/** The product-mapping store (the `brcc_product_mappings` option) and its
    readers and writers: the three-tier resolution, the full-replace save
    of a product's occurrence map, the merge-style single save, the admin
    "save all" and the flattening used by the Eventbrite sync. */
module Mappings {
  import opened Wrappers
  import opened Text
  import opened Assoc
  import opened Helpers

  /** One stored mapping. `eventbriteEventId` is only written by the admin
      "save all" form. */
  datatype Mapping = Mapping(eventbriteId: string, squareId: string, eventbriteEventId: Option<string>)

  /** `array('eventbrite_id' => '', 'square_id' => '')`. */
  const EmptyMapping := Mapping("", "", None)

  /** A product's occurrence map: keys "<date>" or "<date>_<time>". */
  type Occurrences = Assoc<string, Mapping>

  /** The option's two kinds of entries, kept apart: `defaults` holds the
      "<id>" entries and `dates` the "<id>_dates" entries, each in stored
      order. */
  datatype Store = Store(defaults: Assoc<nat, Mapping>, dates: Assoc<nat, Occurrences>)

  const EmptyStore := Store([], [])

  /** The product default, or the empty mapping when there is none. */
  function Default(s: Store, pid: nat): (r: Mapping)
    ensures pid in KeySet(s.defaults) ==> Get(s.defaults, pid) == Some(r)
    ensures pid !in KeySet(s.defaults) ==> r == EmptyMapping
  {
    Get(s.defaults, pid).GetOr(EmptyMapping)
  }

  /** The product's occurrence map, empty when absent. */
  function Occ(s: Store, pid: nat): Occurrences {
    Get(s.dates, pid).GetOr([])
  }

  /** A key "<date>_<t>" whose time part t is within the buffer of `time`. */
  predicate CloseKey(key: string, date: string, time: string) {
    StartsWith(key, date + "_") && IsTimeClose(time, key[|date| + 1..], TimeBufferMinutes)
  }

  /** No key before position n is a close key. */
  predicate NoCloseBefore(occ: Occurrences, date: string, time: string, n: int) {
    forall j :: 0 <= j < n && j < |occ| ==> !CloseKey(occ[j].0, date, time)
  }

  /** The first close key's mapping, in stored order. */
  function FirstClose(occ: Occurrences, date: string, time: string): (r: Option<Mapping>)
    ensures r.None? <==> NoCloseBefore(occ, date, time, |occ|)
    ensures r.Some? ==> exists i :: 0 <= i < |occ| && CloseKey(occ[i].0, date, time)
                          && occ[i].1 == r.value && NoCloseBefore(occ, date, time, i)
  {
    if |occ| == 0 then None
    else if CloseKey(occ[0].0, date, time) then
      assert NoCloseBefore(occ, date, time, 0);
      Some(occ[0].1)
    else
      var r := FirstClose(occ[1..], date, time);
      assert forall j :: 1 <= j < |occ| ==> occ[1..][j - 1] == occ[j];
      if r.Some? then
        assert exists i :: 0 <= i < |occ| && CloseKey(occ[i].0, date, time)
                            && occ[i].1 == r.value && NoCloseBefore(occ, date, time, i) by {
          var i :| 0 <= i < |occ[1..]| && CloseKey(occ[1..][i].0, date, time)
                   && occ[1..][i].1 == r.value && NoCloseBefore(occ[1..], date, time, i);
          assert occ[1..][i] == occ[i + 1];
        }
        r
      else
        r
  }

  /** `get_product_mappings`: with no date, the product default; with a
      date and a time, the first "<date>_<t>" entry whose t is close to the
      time; then the exact "<date>" entry; then the product default. */
  function GetProductMappings(s: Store, pid: nat, date: string, time: string): (r: Mapping)
    ensures Empty(date) ==> r == Default(s, pid)
    ensures !Empty(date) && !Empty(time) && pid in KeySet(s.dates)
            && !NoCloseBefore(Occ(s, pid), date, time, |Occ(s, pid)|) ==>
              exists i :: 0 <= i < |Occ(s, pid)| && CloseKey(Occ(s, pid)[i].0, date, time)
                && Occ(s, pid)[i].1 == r && NoCloseBefore(Occ(s, pid), date, time, i)
    ensures !Empty(date) && (Empty(time) || NoCloseBefore(Occ(s, pid), date, time, |Occ(s, pid)|)) ==>
              if date in KeySet(Occ(s, pid)) then Get(Occ(s, pid), date) == Some(r) else r == Default(s, pid)
  {
    if Empty(date) then Default(s, pid)
    else
      var occ := Get(s.dates, pid);
      var close := if !Empty(time) && occ.Some? then FirstClose(occ.value, date, time) else None;
      if close.Some? then close.value
      else match Get(Occ(s, pid), date)
        case Some(m) => m
        case None => Default(s, pid)
  }

  // ----- ajax_save_product_date_mappings (and its enhanced twin) -----

  /** One submitted row; every field may be missing. */
  datatype Row = Row(date: Option<string>, time: Option<string>, eventbriteId: Option<string>, squareId: Option<string>)

  /** A row is stored when it has a date and at least one non-empty id. */
  predicate Accepted(row: Row) {
    row.date.Some? && !(Empty(row.eventbriteId.GetOr("")) && Empty(row.squareId.GetOr("")))
  }

  /** "<date>_<time>" when a non-empty time is given, else "<date>". */
  function OccurrenceKey(date: string, time: Option<string>): (k: string)
    ensures time.Some? && !Empty(time.value) ==> k == date + "_" + time.value
    ensures time.None? || Empty(time.value) ==> k == date
  {
    if time.Some? && !Empty(time.value) then date + "_" + time.value else date
  }

  function RowKey(row: Row): string
    requires row.date.Some?
  {
    OccurrenceKey(row.date.value, row.time)
  }

  function RowMapping(row: Row): Mapping {
    Mapping(row.eventbriteId.GetOr(""), row.squareId.GetOr(""), None)
  }

  /** The rebuilt occurrence map and the number of accepted rows, rows
      taken in submission order. */
  function FoldRows(rows: seq<Row>): (Occurrences, nat)
  {
    if |rows| == 0 then ([], 0)
    else
      var (occ, n) := FoldRows(rows[..|rows| - 1]);
      var row := rows[|rows| - 1];
      if Accepted(row) then (Put(occ, RowKey(row), RowMapping(row)), n + 1) else (occ, n)
  }

  /** Reference definition: the mapping of the last accepted row with key k. */
  function LastAccepted(rows: seq<Row>, k: string): Option<Mapping> {
    if |rows| == 0 then None
    else
      var row := rows[|rows| - 1];
      if Accepted(row) && RowKey(row) == k then Some(RowMapping(row))
      else LastAccepted(rows[..|rows| - 1], k)
  }

  /** Reference definition: how many rows are accepted. */
  function CountAccepted(rows: seq<Row>): nat {
    if |rows| == 0 then 0
    else CountAccepted(rows[..|rows| - 1]) + (if Accepted(rows[|rows| - 1]) then 1 else 0)
  }

  /** The reply of a successful save. */
  datatype SaveReply = Saved(count: nat) | WouldSave

  /** `absint`: the absolute value of `intval`; a missing value is 0. */
  function AbsInt(raw: Option<string>): nat {
    if raw.None? then 0 else Abs(IntVal(raw.value))
  }

  /** `ajax_save_product_date_mappings` (and `..._enhanced`, which runs the
      same logic): rejects a missing or zero product id; in test mode
      changes nothing; otherwise replaces the product's "<id>_dates" map
      with the accepted rows and reports how many rows were accepted. */
  function SaveDateMappings(s: Store, productId: Option<string>, rows: seq<Row>, testMode: bool): (r: Result<(Store, SaveReply)>)
    ensures r.Failure? <==> AbsInt(productId) == 0
    ensures r.Success? && testMode ==> r.value == (s, WouldSave)
    ensures r.Success? && !testMode ==>
              r.value.0.defaults == s.defaults && r.value.1 == Saved(CountAccepted(rows))
              && AbsInt(productId) in KeySet(r.value.0.dates)
  {
    var pid := AbsInt(productId);
    if pid == 0 then Failure("Product ID is required.")
    else if testMode then Success((s, WouldSave))
    else
      var (occ, n) := FoldRows(rows);
      FoldRowsCount(rows);
      PutKeys(s.dates, pid, occ);
      Success((Store(s.defaults, Put(s.dates, pid, occ)), Saved(n)))
  }

  /** After the fold, each key holds the mapping of the last accepted row
      with that key, and no other key is present. */
  lemma {:induction false} FoldRowsLastWins(rows: seq<Row>, k: string)
    ensures Get(FoldRows(rows).0, k) == LastAccepted(rows, k)
  {
    if |rows| > 0 {
      var init := rows[..|rows| - 1];
      FoldRowsLastWins(init, k);
      var row := rows[|rows| - 1];
      if Accepted(row) {
        PutGet(FoldRows(init).0, RowKey(row), RowMapping(row), k);
      }
    }
  }

  /** The reported count is the number of accepted rows, even when later
      rows overwrite earlier ones. */
  lemma {:induction false} FoldRowsCount(rows: seq<Row>)
    ensures FoldRows(rows).1 == CountAccepted(rows)
  {
    if |rows| > 0 {
      FoldRowsCount(rows[..|rows| - 1]);
    }
  }

  /** Saving the rows of a live save: the product's occurrence map now
      answers each key with the last accepted row for it. */
  lemma SaveDateMappingsLastWins(s: Store, productId: Option<string>, rows: seq<Row>, k: string)
    requires AbsInt(productId) != 0
    ensures var r := SaveDateMappings(s, productId, rows, false);
            r.Success? && Get(Occ(r.value.0, AbsInt(productId)), k) == LastAccepted(rows, k)
  {
    var pid := AbsInt(productId);
    PutGet(s.dates, pid, FoldRows(rows).0, pid);
    FoldRowsLastWins(rows, k);
  }

  /** A live save leaves every other product's occurrence map untouched. */
  lemma SaveDateMappingsKeepsOthers(s: Store, productId: Option<string>, rows: seq<Row>, q: nat)
    requires AbsInt(productId) != 0 && q != AbsInt(productId)
    ensures var r := SaveDateMappings(s, productId, rows, false);
            r.Success? && Get(r.value.0.dates, q) == Get(s.dates, q)
  {
    PutGet(s.dates, AbsInt(productId), FoldRows(rows).0, q);
  }

  /** The save replaces rather than merges: what an earlier save stored for
      the product is forgotten by the next one. */
  lemma SaveDateMappingsReplaces(s: Store, productId: Option<string>, rows1: seq<Row>, rows2: seq<Row>)
    requires AbsInt(productId) != 0
    ensures var r1 := SaveDateMappings(s, productId, rows1, false);
            r1.Success? && SaveDateMappings(r1.value.0, productId, rows2, false) == SaveDateMappings(s, productId, rows2, false)
  {
    PutPut(s.dates, AbsInt(productId), FoldRows(rows1).0, FoldRows(rows2).0);
  }

  /** Two accepted rows with the same key are both counted but leave one entry. */
  lemma {:induction false} DuplicateRowsCountTwice(row: Row)
    requires Accepted(row)
    ensures FoldRows([row, row]).1 == 2 && |FoldRows([row, row]).0| == 1
  {
    assert [row, row][..1] == [row];
    assert [row][..0] == [];
    var once := Put([], RowKey(row), RowMapping(row));
    assert FoldRows([row]) == (once, 1);
    assert FoldRows([row, row]) == (Put(once, RowKey(row), RowMapping(row)), 2);
    PutShape(once, RowKey(row), RowMapping(row));
    PutKeys([], RowKey(row), RowMapping(row));
  }

  // ----- save_product_mapping -----

  /** `save_product_mapping`: without a date, replaces the product default;
      with a date, inserts or overwrites one occurrence key and keeps the
      rest of the occurrence map (a merge). A missing square id is ''. */
  function SaveProductMapping(s: Store, pid: nat, eventbriteId: string, squareId: Option<string>, date: string, time: string): (r: Store)
    ensures Empty(date) ==> r.dates == s.dates && KeySet(r.defaults) == KeySet(s.defaults) + {pid}
    ensures !Empty(date) ==> r.defaults == s.defaults && KeySet(r.dates) == KeySet(s.dates) + {pid}
    ensures forall p :: p != pid ==> Get(r.defaults, p) == Get(s.defaults, p) && Get(r.dates, p) == Get(s.dates, p)
  {
    var m := Mapping(eventbriteId, squareId.GetOr(""), None);
    if Empty(date) then
      PutKeys(s.defaults, pid, m);
      assert forall p :: p != pid ==> Get(Put(s.defaults, pid, m), p) == Get(s.defaults, p) by {
        forall p { PutGet(s.defaults, pid, m, p); }
      }
      Store(Put(s.defaults, pid, m), s.dates)
    else
      var key := OccurrenceKey(date, if Empty(time) then None else Some(time));
      var occ := Put(Occ(s, pid), key, m);
      PutKeys(s.dates, pid, occ);
      assert forall p :: p != pid ==> Get(Put(s.dates, pid, occ), p) == Get(s.dates, p) by {
        forall p { PutGet(s.dates, pid, occ, p); }
      }
      Store(s.defaults, Put(s.dates, pid, occ))
  }

  /** A saved default is what an undated lookup returns. */
  lemma SaveDefaultRoundTrip(s: Store, pid: nat, eventbriteId: string, squareId: Option<string>, time: string, time': string)
    ensures GetProductMappings(SaveProductMapping(s, pid, eventbriteId, squareId, "", time), pid, "", time')
            == Mapping(eventbriteId, squareId.GetOr(""), None)
  {
    PutGet(s.defaults, pid, Mapping(eventbriteId, squareId.GetOr(""), None), pid);
  }

  /** A saved date-only mapping is what a lookup by that date without a
      time returns. */
  lemma SaveDatedRoundTrip(s: Store, pid: nat, eventbriteId: string, squareId: Option<string>, date: string)
    requires !Empty(date)
    ensures GetProductMappings(SaveProductMapping(s, pid, eventbriteId, squareId, date, ""), pid, date, "")
            == Mapping(eventbriteId, squareId.GetOr(""), None)
  {
    var m := Mapping(eventbriteId, squareId.GetOr(""), None);
    var r := SaveProductMapping(s, pid, eventbriteId, squareId, date, "");
    PutGet(s.dates, pid, Put(Occ(s, pid), date, m), pid);
    assert Occ(r, pid) == Put(Occ(s, pid), date, m);
    PutGet(Occ(s, pid), date, m, date);
  }

  /** Putting a close key into a map whose other keys are not close makes
      it the first close key. */
  lemma {:induction false} FirstClosePut(occ: Occurrences, k: string, m: Mapping, date: string, time: string)
    requires CloseKey(k, date, time)
    requires forall i :: 0 <= i < |occ| && occ[i].0 != k ==> !CloseKey(occ[i].0, date, time)
    ensures FirstClose(Put(occ, k, m), date, time) == Some(m)
  {
    if |occ| > 0 && occ[0].0 != k {
      assert forall i :: 1 <= i < |occ| ==> occ[1..][i - 1] == occ[i];
      FirstClosePut(occ[1..], k, m, date, time);
      assert Put(occ, k, m)[1..] == Put(occ[1..], k, m);
    }
  }

  /** A saved dated and timed mapping is what a lookup by that date and
      time returns, provided no other stored key of that date is close to
      the time (the first close key in stored order would win). */
  lemma SaveTimedRoundTrip(s: Store, pid: nat, eventbriteId: string, squareId: Option<string>, date: string, time: string)
    requires !Empty(date) && !Empty(time)
    requires forall i :: 0 <= i < |Occ(s, pid)| && Occ(s, pid)[i].0 != date + "_" + time ==>
               !CloseKey(Occ(s, pid)[i].0, date, time)
    ensures GetProductMappings(SaveProductMapping(s, pid, eventbriteId, squareId, date, time), pid, date, time)
            == Mapping(eventbriteId, squareId.GetOr(""), None)
  {
    var m := Mapping(eventbriteId, squareId.GetOr(""), None);
    var key := date + "_" + time;
    PutGet(s.dates, pid, Put(Occ(s, pid), key, m), pid);
    assert key[|date| + 1..] == time;
    IsTimeCloseReflexive(time, TimeBufferMinutes);
    FirstClosePut(Occ(s, pid), key, m, date, time);
  }

  /** The merge keeps every other occurrence key of the product. */
  lemma SaveProductMappingKeepsOthers(s: Store, pid: nat, eventbriteId: string, squareId: Option<string>, date: string, time: string, k: string)
    requires !Empty(date) && k != OccurrenceKey(date, if Empty(time) then None else Some(time))
    ensures Get(Occ(SaveProductMapping(s, pid, eventbriteId, squareId, date, time), pid), k) == Get(Occ(s, pid), k)
  {
    var m := Mapping(eventbriteId, squareId.GetOr(""), None);
    var key := OccurrenceKey(date, if Empty(time) then None else Some(time));
    PutGet(s.dates, pid, Put(Occ(s, pid), key, m), pid);
    PutGet(Occ(s, pid), key, m, k);
  }

  // ----- ajax_save_product_mappings (admin "save all") -----

  /** One submitted product row of the admin form. */
  datatype AdminRow = AdminRow(eventbriteId: Option<string>, eventbriteEventId: Option<string>, squareId: Option<string>)

  function AdminMapping(row: AdminRow): Mapping {
    Mapping(row.eventbriteId.GetOr(""), row.squareId.GetOr(""), Some(row.eventbriteEventId.GetOr("")))
  }

  /** The defaults built from the submitted rows, keyed by `absint` of the
      submitted key; a later row with the same numeric key overwrites. */
  function AdminDefaults(rows: seq<(string, AdminRow)>): Assoc<nat, Mapping> {
    if |rows| == 0 then []
    else
      var (key, row) := rows[|rows| - 1];
      Put(AdminDefaults(rows[..|rows| - 1]), AbsInt(Some(key)), AdminMapping(row))
  }

  /** Reference definition: the last submitted row whose key denotes pid. */
  function LastAdminRow(rows: seq<(string, AdminRow)>, pid: nat): Option<Mapping> {
    if |rows| == 0 then None
    else if AbsInt(Some(rows[|rows| - 1].0)) == pid then Some(AdminMapping(rows[|rows| - 1].1))
    else LastAdminRow(rows[..|rows| - 1], pid)
  }

  /** `ajax_save_product_mappings`: in test mode nothing changes; otherwise
      the whole store is replaced by the submitted defaults, so every
      "<id>_dates" map is erased. */
  function AdminSaveAll(s: Store, rows: seq<(string, AdminRow)>, testMode: bool): (r: Store)
    ensures testMode ==> r == s
    ensures !testMode ==> r.dates == []
  {
    if testMode then s else Store(AdminDefaults(rows), [])
  }

  lemma {:induction false} AdminDefaultsLastWins(rows: seq<(string, AdminRow)>, pid: nat)
    ensures Get(AdminDefaults(rows), pid) == LastAdminRow(rows, pid)
  {
    if |rows| > 0 {
      var (key, row) := rows[|rows| - 1];
      AdminDefaultsLastWins(rows[..|rows| - 1], pid);
      PutGet(AdminDefaults(rows[..|rows| - 1]), AbsInt(Some(key)), AdminMapping(row), pid);
    }
  }

  /** After a live "save all", every lookup of a product, with any date and
      time, answers its submitted default (or the empty mapping). */
  lemma AdminSaveAllResolves(s: Store, rows: seq<(string, AdminRow)>, pid: nat, date: string, time: string)
    ensures GetProductMappings(AdminSaveAll(s, rows, false), pid, date, time)
            == LastAdminRow(rows, pid).GetOr(EmptyMapping)
  {
    AdminDefaultsLastWins(rows, pid);
  }

  // ----- get_all_date_time_specific_mappings -----

  /** One flattened mapping for the sync: booking date and time are absent
      for a product default. */
  datatype FlatMapping = FlatMapping(pid: nat, eventbriteId: string, date: Option<string>, time: Option<string>)

  function FlattenDefaults(d: Assoc<nat, Mapping>): (r: seq<FlatMapping>)
    ensures forall e :: e in r ==> e.date.None? && !Empty(e.eventbriteId)
  {
    if |d| == 0 then []
    else
      var rest := FlattenDefaults(d[1..]);
      if Empty(d[0].1.eventbriteId) then rest
      else [FlatMapping(d[0].0, d[0].1.eventbriteId, None, None)] + rest
  }

  /** A key splits at its first '_' into date and time; a key without '_'
      is a date alone. */
  function SplitKey(key: string): (r: (string, Option<string>))
    ensures '_' !in r.0
  {
    match SplitFirst(key, '_')
    case Some((date, time)) => (date, Some(time))
    case None => (key, None)
  }

  function FlattenOccurrences(pid: nat, occ: Occurrences): (r: seq<FlatMapping>)
    ensures forall e :: e in r ==> e.pid == pid && e.date.Some? && !Empty(e.eventbriteId)
  {
    if |occ| == 0 then []
    else
      var rest := FlattenOccurrences(pid, occ[1..]);
      if Empty(occ[0].1.eventbriteId) then rest
      else
        var (date, time) := SplitKey(occ[0].0);
        [FlatMapping(pid, occ[0].1.eventbriteId, Some(date), time)] + rest
  }

  function FlattenDates(d: Assoc<nat, Occurrences>): (r: seq<FlatMapping>)
    ensures forall e :: e in r ==> e.date.Some? && !Empty(e.eventbriteId)
  {
    if |d| == 0 then [] else FlattenOccurrences(d[0].0, d[0].1) + FlattenDates(d[1..])
  }

  /** `get_all_date_time_specific_mappings`: the defaults with an Eventbrite
      id first, then every occurrence with one, its key split back. */
  function AllDateTimeMappings(s: Store): (r: seq<FlatMapping>)
    ensures forall e :: e in r ==> !Empty(e.eventbriteId)
  {
    FlattenDefaults(s.defaults) + FlattenDates(s.dates)
  }

  /** Splitting inverts the key format of the savers whenever the date is
      free of '_'. */
  lemma SplitKeyOccurrenceKey(date: string, time: Option<string>)
    requires '_' !in date
    ensures SplitKey(OccurrenceKey(date, time))
            == (date, if time.Some? && !Empty(time.value) then time else None)
  {
    if time.Some? && !Empty(time.value) {
      SplitJoin(date, time.value, '_');
    } else {
      assert SplitFirst(date, '_').None?;
    }
  }

  /** Every occurrence with an Eventbrite id appears in the flattened list
      with its key split back. */
  lemma {:induction false} FlattenOccurrencesComplete(pid: nat, occ: Occurrences, i: nat)
    requires i < |occ| && !Empty(occ[i].1.eventbriteId)
    ensures var (date, time) := SplitKey(occ[i].0);
            FlatMapping(pid, occ[i].1.eventbriteId, Some(date), time) in FlattenOccurrences(pid, occ)
  {
    if i > 0 {
      assert occ[1..][i - 1] == occ[i];
      FlattenOccurrencesComplete(pid, occ[1..], i - 1);
    }
  }
}

=== FILE: matching.dfy ===
/** Ranking Eventbrite ticket classes as candidates for a product occurrence
    (`suggest_eventbrite_ids_for_product`): events resembling the product
    name are scored by name similarity, time match and date distance; every
    paid ticket class of a kept event is a candidate; the five most relevant
    are returned. */
module Matching {
  import opened Wrappers
  import opened Text
  import opened Calendar
  import opened Helpers
  import opened Events
  import opened Sorting

  /** Events below this similarity are skipped. */
  const MinSimilarity: int := 30

  /** How many candidates are returned. */
  const MaxSuggestions: nat := 5

  /** The day distance assumed when there is no target date. */
  const NoDateDistance: int := 1000

  datatype Candidate = Candidate(
    eventId: string, ticketId: string, eventDate: string, eventTime: string,
    nameSimilarity: int, relevance: int, exactDate: bool, closeTime: bool)

  /** The similarity used: 0 when either name is empty. */
  function NameSimilarity(e: Event, productName: string): int {
    if Empty(e.name) || Empty(productName) then 0 else e.similarity
  }

  /** The time check: true unless both a target time and an event time exist
      and are further apart than the buffer. */
  function TimeMatch(e: Event, time: string): (r: bool)
    ensures Empty(time) || e.start.None? ==> r
  {
    if !Empty(time) && e.start.Some? then IsTimeClose(time, StartTime(e.start.value), TimeBufferMinutes) else true
  }

  /** The date check: true unless both dates exist and differ. */
  function DateMatch(e: Event, target: Option<Date>): bool {
    if target.Some? && e.start.Some? then e.start.value.day == target.value else true
  }

  /** The absolute day distance, or 1000 when either date is missing. */
  function DateDiff(e: Event, target: Option<Date>): (r: int)
    ensures r >= 0
    ensures target.None? ==> r == NoDateDistance
  {
    if target.Some? && e.start.Some? then Abs(e.start.value.day - target.value) else NoDateDistance
  }

  /** Relevance: twice the similarity, plus 50 for a matching time when a
      target time is given, plus 25 for the exact date when a target date
      is given, minus the day distance. */
  function Relevance(e: Event, productName: string, time: string, target: Option<Date>): (r: int)
    ensures r <= 2 * NameSimilarity(e, productName) + 75
    ensures target.None? ==> r <= 2 * NameSimilarity(e, productName) + 50 - NoDateDistance
    ensures (target.Some? && e.start.Some? && e.start.value.day == target.value && !Empty(time)
             && TimeMatch(e, time)) ==> r == 2 * NameSimilarity(e, productName) + 75
  {
    2 * NameSimilarity(e, productName)
    + (if TimeMatch(e, time) && !Empty(time) then 50 else 0)
    + (if DateMatch(e, target) && target.Some? then 25 else 0)
    - DateDiff(e, target)
  }

  /** The candidate row shared by every ticket class of an event; the
      ticket id is filled in per class. */
  function EventRow(e: Event, productName: string, time: string, target: Option<Date>): (r: Candidate)
    ensures r.eventId == e.id && r.ticketId == ""
    ensures r.relevance == Relevance(e, productName, time, target)
    ensures r.nameSimilarity == NameSimilarity(e, productName)
    ensures r.exactDate <==> target.Some? && (e.start.Some? ==> e.start.value.day == target.value)
  {
    Candidate(e.id, "",
              if e.start.Some? then StartDate(e.start.value) else "",
              if e.start.Some? then StartTime(e.start.value) else "",
              NameSimilarity(e, productName), Relevance(e, productName, time, target),
              DateMatch(e, target) && target.Some?, TimeMatch(e, time) && !Empty(time))
  }

  /** One candidate per ticket class that is not free, in order. */
  function TicketRows(ts: seq<Ticket>, row: Candidate): (r: seq<Candidate>)
    ensures |r| == |PaidTickets(ts)|
    ensures forall i :: 0 <= i < |r| ==> r[i] == row.(ticketId := PaidTickets(ts)[i].id)
  {
    if |ts| == 0 then []
    else if ts[0].free then TicketRows(ts[1..], row)
    else [row.(ticketId := ts[0].id)] + TicketRows(ts[1..], row)
  }

  /** The candidates of one event: none below the similarity threshold or
      without ticket classes, otherwise one per paid ticket class. */
  function EventCandidates(e: Event, productName: string, time: string, target: Option<Date>): (r: seq<Candidate>)
    ensures NameSimilarity(e, productName) < MinSimilarity || e.tickets.None? ==> r == []
    ensures forall c :: c in r ==> c.nameSimilarity >= MinSimilarity
  {
    if NameSimilarity(e, productName) < MinSimilarity || e.tickets.None? then []
    else TicketRows(e.tickets.value, EventRow(e, productName, time, target))
  }

  /** The candidates of all events, event by event. */
  function AllCandidates(es: seq<Event>, productName: string, time: string, target: Option<Date>): (r: seq<Candidate>)
    ensures forall c :: c in r ==> c.nameSimilarity >= MinSimilarity
  {
    if |es| == 0 then []
    else EventCandidates(es[0], productName, time, target) + AllCandidates(es[1..], productName, time, target)
  }

  function RelevanceOf(c: Candidate): int {
    c.relevance
  }

  /** `suggest_eventbrite_ids_for_product`: no product or a failed event
      fetch gives no candidates; otherwise the candidates of all events,
      stably sorted by relevance, highest first, cut to five. */
  function Suggest(productName: Option<string>, time: string, target: Option<Date>, events: Result<seq<Event>>): (r: seq<Candidate>)
    ensures |r| <= MaxSuggestions
    ensures productName.None? || events.Failure? ==> r == []
    ensures forall c :: c in r ==> c.nameSimilarity >= MinSimilarity
    ensures productName.Some? && events.Success? ==>
              var all := AllCandidates(events.value, productName.value, time, target);
              && |r| == (if |all| <= MaxSuggestions then |all| else MaxSuggestions)
              && forall c :: c in r ==> c in all
  {
    if productName.None? || events.Failure? then []
    else
      var all := AllCandidates(events.value, productName.value, time, target);
      var sorted := SortDesc(all, RelevanceOf);
      assert forall c :: c in sorted ==> c in all by {
        forall c | c in sorted ensures c in all {
          SortDescMembers(all, RelevanceOf, c);
        }
      }
      var r := Top(sorted, MaxSuggestions);
      assert forall c :: c in r ==> c in sorted by {
        forall c | c in r ensures c in sorted {
          var i :| 0 <= i < |r| && r[i] == c;
          assert sorted[i] == c;
        }
      }
      r
  }

  /** Every paid ticket class of an event similar enough to the product is a
      candidate, carrying the event's relevance. */
  lemma {:induction false} PaidTicketIsCandidate(es: seq<Event>, productName: string, time: string, target: Option<Date>, k: nat, t: Ticket)
    requires k < |es| && es[k].tickets.Some? && t in es[k].tickets.value && !t.free
    requires NameSimilarity(es[k], productName) >= MinSimilarity
    ensures EventRow(es[k], productName, time, target).(ticketId := t.id) in AllCandidates(es, productName, time, target)
  {
    if k == 0 {
      var paid := PaidTickets(es[0].tickets.value);
      var i :| 0 <= i < |paid| && paid[i] == t;
      var r := EventCandidates(es[0], productName, time, target);
      assert r[i] == EventRow(es[0], productName, time, target).(ticketId := t.id);
    } else {
      PaidTicketIsCandidate(es[1..], productName, time, target, k - 1, t);
    }
  }

  /** The result is in non-increasing relevance and holds the most relevant
      candidates: it is drawn from the candidates, holds five of them (all
      when there are fewer), a candidate left out is no more relevant than
      every one returned, and with at most five candidates none is left
      out. */
  lemma SuggestTopFive(productName: string, time: string, target: Option<Date>, events: seq<Event>, c: Candidate)
    requires c in AllCandidates(events, productName, time, target)
    ensures var r := Suggest(Some(productName), time, target, Success(events));
            var all := AllCandidates(events, productName, time, target);
            SortedDesc(r, RelevanceOf)
            && (forall d :: d in r ==> d in all)
            && |r| == (if |all| <= MaxSuggestions then |all| else MaxSuggestions)
            && (c !in r ==> forall d :: d in r ==> d.relevance >= c.relevance)
            && (|all| <= MaxSuggestions ==> c in r)
  {
    var all := AllCandidates(events, productName, time, target);
    var sorted := SortDesc(all, RelevanceOf);
    SortDescSorted(all, RelevanceOf);
    SortDescMembers(all, RelevanceOf, c);
    TopKeepsLargest(sorted, RelevanceOf, MaxSuggestions, c);
    SuggestIsTop(productName, time, target, events);
  }

  /** The suggestions are the top five of the stably sorted candidates. */
  lemma SuggestIsTop(productName: string, time: string, target: Option<Date>, events: seq<Event>)
    ensures Suggest(Some(productName), time, target, Success(events))
              == Top(SortDesc(AllCandidates(events, productName, time, target), RelevanceOf), MaxSuggestions)
  {
  }

  /** With everything else equal, an event on the target date outranks the
      same event any other day. */
  lemma ExactDateOutranks(e: Event, productName: string, time: string, target: Date, other: Date)
    requires e.start.Some? && e.start.value.day == target && other != target
    ensures var moved := e.(start := Some(e.start.value.(day := other)));
            Relevance(e, productName, time, Some(target)) > Relevance(moved, productName, time, Some(target))
  {
    var moved := e.(start := Some(e.start.value.(day := other)));
    assert StartTime(moved.start.value) == StartTime(e.start.value);
  }
}

=== FILE: patterns.dfy ===
/** The plugin's regular-expression parsers of times and dates: the three
    show-time patterns tried on product titles, the lenient time
    normaliser and the numeric branches of the date normaliser. Matching
    follows PCRE: the leftmost start position wins, and at a position the
    alternatives are tried in backtracking order (greedy first). */
module Patterns {
  import opened Wrappers
  import opened Text
  import opened Calendar
  import opened Helpers

  /** The groups of a time match: the hour digits, the minute digits ("" when
      the group did not take part) and the lower-cased am/pm marker, None
      when the pattern has no such group or it did not take part. */
  datatype Captures = Captures(hour: string, minute: string, meridiem: Option<string>)

  predicate WellFormed(c: Captures) {
    1 <= |c.hour| <= 2 && AllDigits(c.hour)
    && (|c.minute| == 0 || |c.minute| == 2) && AllDigits(c.minute)
  }

  /** The time patterns. */
  datatype Pattern =
    | ShowTime   // one or two digits, optional space or colon, optional minute 00-59, spaces, am or pm
    | ClockTime  // one or two digits, a colon or dot, two digits
    | OClock     // one or two digits, spaces, "o", an optional apostrophe, "clock"
    | LooseTime  // one or two digits, optional colon or dot, optional two digits, spaces, optional am or pm (any case)

  /** One or two digits at i. */
  predicate DigitsAt(t: string, i: nat, n: nat)
    requires n == 1 || n == 2
  {
    i + n <= |t| && IsDigit(t[i]) && (n == 1 || IsDigit(t[i + 1]))
  }

  /** Length of the run of white space starting at p (`\s*`, greedy). */
  function SpaceRun(t: string, p: nat): (n: nat)
    requires p <= |t|
    ensures p + n <= |t|
    ensures forall k :: p <= k < p + n ==> IsSpace(t[k])
    ensures p + n < |t| ==> !IsSpace(t[p + n])
    decreases |t| - p
  {
    if p < |t| && IsSpace(t[p]) then 1 + SpaceRun(t, p + 1) else 0
  }

  /** White space then "am" or "pm" from p. Only the longest run of white
      space can be followed by a letter, so shorter runs tried on
      backtracking never match. */
  function MeridiemAt(t: string, p: nat): (r: Option<string>)
    requires p <= |t|
    ensures r.Some? ==> r.value == "am" || r.value == "pm"
  {
    var q := p + SpaceRun(t, p);
    if q + 2 <= |t| && (t[q..q + 2] == "am" || t[q..q + 2] == "pm") then Some(t[q..q + 2]) else None
  }

  /** A minute `[0-5][0-9]` at k. */
  predicate MinuteAt(t: string, k: nat) {
    k + 2 <= |t| && '0' <= t[k] <= '5' && IsDigit(t[k + 1])
  }

  /** ShowTime after its separator: the minute group is tried before skipping it. */
  function ShowTimeMinute(t: string, k: nat): Option<(string, Option<string>)>
    requires k <= |t|
  {
    if MinuteAt(t, k) && MeridiemAt(t, k + 2).Some? then Some((t[k..k + 2], MeridiemAt(t, k + 2)))
    else match MeridiemAt(t, k)
      case Some(a) => Some(("", Some(a)))
      case None => None
  }

  /** `o'?clock` at q, the apostrophe taken when present. */
  predicate OClockAt(t: string, q: nat) {
    q + 6 <= |t| && t[q] == 'o'
    && ((q + 7 <= |t| && t[q + 1] == '\'' && t[q + 2..q + 7] == "clock") || t[q + 1..q + 6] == "clock")
  }

  /** What a pattern matches after its hour group ending at j: the minute
      group and the marker, or None when it cannot continue there. */
  function Rest(p: Pattern, t: string, j: nat): (r: Option<(string, Option<string>)>)
    requires j <= |t|
    ensures r.Some? ==> (|r.value.0| == 0 || |r.value.0| == 2) && AllDigits(r.value.0)
    ensures p == ShowTime && r.Some? ==> r.value.1.Some?
    ensures p == ClockTime && r.Some? ==> |r.value.0| == 2 && r.value.1.None?
    ensures p == OClock && r.Some? ==> r.value == ("", None)
    ensures p == LooseTime ==> r.Some?
    ensures r.Some? && r.value.1.Some? ==> r.value.1.value == "am" || r.value.1.value == "pm"
  {
    match p
    case ShowTime =>
      var withSep := if j < |t| && (t[j] == ' ' || t[j] == ':') then ShowTimeMinute(t, j + 1) else None;
      if withSep.Some? then withSep else ShowTimeMinute(t, j)
    case ClockTime =>
      if j < |t| && (t[j] == ':' || t[j] == '.') && DigitsAt(t, j + 1, 2) then Some((t[j + 1..j + 3], None))
      else None
    case OClock =>
      if OClockAt(t, j + SpaceRun(t, j)) then Some(("", None)) else None
    case LooseTime =>
      var k := if j < |t| && (t[j] == ':' || t[j] == '.') then j + 1 else j;
      var minute := if DigitsAt(t, k, 2) then t[k..k + 2] else "";
      var e := k + |minute|;
      var q := e + SpaceRun(t, e);
      var mark := if q + 2 <= |t| then ToLower(t[q..q + 2]) else "";
      Some((minute, if mark == "am" || mark == "pm" then Some(mark) else None))
  }

  /** A match of p starting at i: two hour digits are tried before one. */
  function MatchAt(p: Pattern, t: string, i: nat): (r: Option<Captures>)
    ensures r.Some? ==> WellFormed(r.value) && i + |r.value.hour| <= |t| && t[i..i + |r.value.hour|] == r.value.hour
    ensures r.Some? && p == ShowTime ==> r.value.meridiem.Some?
    ensures r.Some? && p == ClockTime ==> |r.value.minute| == 2 && r.value.meridiem.None?
    ensures i < |t| && IsDigit(t[i]) && p == LooseTime ==> r.Some?
    ensures i >= |t| || !IsDigit(t[i]) ==> r.None?
  {
    if DigitsAt(t, i, 2) && Rest(p, t, i + 2).Some? then
      var (m, a) := Rest(p, t, i + 2).value;
      Some(Captures(t[i..i + 2], m, a))
    else if DigitsAt(t, i, 1) && Rest(p, t, i + 1).Some? then
      var (m, a) := Rest(p, t, i + 1).value;
      Some(Captures(t[i..i + 1], m, a))
    else None
  }

  /** `preg_match`: the leftmost position from i on where p matches. */
  function FindMatch(p: Pattern, t: string, i: nat): (r: Option<(nat, Captures)>)
    ensures r.Some? ==> i <= r.value.0 < |t| && MatchAt(p, t, r.value.0) == Some(r.value.1)
    ensures r.Some? ==> forall j :: i <= j < r.value.0 ==> MatchAt(p, t, j).None?
    ensures r.None? ==> forall j :: i <= j < |t| ==> MatchAt(p, t, j).None?
    decreases |t| - i
  {
    if i >= |t| then None
    else match MatchAt(p, t, i)
      case Some(c) => Some((i, c))
      case None => FindMatch(p, t, i + 1)
  }

  /** Skipping a stretch without digits does not change the leftmost match. */
  lemma {:induction false} FindMatchSkips(p: Pattern, t: string, i: nat, j: nat)
    requires i <= j <= |t|
    requires forall k :: i <= k < j ==> !IsDigit(t[k])
    ensures FindMatch(p, t, i) == FindMatch(p, t, j)
    decreases j - i
  {
    if i < j {
      assert !IsDigit(t[i]);
      assert MatchAt(p, t, i).None?;
      assert FindMatch(p, t, i) == FindMatch(p, t, i + 1);
      FindMatchSkips(p, t, i + 1, j);
    }
  }

  /** The hour after the am/pm adjustment: pm adds 12 below noon, 12am is 0. */
  function AdjustedHour(h: nat, meridiem: Option<string>): (r: nat)
    ensures meridiem == Some("pm") && h < 12 ==> r == h + 12
    ensures meridiem == Some("am") && h == 12 ==> r == 0
    ensures meridiem != Some("pm") && meridiem != Some("am") ==> r == h
    ensures h < 100 ==> r < 100
  {
    if meridiem == Some("pm") && h < 12 then h + 12
    else if meridiem == Some("am") && h == 12 then 0
    else h
  }

  /** `sprintf('%02d:%02d')` of a match: the hour digits read by `intval`
      and adjusted, the minute read when non-empty and 0 otherwise. The
      result is always a two-digit `HH:MM` and is never clamped to a day. */
  function CapturedTime(c: Captures): (r: string)
    requires WellFormed(c)
    ensures IsHi(r) && |r| == 5
    ensures exists h: nat, m: nat :: h < 100 && m < 100 && r == FormatHM(h, m)
  {
    DigitsValueBelow100(c.hour);
    DigitsValueBelow100(c.minute);
    var h := AdjustedHour(DigitsValue(c.hour), c.meridiem);
    var m := if Empty(c.minute) then 0 else DigitsValue(c.minute);
    var r := FormatHM(h, m);
    assert r[..|r| - 3] == Pad2(h) && r[|r| - 2..] == Pad2(m);
    r
  }

  /** The time a match denotes, spelled out: the hour digits read and
      adjusted for am/pm, the minute read when it was captured and 0
      otherwise; reading the result back gives that many minutes. */
  lemma CapturedTimeValue(c: Captures)
    requires WellFormed(c)
    ensures var h := AdjustedHour(DigitsValue(c.hour), c.meridiem);
            var m := if Empty(c.minute) then 0 else DigitsValue(c.minute);
            CapturedTime(c) == FormatHM(h, m) && TimeToMinutes(CapturedTime(c)) == h * 60 + m
  {
    var h := AdjustedHour(DigitsValue(c.hour), c.meridiem);
    var m := if Empty(c.minute) then 0 else DigitsValue(c.minute);
    TimeToMinutesFormatHM(h, m);
  }

  /** `extract_time_from_title`: the three title patterns tried in order on
      the lower-cased title, the first that matches anywhere deciding. */
  function ExtractTime(title: string): (r: Option<string>)
    ensures r.None? <==>
              (forall j :: 0 <= j < |title| ==> MatchAt(ShowTime, ToLower(title), j).None?)
              && (forall j :: 0 <= j < |title| ==> MatchAt(ClockTime, ToLower(title), j).None?)
              && (forall j :: 0 <= j < |title| ==> MatchAt(OClock, ToLower(title), j).None?)
    ensures r.Some? ==> IsHi(r.value)
  {
    match TitleCaptures(ToLower(title))
    case Some(c) => Some(CapturedTime(c))
    case None => None
  }

  /** The groups of the first of the three title patterns that matches. */
  function TitleCaptures(t: string): (r: Option<Captures>)
    ensures r.Some? ==> WellFormed(r.value)
    ensures r.None? <==>
              (forall j :: 0 <= j < |t| ==> MatchAt(ShowTime, t, j).None?)
              && (forall j :: 0 <= j < |t| ==> MatchAt(ClockTime, t, j).None?)
              && (forall j :: 0 <= j < |t| ==> MatchAt(OClock, t, j).None?)
  {
    match FindMatch(ShowTime, t, 0)
    case Some((_, c)) => Some(c)
    case None =>
      match FindMatch(ClockTime, t, 0)
      case Some((_, c)) => Some(c)
      case None =>
        match FindMatch(OClock, t, 0)
        case Some((_, c)) => Some(c)
        case None => None
  }

  /** The extracted time is that of the first pattern, in the order
      ShowTime, ClockTime, OClock, that matches anywhere in the lower-cased
      title, read from the groups of its leftmost match. */
  lemma ExtractTimeOfFirstMatch(title: string, p: Pattern, j: nat, c: Captures)
    requires p == ShowTime || p == ClockTime || p == OClock
    requires p != ShowTime ==> FindMatch(ShowTime, ToLower(title), 0).None?
    requires p == OClock ==> FindMatch(ClockTime, ToLower(title), 0).None?
    requires FindMatch(p, ToLower(title), 0) == Some((j, c))
    ensures WellFormed(c)
    ensures ExtractTime(title) ==
              Some(FormatHM(AdjustedHour(DigitsValue(c.hour), c.meridiem), if Empty(c.minute) then 0 else DigitsValue(c.minute)))
  {
    assert TitleCaptures(ToLower(title)) == Some(c);
    CapturedTimeValue(c);
  }

  /** Matching is on the lower-cased title; times are made of characters
      lower-casing leaves alone. */
  lemma ToLowerOfFormatHM(h: nat, m: nat)
    ensures ToLower(FormatHM(h, m)) == FormatHM(h, m)
  {
    var r := FormatHM(h, m);
    assert forall k :: 0 <= k < |r| ==> IsDigit(r[k]) || r[k] == ':' by {
      assert AllDigits(Pad2(h)) && AllDigits(Pad2(m));
    }
  }

  /** Without an 'a' or a 'p' the show-time pattern matches nowhere. */
  lemma ShowTimeNeedsMeridiemAt(t: string, i: nat)
    requires forall k :: 0 <= k < |t| ==> t[k] != 'a' && t[k] != 'p'
    ensures MatchAt(ShowTime, t, i).None?
  {
    forall q: nat | q <= |t| ensures MeridiemAt(t, q).None? {
      var e := q + SpaceRun(t, q);
      if e + 2 <= |t| {
        assert t[e..e + 2][0] == t[e];
      }
    }
  }

  lemma ShowTimeNeedsMeridiem(t: string)
    requires forall k :: 0 <= k < |t| ==> t[k] != 'a' && t[k] != 'p'
    ensures FindMatch(ShowTime, t, 0).None?
  {
    forall j | 0 <= j < |t| ensures MatchAt(ShowTime, t, j).None? {
      ShowTimeNeedsMeridiemAt(t, j);
    }
  }

  /** The clock pattern reads a formatted time at its start. */
  lemma ClockTimeOfFormatted(h: nat, m: nat)
    requires h < 100 && m < 100
    ensures MatchAt(ClockTime, FormatHM(h, m), 0) == Some(Captures(Pad2(h), Pad2(m), None))
  {
    var t := FormatHM(h, m);
    assert t[..2] == Pad2(h) && t[2] == ':' && t[3..5] == Pad2(m);
    assert Rest(ClockTime, t, 2) == Some((Pad2(m), None));
  }

  lemma CapturedTimeOfFormatted(h: nat, m: nat)
    requires h < 100 && m < 100
    ensures CapturedTime(Captures(Pad2(h), Pad2(m), None)) == FormatHM(h, m)
  {
  }

  /** A formatted time extracts to itself: ExtractTime is a projection
      onto `HH:MM` strings. */
  lemma ExtractTimeOfFormatted(h: nat, m: nat)
    requires h < 100 && m < 100
    ensures ExtractTime(FormatHM(h, m)) == Some(FormatHM(h, m))
  {
    var t := FormatHM(h, m);
    ToLowerOfFormatHM(h, m);
    assert forall k :: 0 <= k < |t| ==> t[k] != 'a' && t[k] != 'p' by {
      assert AllDigits(Pad2(h)) && AllDigits(Pad2(m));
    }
    ShowTimeNeedsMeridiem(t);
    ClockTimeOfFormatted(h, m);
    CapturedTimeOfFormatted(h, m);
  }

  /** Every extracted time extracts to itself again. */
  lemma ExtractTimeIdempotent(title: string)
    requires ExtractTime(title).Some?
    ensures ExtractTime(ExtractTime(title).value) == ExtractTime(title)
  {
    var c := TitleCaptures(ToLower(title)).value;
    var r := CapturedTime(c);
    var h: nat, m: nat :| h < 100 && m < 100 && r == FormatHM(h, m);
    ExtractTimeOfFormatted(h, m);
  }

  /** A one-digit hour directly followed by its marker. */
  lemma ShowTimeOneDigit(t: string, i: nat)
    requires i + 3 <= |t| && IsDigit(t[i]) && (t[i + 1..i + 3] == "am" || t[i + 1..i + 3] == "pm")
    ensures MatchAt(ShowTime, t, i) == Some(Captures(t[i..i + 1], "", Some(t[i + 1..i + 3])))
  {
    assert MeridiemAt(t, i + 1) == Some(t[i + 1..i + 3]);
  }

  /** The first digit of a string starts its leftmost match, if any. */
  lemma FirstDigitStartsMatch(p: Pattern, t: string, n: nat)
    requires n < |t| && MatchAt(p, t, n).Some?
    requires forall k :: 0 <= k < n ==> !IsDigit(t[k])
    ensures FindMatch(p, t, 0) == Some((n, MatchAt(p, t, n).value))
  {
    FindMatchSkips(p, t, 0, n);
  }

  lemma LowerEveningTitle(title: string)
    requires title == "Friday Improv 8pm"
    ensures ToLower(title) == "friday improv 8pm"
  {
  }

  lemma EveningTitleCaptures(t: string)
    requires t == "friday improv 8pm"
    ensures TitleCaptures(t) == Some(Captures("8", "", Some("pm")))
  {
    assert t[14..15] == "8" && t[15..17] == "pm";
    ShowTimeOneDigit(t, 14);
    assert forall k :: 0 <= k < 14 ==> !IsDigit(t[k]);
    FirstDigitStartsMatch(ShowTime, t, 14);
  }

  /** "8" with "pm" is 20:00. */
  lemma EveningCapturedTime()
    ensures CapturedTime(Captures("8", "", Some("pm"))) == "20:00"
  {
    assert CapturedTime(Captures("8", "", Some("pm"))) == FormatHM(20, 0);
    assert FormatHM(20, 0) == "20:00" by {
      assert Pad2(20) == "20" && Pad2(0) == "00";
    }
  }

  /** A title naming its show time with a meridiem: "8pm" is 20:00. */
  lemma ExtractTimeEvening(title: string)
    requires title == "Friday Improv 8pm"
    ensures ExtractTime(title) == Some("20:00")
  {
    LowerEveningTitle(title);
    EveningTitleCaptures(ToLower(title));
    EveningCapturedTime();
  }

  /** The result of a normaliser: nothing, a normalised string, or a value
      whose reading is left to PHP's `strtotime`. */
  datatype Normalised = Absent | Normal(value: string) | ViaStrtotime(input: string)

  /** `^\d{1,2}:\d{2}$`. PCRE's `$` (no D modifier) also matches just
      before a final line feed, which then stays in the value. */
  predicate HiAnchored(v: string) {
    IsHi(v) || (|v| > 0 && v[|v| - 1] == '\n' && IsHi(v[..|v| - 1]))
  }

  /** `parse_time_value` up to its `strtotime` fallback: empty input gives
      nothing, an `H:i` string is kept as it is, a string with a digit is
      read by the lenient time pattern, anything else goes to `strtotime`. */
  function ParseTimeValue(v: string): (r: Normalised)
    ensures r == Absent <==> Empty(v)
    ensures HiAnchored(v) ==> r == Normal(v)
    ensures r.Normal? ==> HiAnchored(r.value)
    ensures r.ViaStrtotime? <==> !Empty(v) && !HiAnchored(v) && forall k :: 0 <= k < |v| ==> !IsDigit(v[k])
    ensures !Empty(v) && !HiAnchored(v) && FindMatch(LooseTime, v, 0).Some? ==>
              r == Normal(CapturedTime(FindMatch(LooseTime, v, 0).value.1))
  {
    if Empty(v) then Absent
    else if HiAnchored(v) then Normal(v)
    else match FindMatch(LooseTime, v, 0)
      case Some((_, c)) => Normal(CapturedTime(c))
      case None =>
        assert forall k :: 0 <= k < |v| ==> !IsDigit(v[k]) by {
          forall k | 0 <= k < |v| ensures !IsDigit(v[k]) {
            assert MatchAt(LooseTime, v, k).None?;
          }
        }
        ViaStrtotime(v)
  }

  /** The lenient pattern's reading, spelled out: the first run of digits
      gives the hour, an optional `:` or `.` with two digits the minute (0
      when absent), and a following am or pm in any case adjusts the hour. */
  lemma ParseTimeValueLenient(v: string, j: nat, c: Captures)
    requires !Empty(v) && !HiAnchored(v) && FindMatch(LooseTime, v, 0) == Some((j, c))
    ensures WellFormed(c)
    ensures var h := AdjustedHour(DigitsValue(c.hour), c.meridiem);
            var m := if Empty(c.minute) then 0 else DigitsValue(c.minute);
            ParseTimeValue(v) == Normal(FormatHM(h, m)) && TimeToMinutes(ParseTimeValue(v).value) == h * 60 + m
  {
    CapturedTimeValue(c);
  }

  /** An `H:i` value followed by a line feed passes the anchored check and
      is returned with its line feed. */
  lemma ParseTimeValueKeepsLineFeed(v: string)
    requires v == "8:30\n"
    ensures ParseTimeValue(v) == Normal(v)
  {
    var t := v[..|v| - 1];
    assert t[..|t| - 3] == "8" && t[|t| - 3] == ':' && t[|t| - 2..] == "30";
    assert IsHi(t);
    assert HiAnchored(v);
  }

  /** A normalised time normalises to itself. */
  lemma ParseTimeValueIdempotent(v: string)
    requires ParseTimeValue(v).Normal?
    ensures ParseTimeValue(ParseTimeValue(v).value) == ParseTimeValue(v)
  {
  }

  lemma LooseTimeMeridiem(v: string)
    requires v == "8:30 PM"
    ensures MatchAt(LooseTime, v, 0) == Some(Captures("8", "30", Some("pm")))
  {
    assert v[2..4] == "30" && DigitsAt(v, 2, 2);
    assert SpaceRun(v, 4) == 1 by {
      assert SpaceRun(v, 5) == 0;
    }
    assert ToLower(v[5..7]) == "pm" by {
      assert v[5..7] == "PM";
      assert LowerChar('P') == 'p' && LowerChar('M') == 'm';
    }
    assert Rest(LooseTime, v, 1) == Some(("30", Some("pm")));
    assert v[0..1] == "8";
  }

  lemma HalfPastEight()
    ensures CapturedTime(Captures("8", "30", Some("pm"))) == "20:30"
  {
    var c := Captures("8", "30", Some("pm"));
    assert DigitsValue("8") == 8 by {
      assert "8"[..0] == "";
    }
    assert DigitsValue("30") == 30 by {
      assert "30"[..1] == "3" && "3"[..0] == "";
    }
    assert AdjustedHour(8, Some("pm")) == 20;
    assert CapturedTime(c) == FormatHM(20, 30);
    TwoDigits(20);
    TwoDigits(30);
  }

  lemma TwoDigits(n: nat)
    requires 10 <= n < 100
    ensures Pad2(n) == [DigitChar(n / 10), DigitChar(n % 10)]
  {
    assert NatToString(n / 10) == [DigitChar(n / 10)];
  }

  /** "8:30 PM" reads as 20:30: the same am/pm adjustment as for titles. */
  lemma ParseTimeValueMeridiem(v: string)
    requires v == "8:30 PM"
    ensures ParseTimeValue(v) == Normal("20:30")
  {
    assert !IsHi(v);
    LooseTimeMeridiem(v);
    HalfPastEight();
  }

  /** Ten characters `\d{4}-\d{2}-\d{2}`. */
  predicate IsIsoShape(v: string) {
    |v| == 10 && AllDigits(v[..4]) && v[4] == '-' && AllDigits(v[5..7]) && v[7] == '-' && AllDigits(v[8..])
  }

  /** `^\d{4}-\d{2}-\d{2}$`, whose `$` also matches before a final line feed. */
  predicate IsoAnchored(v: string) {
    IsIsoShape(v) || (|v| > 0 && v[|v| - 1] == '\n' && IsIsoShape(v[..|v| - 1]))
  }

  /** The three parts of a numeric date with separator sep: one or two
      digits, one or two digits, two to four digits, and nothing else. */
  function Parts(v: string, sep: char): (r: Option<(string, string, string)>)
    ensures r.Some? ==> v == r.value.0 + [sep] + r.value.1 + [sep] + r.value.2
    ensures r.Some? ==> (1 <= |r.value.0| <= 2 && 1 <= |r.value.1| <= 2 && 2 <= |r.value.2| <= 4
                         && AllDigits(r.value.0) && AllDigits(r.value.1) && AllDigits(r.value.2))
  {
    var first := SplitFirst(v, sep);
    if first.None? then None
    else
      var (a, rest) := first.value;
      var second := SplitFirst(rest, sep);
      if second.None? then None
      else
        var (b, c) := second.value;
        if 1 <= |a| <= 2 && 1 <= |b| <= 2 && 2 <= |c| <= 4 && AllDigits(a) && AllDigits(b) && AllDigits(c) then
          JoinThree(v, a, rest, b, c, sep);
          Some((a, b, c))
        else None
  }

  lemma JoinThree(v: string, a: string, rest: string, b: string, c: string, sep: char)
    requires v == a + [sep] + rest && rest == b + [sep] + c
    ensures v == a + [sep] + b + [sep] + c
  {
  }

  /** The parts of a joined numeric date are the parts it was joined from. */
  lemma PartsOfJoined(a: string, b: string, c: string, sep: char)
    requires !IsDigit(sep)
    requires 1 <= |a| <= 2 && 1 <= |b| <= 2 && 2 <= |c| <= 4 && AllDigits(a) && AllDigits(b) && AllDigits(c)
    ensures Parts(a + [sep] + b + [sep] + c, sep) == Some((a, b, c))
  {
    assert sep !in a && sep !in b;
    SplitJoin(a, b + [sep] + c, sep);
    assert a + [sep] + b + [sep] + c == a + [sep] + (b + [sep] + c);
    SplitJoin(b, c, sep);
  }

  /** A two-digit year is taken as 20xx. */
  function FullYear(c: string): (y: string)
    ensures |c| == 2 ==> y == "20" + c
    ensures |c| != 2 ==> y == c
  {
    if |c| == 2 then "20" + c else c
  }

  /** Whether `strtotime` of "y-m-d" rendered back by `date('Y-m-d')`
      gives the same string: a four-digit year, two-digit month and day,
      naming a day of the Gregorian calendar (PHP rolls an out-of-range day
      over into the next month, which changes the string). */
  predicate RoundTrips(y: string, m: string, d: string) {
    |y| == 4 && |m| == 2 && |d| == 2 && AllDigits(y) && AllDigits(m) && AllDigits(d)
    && ValidDate(DigitsValue(y), DigitsValue(m), DigitsValue(d))
  }

  function IsoOf(y: string, m: string, d: string): (r: string)
    requires RoundTrips(y, m, d)
    ensures IsIsoShape(r)
  {
    var r := y + "-" + m + "-" + d;
    assert r[..4] == y && r[5..7] == m && r[8..] == d;
    r
  }

  predicate IsLetter(ch: char) {
    'a' <= ch <= 'z' || 'A' <= ch <= 'Z'
  }

  /** The guards of the `strtotime` branches: a letter, a dash, a slash, a
      dot, or four digits in a row. */
  predicate LooksLikeDate(v: string) {
    (exists k :: 0 <= k < |v| && IsLetter(v[k]))
    || '-' in v || '/' in v || '.' in v
    || exists k :: 0 <= k < |v| && FourDigitsAt(v, k)
  }

  predicate FourDigitsAt(v: string, k: int) {
    0 <= k && k + 4 <= |v| && AllDigits(v[k..k + 4])
  }

  /** `parse_date_value` on a string, up to its `strtotime` branches: an
      ISO date is kept as it is; empty input gives nothing; a slash date is
      read month first, then day first, and a dotted date day first, each
      reading accepted only when it round-trips; what is left goes to
      `strtotime` when it looks like a date. A slash or dotted date with a
      final line feed passes its anchored pattern, but the line feed then
      sits inside the year and the round-trip comparison fails, so it
      reaches `strtotime` here as it does in the plugin. */
  function ParseDateValue(v: string): (r: Normalised)
    ensures IsoAnchored(v) ==> r == Normal(v)
    ensures r.Normal? ==> IsoAnchored(r.value)
    ensures Empty(v) ==> r == Absent
    ensures r.ViaStrtotime? ==> r.input == v && LooksLikeDate(v)
  {
    if IsoAnchored(v) then Normal(v)
    else if Empty(v) then Absent
    else
      var slash := match Parts(v, '/')
        case None => None
        case Some((a, b, c)) =>
          var y := FullYear(c);
          if RoundTrips(y, a, b) then Some(IsoOf(y, a, b))
          else if RoundTrips(y, b, a) then Some(IsoOf(y, b, a))
          else None;
      var dotted := match Parts(v, '.')
        case None => None
        case Some((a, b, c)) =>
          var y := FullYear(c);
          if RoundTrips(y, b, a) then Some(IsoOf(y, b, a)) else None;
      if slash.Some? then Normal(slash.value)
      else if dotted.Some? then Normal(dotted.value)
      else if LooksLikeDate(v) then ViaStrtotime(v)
      else Absent
  }

  /** A normalised date normalises to itself. */
  lemma ParseDateValueIdempotent(v: string)
    requires ParseDateValue(v).Normal?
    ensures ParseDateValue(ParseDateValue(v).value) == ParseDateValue(v)
  {
  }

  /** The slash branch of the parser once the parts are known. */
  lemma SlashBranch(v: string, a: string, b: string, c: string)
    requires !IsoAnchored(v) && !Empty(v) && Parts(v, '/') == Some((a, b, c))
    ensures RoundTrips(FullYear(c), a, b) ==> ParseDateValue(v) == Normal(IsoOf(FullYear(c), a, b))
    ensures !RoundTrips(FullYear(c), a, b) && RoundTrips(FullYear(c), b, a) ==> ParseDateValue(v) == Normal(IsoOf(FullYear(c), b, a))
  {
  }

  /** A slash date that reads both ways is read month first. */
  lemma SlashDateMonthFirst(a: string, b: string, c: string)
    requires RoundTrips(FullYear(c), a, b) && 2 <= |c| <= 4 && AllDigits(c)
    ensures ParseDateValue(a + "/" + b + "/" + c) == Normal(FullYear(c) + "-" + a + "-" + b)
  {
    var v := a + "/" + b + "/" + c;
    PartsOfJoined(a, b, c, '/');
    assert v == a + ['/'] + b + ['/'] + c;
    NumericSlashDateShape(a, b, c);
    SlashBranch(v, a, b, c);
  }

  /** A slash date whose month-first reading fails is read day first. */
  lemma SlashDateDayFirst(a: string, b: string, c: string)
    requires !RoundTrips(FullYear(c), a, b) && RoundTrips(FullYear(c), b, a) && 2 <= |c| <= 4 && AllDigits(c)
    ensures ParseDateValue(a + "/" + b + "/" + c) == Normal(FullYear(c) + "-" + b + "-" + a)
  {
    var v := a + "/" + b + "/" + c;
    PartsOfJoined(a, b, c, '/');
    assert v == a + ['/'] + b + ['/'] + c;
    NumericSlashDateShape(a, b, c);
    SlashBranch(v, a, b, c);
  }

  /** A one-digit month or day never round-trips, so such a slash date is
      left to `strtotime`. */
  lemma SlashDateSingleDigit(a: string, b: string, c: string)
    requires 1 <= |a| <= 2 && 1 <= |b| <= 2 && 2 <= |c| <= 4 && AllDigits(a) && AllDigits(b) && AllDigits(c)
    requires |a| == 1 || |b| == 1
    ensures ParseDateValue(a + "/" + b + "/" + c) == ViaStrtotime(a + "/" + b + "/" + c)
  {
    var v := a + "/" + b + "/" + c;
    PartsOfJoined(a, b, c, '/');
    assert v == a + ['/'] + b + ['/'] + c;
    NumericSlashDateShape(a, b, c);
  }

  /** A numeric slash date is not ISO-shaped, has no dot and has a slash. */
  lemma NumericSlashDateShape(a: string, b: string, c: string)
    requires 1 <= |a| <= 2 && 1 <= |b| <= 2 && |c| > 0 && AllDigits(a) && AllDigits(b) && AllDigits(c)
    ensures var v := a + "/" + b + "/" + c;
      !IsoAnchored(v) && Parts(v, '.').None? && LooksLikeDate(v)
  {
    var v := a + "/" + b + "/" + c;
    assert v[|v| - 1] == c[|c| - 1];
    assert v[|a|] == '/';
    assert !IsIsoShape(v) by {
      assert |v| == 10 ==> v[4] != '-';
    }
    assert '.' !in v by {
      assert forall k :: 0 <= k < |v| ==> IsDigit(v[k]) || v[k] == '/';
    }
  }

  /** The dotted branch of the parser once the parts are known and no
      slash reading applies. */
  lemma DottedBranch(v: string, a: string, b: string, c: string)
    requires !IsoAnchored(v) && !Empty(v) && Parts(v, '/').None? && Parts(v, '.') == Some((a, b, c))
    ensures RoundTrips(FullYear(c), b, a) ==> ParseDateValue(v) == Normal(IsoOf(FullYear(c), b, a))
    ensures !RoundTrips(FullYear(c), b, a) ==> ParseDateValue(v) == ViaStrtotime(v)
  {
    assert v[|a|] == '.';
  }

  /** A dotted date is read day first when that reading round-trips and is
      otherwise left to `strtotime`. */
  lemma DottedDateDayFirst(a: string, b: string, c: string)
    requires 1 <= |a| <= 2 && 1 <= |b| <= 2 && 2 <= |c| <= 4 && AllDigits(a) && AllDigits(b) && AllDigits(c)
    ensures RoundTrips(FullYear(c), b, a) ==> ParseDateValue(a + "." + b + "." + c) == Normal(FullYear(c) + "-" + b + "-" + a)
    ensures !RoundTrips(FullYear(c), b, a) ==> ParseDateValue(a + "." + b + "." + c) == ViaStrtotime(a + "." + b + "." + c)
  {
    var v := a + "." + b + "." + c;
    PartsOfJoined(a, b, c, '.');
    assert v == a + ['.'] + b + ['.'] + c;
    NumericDottedDateShape(a, b, c);
    DottedBranch(v, a, b, c);
  }

  /** A numeric dotted date is not ISO-shaped and has no slash. */
  lemma NumericDottedDateShape(a: string, b: string, c: string)
    requires 1 <= |a| <= 2 && 1 <= |b| <= 2 && |c| > 0 && AllDigits(a) && AllDigits(b) && AllDigits(c)
    ensures var v := a + "." + b + "." + c;
      !IsoAnchored(v) && Parts(v, '/').None? && !Empty(v)
  {
    var v := a + "." + b + "." + c;
    assert v[|v| - 1] == c[|c| - 1];
    assert v[|a|] == '.';
    assert !IsIsoShape(v) by {
      assert |v| == 10 ==> v[4] != '-';
    }
    assert '/' !in v by {
      assert forall k :: 0 <= k < |v| ==> IsDigit(v[k]) || v[k] == '.';
    }
  }
}

=== FILE: reconcile.dfy ===
/** The Eventbrite reconciliation decisions: the capacity decrement after a
    WooCommerce sale (`update_eventbrite_ticket_with_date`) and the pull of
    Eventbrite availability into local stock (`sync_eventbrite_tickets`).
    Remote reads are a function from ticket id to a reply; remote and local
    writes are returned as values. */
module Reconcile {
  import opened Wrappers
  import opened Text
  import opened Helpers
  import opened Mappings
  import opened Slots

  /** The parts of a ticket class reply the decisions read. A missing
      `capacity_is_custom` reads as false. */
  datatype TicketInfo = TicketInfo(capacityIsCustom: bool, capacity: int, eventCapacity: int, sold: Option<int>)

  type Fetch = string -> Result<TicketInfo>

  /** The ticket's own capacity when custom, else the event's. */
  function Capacity(t: TicketInfo): int {
    if t.capacityIsCustom then t.capacity else t.eventCapacity
  }

  /** `quantity_sold`, 0 when missing. */
  function Sold(t: TicketInfo): int {
    t.sold.GetOr(0)
  }

  /** Capacity after selling qty locally, never below what is already sold. */
  function NewCapacity(t: TicketInfo, qty: int): (r: int)
    ensures r >= Sold(t) && r >= Capacity(t) - qty
    ensures r == Sold(t) || r == Capacity(t) - qty
  {
    var c := Capacity(t) - qty;
    if c < Sold(t) then Sold(t) else c
  }

  /** The mapped ticket id: the time-specific mapping, retried without the
      time when its Eventbrite id is empty and a time was given. */
  function TicketFor(s: Store, pid: nat, date: string, time: string): (r: string)
    ensures !Empty(GetProductMappings(s, pid, date, time).eventbriteId) ==>
              r == GetProductMappings(s, pid, date, time).eventbriteId
    ensures Empty(GetProductMappings(s, pid, date, time).eventbriteId) && !Empty(time) ==>
              r == GetProductMappings(s, pid, date, "").eventbriteId
  {
    var m := GetProductMappings(s, pid, date, time);
    if Empty(m.eventbriteId) && !Empty(time) then GetProductMappings(s, pid, date, "").eventbriteId
    else m.eventbriteId
  }

  datatype TicketOutcome =
    | NoMapping
    | WouldUpdate(ticketId: string)
    | FetchFailed(ticketId: string)
    | SetCapacity(ticketId: string, capacity: int)

  /** `update_eventbrite_ticket_with_date` after the booking time is known:
      nothing without a mapped ticket; in test mode only a log entry,
      before any remote call; otherwise the new capacity to write. */
  function UpdateTicket(s: Store, pid: nat, qty: int, date: string, time: string, testMode: bool, fetch: Fetch): (r: TicketOutcome)
    ensures r.NoMapping? <==> Empty(TicketFor(s, pid, date, time))
    ensures testMode && !Empty(TicketFor(s, pid, date, time)) ==> r == WouldUpdate(TicketFor(s, pid, date, time))
    ensures r.SetCapacity? ==> (!testMode && r.ticketId == TicketFor(s, pid, date, time)
              && fetch(r.ticketId).Success? && r.capacity == NewCapacity(fetch(r.ticketId).value, qty))
    ensures r.FetchFailed? <==> !testMode && !Empty(TicketFor(s, pid, date, time)) && fetch(TicketFor(s, pid, date, time)).Failure?
  {
    var id := TicketFor(s, pid, date, time);
    if Empty(id) then NoMapping
    else if testMode then WouldUpdate(id)
    else match fetch(id)
      case Failure(_) => FetchFailed(id)
      case Success(t) => SetCapacity(id, NewCapacity(t, qty))
  }

  /** In test mode the outcome does not depend on the remote reply: no
      remote call is made. */
  lemma TestModeMakesNoCall(s: Store, pid: nat, qty: int, date: string, time: string, f1: Fetch, f2: Fetch)
    ensures UpdateTicket(s, pid, qty, date, time, true, f1) == UpdateTicket(s, pid, qty, date, time, true, f2)
  {
  }

  /** A sale never pushes capacity below what is sold, and a sale that fits
      lowers capacity by exactly its quantity. */
  lemma CapacityClamped(t: TicketInfo, qty: int)
    ensures NewCapacity(t, qty) >= Sold(t)
    ensures Capacity(t) - qty >= Sold(t) ==> NewCapacity(t, qty) == Capacity(t) - qty
    ensures Capacity(t) - qty < Sold(t) ==> NewCapacity(t, qty) == Sold(t)
  {
  }

  // ---- Sync ----

  /** What the sync reads and writes for one product: its slot metas, and
      the stock fields used for undated mappings. */
  datatype Stock = Stock(metas: SlotMetas, manageStock: bool, quantity: Option<int>)

  /** The products that exist; a missing product is skipped. */
  type Shop = map<nat, Stock>

  function Available(t: TicketInfo): int {
    Capacity(t) - Sold(t)
  }

  /** One iteration of the sync loop. */
  function SyncStep(w: Shop, m: FlatMapping, testMode: bool, fetch: Fetch): (r: Shop)
    ensures r.Keys == w.Keys
    ensures forall p :: p in w && p != m.pid ==> r[p] == w[p]
    ensures testMode ==> r == w
  {
    if Empty(m.eventbriteId) || m.pid !in w || fetch(m.eventbriteId).Failure? then w
    else
      var p := w[m.pid];
      var available := Available(fetch(m.eventbriteId).value);
      if m.date.Some? && !Empty(m.date.value) then
        var time := m.time.GetOr("");
        if Lookup(p.metas, m.date.value, time) == Some(available) || testMode then w
        else match Update(p.metas, m.date.value, time, available)
          case Some(ms) => w[m.pid := p.(metas := ms)]
          case None => w
      else if p.manageStock && p.quantity != Some(available) && !testMode then
        w[m.pid := p.(quantity := Some(available))]
      else w
  }

  /** `sync_eventbrite_tickets`: every flattened mapping in order. */
  function Sync(w: Shop, ms: seq<FlatMapping>, testMode: bool, fetch: Fetch): (r: Shop)
    ensures r.Keys == w.Keys
    ensures forall p :: p in w && (forall i :: 0 <= i < |ms| ==> ms[i].pid != p) ==> r[p] == w[p]
  {
    if |ms| == 0 then w
    else
      var r := Sync(SyncStep(w, ms[0], testMode, fetch), ms[1..], testMode, fetch);
      assert forall i :: 0 <= i < |ms[1..]| ==> ms[1..][i] == ms[i + 1];
      r
  }

  /** The sync over the whole mapping store: the products are kept, a
      product no mapping names is untouched, and test mode writes nothing. */
  function SyncAll(s: Store, w: Shop, testMode: bool, fetch: Fetch): (r: Shop)
    ensures r.Keys == w.Keys
    ensures forall p :: p in w && (forall i :: 0 <= i < |AllDateTimeMappings(s)| ==> AllDateTimeMappings(s)[i].pid != p) ==> r[p] == w[p]
    ensures testMode ==> r == w
  {
    SyncTestModeWritesNothing(w, AllDateTimeMappings(s), fetch);
    Sync(w, AllDateTimeMappings(s), testMode, fetch)
  }

  /** In test mode the sync writes nothing. */
  lemma {:induction false} SyncTestModeWritesNothing(w: Shop, ms: seq<FlatMapping>, fetch: Fetch)
    ensures Sync(w, ms, true, fetch) == w
  {
    if |ms| > 0 {
      SyncTestModeWritesNothing(w, ms[1..], fetch);
    }
  }

  /** A dated mapping whose local stock already equals the Eventbrite
      availability causes no write. */
  lemma DatedWriteOnlyOnMismatch(w: Shop, m: FlatMapping, testMode: bool, fetch: Fetch)
    requires m.pid in w && m.date.Some? && !Empty(m.date.value) && fetch(m.eventbriteId).Success?
    requires Lookup(w[m.pid].metas, m.date.value, m.time.GetOr("")) == Some(Available(fetch(m.eventbriteId).value))
    ensures SyncStep(w, m, testMode, fetch) == w
  {
  }

  /** After a live step for a dated mapping, the slot reader either finds
      the Eventbrite availability or found nothing before and nothing was
      written. */
  lemma DatedStepResult(w: Shop, m: FlatMapping, fetch: Fetch)
    requires !Empty(m.eventbriteId) && m.pid in w && m.date.Some? && !Empty(m.date.value) && fetch(m.eventbriteId).Success?
    ensures var r := SyncStep(w, m, false, fetch);
            var date, time := m.date.value, m.time.GetOr("");
            Lookup(r[m.pid].metas, date, time) == Some(Available(fetch(m.eventbriteId).value))
            || (Lookup(w[m.pid].metas, date, time).None? && r == w)
  {
    var p := w[m.pid];
    UpdateRoundTrip(p.metas, m.date.value, m.time.GetOr(""), Available(fetch(m.eventbriteId).value));
  }

  /** An undated mapping sets the product stock to the availability exactly
      when the product manages stock; otherwise nothing changes. */
  lemma UndatedStepResult(w: Shop, m: FlatMapping, fetch: Fetch)
    requires !Empty(m.eventbriteId) && m.pid in w && (m.date.None? || Empty(m.date.value)) && fetch(m.eventbriteId).Success?
    ensures var r := SyncStep(w, m, false, fetch);
            (w[m.pid].manageStock ==> r[m.pid] == w[m.pid].(quantity := Some(Available(fetch(m.eventbriteId).value))))
            && (!w[m.pid].manageStock ==> r == w)
  {
  }
}

=== FILE: reports.dfy ===
/** Date-range reports over the sales ledger and the product summary:
    `get_total_sales`, `get_summary_by_period`, `get_product_summary` and
    the admin dashboard's `prepare_chart_data`. Every range is a
    `DatePeriod` from the start day to the end day inclusive (the end is
    the start when omitted); each day is looked up by its `Y-m-d` string. */
module Reports {
  import opened Wrappers
  import opened Text
  import opened Assoc
  import opened Calendar
  import opened Ledger

  /** The days reported: start through end, inclusive. */
  function RangeDays(start: Date, end: Option<Date>): (r: seq<Date>)
    ensures |r| == if end.GetOr(start) >= start then end.GetOr(start) - start + 1 else 0
    ensures forall i :: 0 <= i < |r| ==> r[i] == start + i
  {
    DayRange(start, end.GetOr(start) + 1)
  }

  function DayOf(l: Sales, d: Date): DayMap {
    Get(l, Ymd(d)).GetOr([])
  }

  /** Totals with the per-channel breakdown. */
  datatype Sums = Sums(total: int, woocommerce: int, eventbrite: int, square: int)

  const Zero := Sums(0, 0, 0, 0)

  function Plus(a: Sums, b: Sums): Sums {
    Sums(a.total + b.total, a.woocommerce + b.woocommerce, a.eventbrite + b.eventbrite, a.square + b.square)
  }

  lemma PlusAssoc(a: Sums, b: Sums, c: Sums)
    ensures Plus(Plus(a, b), c) == Plus(a, Plus(b, c))
  {
  }

  predicate SumsBalanced(s: Sums) {
    s.total == s.woocommerce + s.eventbrite + s.square
  }

  /** What one entry adds: each field read as 0 when unset. */
  function EntrySums(e: Entry): (r: Sums)
    ensures Balanced(e) <==> SumsBalanced(r)
  {
    Sums(Qty(e.quantity), Qty(e.woocommerce), Qty(e.eventbrite), Qty(e.square))
  }

  /** Entry-by-entry accumulation of a day into running sums. */
  function AddDay(acc: Sums, day: DayMap): Sums
    decreases |day|
  {
    if |day| == 0 then acc else AddDay(Plus(acc, EntrySums(day[0].1)), day[1..])
  }

  /** A day's own sums. */
  function DaySums(day: DayMap): Sums {
    AddDay(Zero, day)
  }

  /** Accumulating a day adds exactly the day's own sums. */
  lemma {:induction false} AddDayIsPlus(acc: Sums, day: DayMap)
    ensures AddDay(acc, day) == Plus(acc, DaySums(day))
    decreases |day|
  {
    if |day| > 0 {
      AddDayIsPlus(Plus(acc, EntrySums(day[0].1)), day[1..]);
      AddDayIsPlus(EntrySums(day[0].1), day[1..]);
      assert Plus(Zero, EntrySums(day[0].1)) == EntrySums(day[0].1);
    }
  }

  /** Balanced entries give balanced running sums. */
  lemma {:induction false} AddDayBalanced(acc: Sums, day: DayMap)
    requires SumsBalanced(acc)
    requires forall p :: p in day ==> Balanced(p.1)
    ensures SumsBalanced(AddDay(acc, day))
    decreases |day|
  {
    if |day| > 0 {
      assert day[0] in day;
      assert forall p :: p in day[1..] ==> p in day;
      AddDayBalanced(Plus(acc, EntrySums(day[0].1)), day[1..]);
    }
  }

  // ---- get_summary_by_period ----

  /** A day of the period, reported under its `Y-m-d` string `Ymd(day)`. */
  datatype DaySummary = DaySummary(day: Date, sums: Sums, products: DayMap)

  datatype PeriodSummary = PeriodSummary(overall: Sums, days: seq<DaySummary>)

  /** A day's summary: its date, its sums and its ledger map. */
  function DayEntry(l: Sales, d: Date): DaySummary {
    var day := DayOf(l, d);
    DaySummary(d, DaySums(day), day)
  }

  /** One summary per day, in order. The days of a range have distinct
      dates, so each is a new key, appended. */
  function DayList(l: Sales, days: seq<Date>): (r: seq<DaySummary>)
    ensures |r| == |days|
  {
    seq(|days|, i requires 0 <= i < |days| => DayEntry(l, days[i]))
  }

  /** The overall sums, accumulated day by day in the same pass. */
  function Overall(l: Sales, days: seq<Date>, acc: Sums): Sums
    decreases |days|
  {
    if |days| == 0 then acc else Overall(l, days[1..], AddDay(acc, DayOf(l, days[0])))
  }

  /** `get_summary_by_period`. */
  function SummaryByPeriod(l: Sales, start: Date, end: Option<Date>): (r: PeriodSummary)
    ensures |r.days| == |RangeDays(start, end)|
  {
    var days := RangeDays(start, end);
    PeriodSummary(Overall(l, days, Zero), DayList(l, days))
  }

  /** Day i of the summary is the range's i-th day, carrying that day's
      ledger map and the sums of its entries. */
  lemma SummaryDay(l: Sales, start: Date, end: Option<Date>, i: nat)
    requires i < |SummaryByPeriod(l, start, end).days|
    ensures var s := SummaryByPeriod(l, start, end).days[i];
            s.day == start + i && s.products == DayOf(l, s.day) && s.sums == DaySums(s.products)
  {
    var days := RangeDays(start, end);
    assert SummaryByPeriod(l, start, end).days == DayList(l, days);
    DayListAt(l, days, i);
  }

  lemma DayListAt(l: Sales, days: seq<Date>, i: nat)
    requires i < |days|
    ensures DayList(l, days)[i] == DayEntry(l, days[i])
  {
  }

  function SumDays(ds: seq<DaySummary>): Sums {
    if |ds| == 0 then Zero else Plus(ds[0].sums, SumDays(ds[1..]))
  }

  /** The sums of the range's days, one day after another. */
  function SumRange(l: Sales, days: seq<Date>): Sums {
    if |days| == 0 then Zero else Plus(DaySums(DayOf(l, days[0])), SumRange(l, days[1..]))
  }

  lemma {:induction false} OverallIsPlus(l: Sales, days: seq<Date>, acc: Sums)
    ensures Overall(l, days, acc) == Plus(acc, SumRange(l, days))
    decreases |days|
  {
    if |days| > 0 {
      var day := DayOf(l, days[0]);
      var acc' := AddDay(acc, day);
      assert Overall(l, days, acc) == Overall(l, days[1..], acc');
      OverallIsPlus(l, days[1..], acc');
      AddDayIsPlus(acc, day);
      assert SumRange(l, days) == Plus(DaySums(day), SumRange(l, days[1..]));
      PlusAssoc(acc, DaySums(day), SumRange(l, days[1..]));
    }
  }

  lemma {:induction false} DayListSum(l: Sales, days: seq<Date>)
    ensures SumDays(DayList(l, days)) == SumRange(l, days)
  {
    if |days| > 0 {
      assert DayList(l, days)[1..] == DayList(l, days[1..]);
      DayListSum(l, days[1..]);
    }
  }

  /** The overall sums equal the sum of the per-day sums. */
  lemma SummaryOverallIsSumOfDays(l: Sales, start: Date, end: Option<Date>)
    ensures SummaryByPeriod(l, start, end).overall == SumDays(SummaryByPeriod(l, start, end).days)
    ensures SummaryByPeriod(l, start, end).overall == SumRange(l, RangeDays(start, end))
  {
    var days := RangeDays(start, end);
    OverallIsPlus(l, days, Zero);
    DayListSum(l, days);
  }

  /** With every ledger entry balanced, every day's total is the sum of its
      channels. */
  lemma SummaryDaysBalanced(l: Sales, start: Date, end: Option<Date>, i: nat)
    requires SalesBalanced(l)
    requires i < |SummaryByPeriod(l, start, end).days|
    ensures SumsBalanced(SummaryByPeriod(l, start, end).days[i].sums)
  {
    SummaryDay(l, start, end, i);
    var s := SummaryByPeriod(l, start, end).days[i];
    DayOfBalanced(l, s.day);
    AddDayBalanced(Zero, s.products);
  }

  lemma DayOfBalanced(l: Sales, d: Date)
    requires SalesBalanced(l)
    ensures forall p :: p in DayOf(l, d) ==> Balanced(p.1)
  {
    var k := Ymd(d);
    if Get(l, k).Some? {
      assert (k, DayOf(l, d)) in l;
    }
  }

  // ---- get_total_sales ----

  /** A product-and-booking-date total over the range. */
  datatype Total = Total(productId: string, bookingDate: Option<string>, sums: Sums)

  /** The product id stored in the entry, else its ledger key. */
  function TotalProduct(key: string, e: Entry): string {
    if e.productId.Some? then NatToString(e.productId.value) else key
  }

  function TotalKey(key: string, e: Entry): string {
    if HasBookingDate(e.bookingDate) then TotalProduct(key, e) + "_" + e.bookingDate.value else TotalProduct(key, e)
  }

  function AddTotal(acc: Assoc<string, Total>, key: string, e: Entry): Assoc<string, Total> {
    var k := TotalKey(key, e);
    var t := Get(acc, k).GetOr(Total(TotalProduct(key, e), e.bookingDate, Zero));
    Put(acc, k, t.(sums := Plus(t.sums, EntrySums(e))))
  }

  function AddDayTotals(acc: Assoc<string, Total>, day: DayMap): Assoc<string, Total>
    decreases |day|
  {
    if |day| == 0 then acc else AddDayTotals(AddTotal(acc, day[0].0, day[0].1), day[1..])
  }

  function RangeTotals(l: Sales, days: seq<Date>, acc: Assoc<string, Total>): Assoc<string, Total>
    decreases |days|
  {
    if |days| == 0 then acc else RangeTotals(l, days[1..], AddDayTotals(acc, DayOf(l, days[0])))
  }


  function SumTotals(a: Assoc<string, Total>): Sums {
    if |a| == 0 then Zero else Plus(a[0].1.sums, SumTotals(a[1..]))
  }

  lemma {:induction false} AddTotalSum(acc: Assoc<string, Total>, k: string, t: Total, s: Sums)
    requires Get(acc, k).Some? ==> t == Get(acc, k).value.(sums := Plus(Get(acc, k).value.sums, s))
    requires Get(acc, k).None? ==> t.sums == s
    ensures SumTotals(Put(acc, k, t)) == Plus(SumTotals(acc), s)
  {
    if |acc| > 0 && acc[0].0 != k {
      var r := Put(acc, k, t);
      assert r[1..] == Put(acc[1..], k, t);
      AddTotalSum(acc[1..], k, t, s);
    } else if |acc| > 0 {
      var r := Put(acc, k, t);
      assert r[1..] == acc[1..];
    }
  }

  lemma {:induction false} AddDayTotalsSum(acc: Assoc<string, Total>, day: DayMap)
    ensures SumTotals(AddDayTotals(acc, day)) == AddDay(SumTotals(acc), day)
    decreases |day|
  {
    if |day| > 0 {
      var key, e := day[0].0, day[0].1;
      var k := TotalKey(key, e);
      var t := Get(acc, k).GetOr(Total(TotalProduct(key, e), e.bookingDate, Zero));
      AddTotalSum(acc, k, t.(sums := Plus(t.sums, EntrySums(e))), EntrySums(e));
      AddDayTotalsSum(AddTotal(acc, key, e), day[1..]);
    }
  }

  lemma {:induction false} RangeTotalsSum(l: Sales, days: seq<Date>, acc: Assoc<string, Total>)
    ensures SumTotals(RangeTotals(l, days, acc)) == Plus(SumTotals(acc), SumRange(l, days))
    decreases |days|
  {
    if |days| > 0 {
      var day := DayOf(l, days[0]);
      var acc' := AddDayTotals(acc, day);
      assert RangeTotals(l, days, acc) == RangeTotals(l, days[1..], acc');
      RangeTotalsSum(l, days[1..], acc');
      AddDayTotalsSum(acc, day);
      AddDayIsPlus(SumTotals(acc), day);
      assert SumRange(l, days) == Plus(DaySums(day), SumRange(l, days[1..]));
      PlusAssoc(SumTotals(acc), DaySums(day), SumRange(l, days[1..]));
    } else {
      var z := SumTotals(acc);
      assert Plus(z, Zero) == z;
    }
  }

  /** `get_total_sales`: per product and booking date over the range; the
      totals together add up to the range's day sums. */
  function TotalSales(l: Sales, start: Date, end: Option<Date>): (r: Assoc<string, Total>)
    ensures SumTotals(r) == SumRange(l, RangeDays(start, end))
  {
    RangeTotalsSum(l, RangeDays(start, end), []);
    RangeTotals(l, RangeDays(start, end), [])
  }

  /** The totals neither lose nor double-count a sale: together they add up
      to the range's day sums. */
  lemma TotalSalesConserves(l: Sales, start: Date, end: Option<Date>)
    ensures SumTotals(TotalSales(l, start, end)) == SumRange(l, RangeDays(start, end))
  {
    RangeTotalsSum(l, RangeDays(start, end), []);
  }

  /** The period summary and the totals agree on the range's overall sums. */
  lemma TotalsAgreeWithSummary(l: Sales, start: Date, end: Option<Date>)
    ensures SumTotals(TotalSales(l, start, end)) == SummaryByPeriod(l, start, end).overall
  {
    TotalSalesConserves(l, start, end);
    SummaryOverallIsSumOfDays(l, start, end);
  }

  /** The keys a day's entries are filed under. */
  function DayKeys(day: DayMap): set<string> {
    if |day| == 0 then {} else {TotalKey(day[0].0, day[0].1)} + DayKeys(day[1..])
  }

  /** The keys the range's entries are filed under. */
  function RangeKeys(l: Sales, days: seq<Date>): set<string> {
    if |days| == 0 then {} else DayKeys(DayOf(l, days[0])) + RangeKeys(l, days[1..])
  }

  /** The sums of a day's entries filed under key k. */
  function DayKeySums(day: DayMap, k: string): Sums {
    if |day| == 0 then Zero
    else Plus(if TotalKey(day[0].0, day[0].1) == k then EntrySums(day[0].1) else Zero, DayKeySums(day[1..], k))
  }

  /** The sums of the range's entries filed under key k. */
  function KeySums(l: Sales, days: seq<Date>, k: string): Sums {
    if |days| == 0 then Zero else Plus(DayKeySums(DayOf(l, days[0]), k), KeySums(l, days[1..], k))
  }

  /** The sums held under key k, zero when k is absent. */
  function SumsAt(acc: Assoc<string, Total>, k: string): Sums {
    if Get(acc, k).Some? then Get(acc, k).value.sums else Zero
  }

  /** A key is a day key exactly when some entry of the day is filed under it. */
  lemma {:induction false} DayKeysMember(day: DayMap, k: string)
    ensures k in DayKeys(day) <==> exists i :: 0 <= i < |day| && TotalKey(day[i].0, day[i].1) == k
  {
    if |day| > 0 {
      var rest := day[1..];
      DayKeysMember(rest, k);
      if k in DayKeys(rest) {
        var i :| 0 <= i < |rest| && TotalKey(rest[i].0, rest[i].1) == k;
        assert day[i + 1] == rest[i];
      }
      if exists i :: 0 <= i < |day| && TotalKey(day[i].0, day[i].1) == k {
        var i :| 0 <= i < |day| && TotalKey(day[i].0, day[i].1) == k;
        if i > 0 {
          assert rest[i - 1] == day[i];
        }
      }
    }
  }

  lemma AddDayTotalsCons(acc: Assoc<string, Total>, day: DayMap)
    requires |day| > 0
    ensures AddDayTotals(acc, day) == AddDayTotals(AddTotal(acc, day[0].0, day[0].1), day[1..])
  {
  }

  lemma DayKeySumsCons(day: DayMap, k: string)
    requires |day| > 0
    ensures DayKeySums(day, k) == Plus(if TotalKey(day[0].0, day[0].1) == k then EntrySums(day[0].1) else Zero, DayKeySums(day[1..], k))
  {
  }

  lemma RangeTotalsCons(l: Sales, days: seq<Date>, acc: Assoc<string, Total>)
    requires |days| > 0
    ensures RangeTotals(l, days, acc) == RangeTotals(l, days[1..], AddDayTotals(acc, DayOf(l, days[0])))
  {
  }

  lemma KeySumsCons(l: Sales, days: seq<Date>, k: string)
    requires |days| > 0
    ensures KeySums(l, days, k) == Plus(DayKeySums(DayOf(l, days[0]), k), KeySums(l, days[1..], k))
  {
  }

  lemma PlusZero(a: Sums)
    ensures Plus(a, Zero) == a && Plus(Zero, a) == a
  {
  }

  /** One entry files its sums under its own key and leaves every other key. */
  lemma AddTotalAt(acc: Assoc<string, Total>, key: string, e: Entry, k: string)
    ensures SumsAt(AddTotal(acc, key, e), k) == Plus(SumsAt(acc, k), if TotalKey(key, e) == k then EntrySums(e) else Zero)
  {
    var tk := TotalKey(key, e);
    var t := Get(acc, tk).GetOr(Total(TotalProduct(key, e), e.bookingDate, Zero));
    PutGet(acc, tk, t.(sums := Plus(t.sums, EntrySums(e))), k);
  }

  /** One entry adds its own key. */
  lemma AddTotalKeys(acc: Assoc<string, Total>, key: string, e: Entry)
    ensures KeySet(AddTotal(acc, key, e)) == KeySet(acc) + {TotalKey(key, e)}
  {
    var tk := TotalKey(key, e);
    var t := Get(acc, tk).GetOr(Total(TotalProduct(key, e), e.bookingDate, Zero));
    var v := t.(sums := Plus(t.sums, EntrySums(e)));
    AddTotalIsPut(acc, key, e, v);
    PutKeys(acc, tk, v);
  }

  lemma AddTotalIsPut(acc: Assoc<string, Total>, key: string, e: Entry, v: Total)
    requires var t := Get(acc, TotalKey(key, e)).GetOr(Total(TotalProduct(key, e), e.bookingDate, Zero));
             v == t.(sums := Plus(t.sums, EntrySums(e)))
    ensures AddTotal(acc, key, e) == Put(acc, TotalKey(key, e), v)
  {
  }

  lemma {:induction false} AddDayTotalsKeys(acc: Assoc<string, Total>, day: DayMap)
    ensures KeySet(AddDayTotals(acc, day)) == KeySet(acc) + DayKeys(day)
    decreases |day|
  {
    if |day| > 0 {
      var key, e := day[0].0, day[0].1;
      var acc' := AddTotal(acc, key, e);
      AddDayTotalsCons(acc, day);
      AddTotalKeys(acc, key, e);
      AddDayTotalsKeys(acc', day[1..]);
      UnionStep(KeySet(acc), KeySet(acc'), TotalKey(key, e), DayKeys(day[1..]));
    }
  }

  lemma UnionStep(a: set<string>, a': set<string>, t: string, rest: set<string>)
    requires a' == a + {t}
    ensures a' + rest == a + ({t} + rest)
  {
  }

  lemma UnionRegroup(a: set<string>, a': set<string>, b: set<string>, rest: set<string>)
    requires a' == a + b
    ensures a' + rest == a + (b + rest)
  {
  }

  lemma {:induction false} AddDayTotalsSums(acc: Assoc<string, Total>, day: DayMap, k: string)
    ensures SumsAt(AddDayTotals(acc, day), k) == Plus(SumsAt(acc, k), DayKeySums(day, k))
    decreases |day|
  {
    if |day| > 0 {
      var key, e := day[0].0, day[0].1;
      var acc' := AddTotal(acc, key, e);
      var x := if TotalKey(key, e) == k then EntrySums(e) else Zero;
      AddDayTotalsCons(acc, day);
      AddTotalAt(acc, key, e, k);
      AddDayTotalsSums(acc', day[1..], k);
      DayKeySumsCons(day, k);
      PlusAssoc(SumsAt(acc, k), x, DayKeySums(day[1..], k));
    } else {
      PlusZero(SumsAt(acc, k));
    }
  }

  lemma {:induction false} RangeTotalsKeys(l: Sales, days: seq<Date>, acc: Assoc<string, Total>)
    ensures KeySet(RangeTotals(l, days, acc)) == KeySet(acc) + RangeKeys(l, days)
    decreases |days|
  {
    if |days| > 0 {
      var day := DayOf(l, days[0]);
      var acc' := AddDayTotals(acc, day);
      RangeTotalsCons(l, days, acc);
      AddDayTotalsKeys(acc, day);
      RangeTotalsKeys(l, days[1..], acc');
      UnionRegroup(KeySet(acc), KeySet(acc'), DayKeys(day), RangeKeys(l, days[1..]));
    }
  }

  lemma {:induction false} RangeTotalsSums(l: Sales, days: seq<Date>, acc: Assoc<string, Total>, k: string)
    ensures SumsAt(RangeTotals(l, days, acc), k) == Plus(SumsAt(acc, k), KeySums(l, days, k))
    decreases |days|
  {
    if |days| > 0 {
      var day := DayOf(l, days[0]);
      var acc' := AddDayTotals(acc, day);
      RangeTotalsCons(l, days, acc);
      AddDayTotalsSums(acc, day, k);
      RangeTotalsSums(l, days[1..], acc', k);
      KeySumsCons(l, days, k);
      PlusAssoc(SumsAt(acc, k), DayKeySums(day, k), KeySums(l, days[1..], k));
    } else {
      PlusZero(SumsAt(acc, k));
    }
  }

  /** The totals hold exactly the keys the range's entries are filed
      under, and each key holds exactly the sums of its entries. */
  lemma TotalSalesByKey(l: Sales, start: Date, end: Option<Date>, k: string)
    ensures KeySet(TotalSales(l, start, end)) == RangeKeys(l, RangeDays(start, end))
    ensures Get(TotalSales(l, start, end), k).Some? ==>
              Get(TotalSales(l, start, end), k).value.sums == KeySums(l, RangeDays(start, end), k)
  {
    var days := RangeDays(start, end);
    TotalSalesIsRangeTotals(l, start, end);
    RangeTotalsKeys(l, days, []);
    RangeTotalsSums(l, days, [], k);
    PlusZero(KeySums(l, days, k));
    EmptyKeySet(RangeKeys(l, days));
  }

  lemma TotalSalesIsRangeTotals(l: Sales, start: Date, end: Option<Date>)
    ensures TotalSales(l, start, end) == RangeTotals(l, RangeDays(start, end), [])
  {
  }

  lemma EmptyKeySet(b: set<string>)
    ensures KeySet<string, Total>([]) + b == b
  {
    assert KeySet<string, Total>([]) == {};
  }

  // ---- get_product_summary ----

  /** Merge one day's product entry into the range result. */
  function MergeProduct(acc: Assoc<nat, ProductDay>, pid: nat, pd: ProductDay): Assoc<nat, ProductDay> {
    var prev := Get(acc, pid).GetOr(NoProductDay);
    var dates := if |pd.dates| == 0 then prev.dates else MergeDates(prev.dates, pd.dates);
    Put(acc, pid, ProductDay(prev.total + pd.total, dates))
  }

  /** Add each booking date's count into the accumulated counts. */
  function MergeDates(acc: Assoc<string, int>, ds: Assoc<string, int>): Assoc<string, int>
    decreases |ds|
  {
    if |ds| == 0 then acc
    else MergeDates(Put(acc, ds[0].0, Get(acc, ds[0].0).GetOr(0) + ds[0].1), ds[1..])
  }

  function MergeDay(acc: Assoc<nat, ProductDay>, day: Assoc<nat, ProductDay>): Assoc<nat, ProductDay>
    decreases |day|
  {
    if |day| == 0 then acc else MergeDay(MergeProduct(acc, day[0].0, day[0].1), day[1..])
  }

  function MergeRange(s: Summary, days: seq<Date>, acc: Assoc<nat, ProductDay>): Assoc<nat, ProductDay>
    decreases |days|
  {
    if |days| == 0 then acc else MergeRange(s, days[1..], MergeDay(acc, Get(s, Ymd(days[0])).GetOr([])))
  }


  function TotalOf(a: Assoc<nat, ProductDay>, pid: nat): int {
    Get(a, pid).GetOr(NoProductDay).total
  }

  /** A product's total in one day's summary (over every entry under its id). */
  function DayTotal(day: Assoc<nat, ProductDay>, pid: nat): int {
    if |day| == 0 then 0 else (if day[0].0 == pid then day[0].1.total else 0) + DayTotal(day[1..], pid)
  }

  function RangeTotal(s: Summary, days: seq<Date>, pid: nat): int {
    if |days| == 0 then 0 else DayTotal(Get(s, Ymd(days[0])).GetOr([]), pid) + RangeTotal(s, days[1..], pid)
  }

  lemma MergeProductTotal(acc: Assoc<nat, ProductDay>, k: nat, pd: ProductDay, pid: nat)
    ensures TotalOf(MergeProduct(acc, k, pd), pid) == TotalOf(acc, pid) + (if k == pid then pd.total else 0)
  {
    var prev := Get(acc, k).GetOr(NoProductDay);
    var dates := if |pd.dates| == 0 then prev.dates else MergeDates(prev.dates, pd.dates);
    MergeProductIsPut(acc, k, pd);
    PutTotal(acc, k, ProductDay(prev.total + pd.total, dates), pid);
  }

  lemma PutTotal(acc: Assoc<nat, ProductDay>, k: nat, np: ProductDay, pid: nat)
    ensures TotalOf(Put(acc, k, np), pid) == if k == pid then np.total else TotalOf(acc, pid)
  {
    PutGet(acc, k, np, pid);
  }

  lemma MergeProductIsPut(acc: Assoc<nat, ProductDay>, k: nat, pd: ProductDay)
    ensures var prev := Get(acc, k).GetOr(NoProductDay);
            MergeProduct(acc, k, pd)
              == Put(acc, k, ProductDay(prev.total + pd.total, if |pd.dates| == 0 then prev.dates else MergeDates(prev.dates, pd.dates)))
  {
  }

  lemma {:induction false} MergeDayTotal(acc: Assoc<nat, ProductDay>, day: Assoc<nat, ProductDay>, pid: nat)
    ensures TotalOf(MergeDay(acc, day), pid) == TotalOf(acc, pid) + DayTotal(day, pid)
    decreases |day|
  {
    if |day| > 0 {
      MergeProductTotal(acc, day[0].0, day[0].1, pid);
      MergeDayTotal(MergeProduct(acc, day[0].0, day[0].1), day[1..], pid);
    }
  }

  lemma {:induction false} MergeRangeTotal(s: Summary, days: seq<Date>, acc: Assoc<nat, ProductDay>, pid: nat)
    ensures TotalOf(MergeRange(s, days, acc), pid) == TotalOf(acc, pid) + RangeTotal(s, days, pid)
    decreases |days|
  {
    if |days| > 0 {
      var day := Get(s, Ymd(days[0])).GetOr([]);
      MergeDayTotal(acc, day, pid);
      MergeRangeTotal(s, days[1..], MergeDay(acc, day), pid);
    }
  }

  /** `get_product_summary`: per product over the range; each product's
      total is the sum of its daily totals over the range's days. */
  function ProductSummary(s: Summary, start: Date, end: Option<Date>): (r: Assoc<nat, ProductDay>)
    ensures forall pid :: TotalOf(r, pid) == RangeTotal(s, RangeDays(start, end), pid)
  {
    var r := MergeRange(s, RangeDays(start, end), []);
    assert forall pid :: TotalOf(r, pid) == RangeTotal(s, RangeDays(start, end), pid) by {
      forall pid {
        MergeRangeTotal(s, RangeDays(start, end), [], pid);
      }
    }
    r
  }

  /** A product's range total is the sum of its daily totals over the
      range's days. */
  lemma ProductSummaryTotal(s: Summary, start: Date, end: Option<Date>, pid: nat)
    ensures TotalOf(ProductSummary(s, start, end), pid) == RangeTotal(s, RangeDays(start, end), pid)
  {
    MergeRangeTotal(s, RangeDays(start, end), [], pid);
  }

  /** The count a booking-date map holds under bd, over every pair. */
  function DateSum(ds: Assoc<string, int>, bd: string): int {
    if |ds| == 0 then 0 else (if ds[0].0 == bd then ds[0].1 else 0) + DateSum(ds[1..], bd)
  }

  /** A product's count for booking date bd, 0 when either is absent. */
  function DateCountOf(a: Assoc<nat, ProductDay>, pid: nat, bd: string): int {
    Get(Get(a, pid).GetOr(NoProductDay).dates, bd).GetOr(0)
  }

  /** A product's count for bd in one day's summary (over every entry under its id). */
  function DayDateTotal(day: Assoc<nat, ProductDay>, pid: nat, bd: string): int {
    if |day| == 0 then 0
    else (if day[0].0 == pid then DateSum(day[0].1.dates, bd) else 0) + DayDateTotal(day[1..], pid, bd)
  }

  function RangeDateTotal(s: Summary, days: seq<Date>, pid: nat, bd: string): int {
    if |days| == 0 then 0
    else DayDateTotal(Get(s, Ymd(days[0])).GetOr([]), pid, bd) + RangeDateTotal(s, days[1..], pid, bd)
  }

  lemma {:induction false} MergeDatesAt(acc: Assoc<string, int>, ds: Assoc<string, int>, bd: string)
    ensures Get(MergeDates(acc, ds), bd).GetOr(0) == Get(acc, bd).GetOr(0) + DateSum(ds, bd)
    decreases |ds|
  {
    if |ds| > 0 {
      var acc' := Put(acc, ds[0].0, Get(acc, ds[0].0).GetOr(0) + ds[0].1);
      MergeDatesAt(acc', ds[1..], bd);
      MergeDatesStep(acc, ds, bd);
    }
  }

  /** One merged pair, given the claim for the rest. */
  lemma MergeDatesStep(acc: Assoc<string, int>, ds: Assoc<string, int>, bd: string)
    requires |ds| > 0
    requires var acc' := Put(acc, ds[0].0, Get(acc, ds[0].0).GetOr(0) + ds[0].1);
             Get(MergeDates(acc', ds[1..]), bd).GetOr(0) == Get(acc', bd).GetOr(0) + DateSum(ds[1..], bd)
    ensures Get(MergeDates(acc, ds), bd).GetOr(0) == Get(acc, bd).GetOr(0) + DateSum(ds, bd)
  {
    var v := Get(acc, ds[0].0).GetOr(0) + ds[0].1;
    MergeDatesCons(acc, ds);
    PutGet(acc, ds[0].0, v, bd);
    DateSumCons(ds, bd);
  }

  lemma MergeDatesCons(acc: Assoc<string, int>, ds: Assoc<string, int>)
    requires |ds| > 0
    ensures MergeDates(acc, ds) == MergeDates(Put(acc, ds[0].0, Get(acc, ds[0].0).GetOr(0) + ds[0].1), ds[1..])
  {
  }

  lemma DateSumCons(ds: Assoc<string, int>, bd: string)
    requires |ds| > 0
    ensures DateSum(ds, bd) == (if ds[0].0 == bd then ds[0].1 else 0) + DateSum(ds[1..], bd)
  {
  }

  lemma MergeProductDate(acc: Assoc<nat, ProductDay>, k: nat, pd: ProductDay, pid: nat, bd: string)
    ensures DateCountOf(MergeProduct(acc, k, pd), pid, bd)
              == DateCountOf(acc, pid, bd) + (if k == pid then DateSum(pd.dates, bd) else 0)
  {
    var prev := Get(acc, k).GetOr(NoProductDay);
    var dates := if |pd.dates| == 0 then prev.dates else MergeDates(prev.dates, pd.dates);
    MergeProductIsPut(acc, k, pd);
    PutDateCount(acc, k, ProductDay(prev.total + pd.total, dates), pid, bd);
    MergedDatesCount(prev.dates, pd.dates, bd);
  }

  lemma PutDateCount(acc: Assoc<nat, ProductDay>, k: nat, np: ProductDay, pid: nat, bd: string)
    ensures DateCountOf(Put(acc, k, np), pid, bd) == if k == pid then Get(np.dates, bd).GetOr(0) else DateCountOf(acc, pid, bd)
  {
    PutGet(acc, k, np, pid);
  }

  /** The merged booking-date map of one product entry. */
  lemma MergedDatesCount(prev: Assoc<string, int>, ds: Assoc<string, int>, bd: string)
    ensures Get(if |ds| == 0 then prev else MergeDates(prev, ds), bd).GetOr(0) == Get(prev, bd).GetOr(0) + DateSum(ds, bd)
  {
    if |ds| > 0 {
      MergeDatesAt(prev, ds, bd);
    }
  }

  lemma {:induction false} MergeDayDate(acc: Assoc<nat, ProductDay>, day: Assoc<nat, ProductDay>, pid: nat, bd: string)
    ensures DateCountOf(MergeDay(acc, day), pid, bd) == DateCountOf(acc, pid, bd) + DayDateTotal(day, pid, bd)
    decreases |day|
  {
    if |day| > 0 {
      MergeProductDate(acc, day[0].0, day[0].1, pid, bd);
      MergeDayDate(MergeProduct(acc, day[0].0, day[0].1), day[1..], pid, bd);
    }
  }

  lemma {:induction false} MergeRangeDate(s: Summary, days: seq<Date>, acc: Assoc<nat, ProductDay>, pid: nat, bd: string)
    ensures DateCountOf(MergeRange(s, days, acc), pid, bd) == DateCountOf(acc, pid, bd) + RangeDateTotal(s, days, pid, bd)
    decreases |days|
  {
    if |days| > 0 {
      var day := Get(s, Ymd(days[0])).GetOr([]);
      MergeDayDate(acc, day, pid, bd);
      MergeRangeDate(s, days[1..], MergeDay(acc, day), pid, bd);
    }
  }

  /** A product's count for a booking date over the range is the sum of
      its daily counts for that date over the range's days. */
  lemma ProductSummaryDates(s: Summary, start: Date, end: Option<Date>, pid: nat, bd: string)
    ensures DateCountOf(ProductSummary(s, start, end), pid, bd) == RangeDateTotal(s, RangeDays(start, end), pid, bd)
  {
    MergeRangeDate(s, RangeDays(start, end), [], pid, bd);
  }

  // ---- prepare_chart_data ----

  const MonthAbbrev: seq<string> :=
    ["Jan", "Feb", "Mar", "Apr", "May", "Jun", "Jul", "Aug", "Sep", "Oct", "Nov", "Dec"]

  /** `date('M j')`: month abbreviation and day without padding. */
  function ChartLabel(d: Date): string {
    var (_, m, day) := Civil(d);
    MonthAbbrev[m - 1] + " " + NatToString(day)
  }

  /** One day of the dashboard chart; Square is not charted. */
  datatype ChartPoint = ChartPoint(day: Date, total: int, woocommerce: int, eventbrite: int)

  /** The point's label on the chart's axis. */
  function Label(p: ChartPoint): string {
    ChartLabel(p.day)
  }

  /** A day's point: its label and the day's figures. */
  function Point(l: Sales, d: Date): ChartPoint {
    var s := DaySums(DayOf(l, d));
    ChartPoint(d, s.total, s.woocommerce, s.eventbrite)
  }

  function ChartDays(l: Sales, days: seq<Date>): (r: seq<ChartPoint>)
    ensures |r| == |days|
  {
    seq(|days|, i requires 0 <= i < |days| => Point(l, days[i]))
  }

  /** `prepare_chart_data`: one labelled point per day of [start, end]. */
  function ChartData(l: Sales, start: Date, end: Date): (r: seq<ChartPoint>)
    ensures |r| == if end >= start then end - start + 1 else 0
  {
    ChartDays(l, RangeDays(start, Some(end)))
  }

  /** The chart and the period summary report the same day figures, and
      each point is labelled with its own day. */
  lemma ChartAgreesWithSummary(l: Sales, start: Date, end: Date, i: nat)
    requires i < |ChartData(l, start, end)|
    ensures var c := ChartData(l, start, end)[i];
            var s := SummaryByPeriod(l, start, Some(end)).days[i];
            c.day == s.day == start + i && c.total == s.sums.total
            && c.woocommerce == s.sums.woocommerce && c.eventbrite == s.sums.eventbrite
  {
    var days := RangeDays(start, Some(end));
    ChartPointAt(l, days, i);
    assert SummaryByPeriod(l, start, Some(end)).days == DayList(l, days);
    DayListAt(l, days, i);
  }

  lemma ChartPointAt(l: Sales, days: seq<Date>, i: nat)
    requires i < |days|
    ensures ChartDays(l, days)[i] == Point(l, days[i])
  {
  }
}

=== FILE: slots.dfy ===
/** The slot-map part of the Eventbrite integration's date/time inventory
    reader and writer (`get_date_time_specific_inventory` and
    `update_date_time_specific_inventory`). A product keeps slot arrays
    under six meta keys; each is read in two formats: "keyed" entries
    stored under "<date>_<time>" or "<date>", and "listed" entries carrying
    their own date and time. The two formats disagree on which stock field
    wins. */
module Slots {
  import opened Wrappers
  import opened Text
  import opened Assoc
  import opened Helpers

  /** One slot array element. A value that is not an array behaves exactly
      like an entry with every field unset. */
  datatype SlotEntry = SlotEntry(
    inventory: Option<int>, stock: Option<int>, quantity: Option<int>,
    date: Option<string>, time: Option<string>)

  type SlotMap = Assoc<string, SlotEntry>

  /** The meta keys tried, in order; a product's metas are listed in this
      order, `None` for a meta that is absent or not an array. */
  const MetaKeys: seq<string> :=
    ["_booking_slots", "_product_booking_slots", "_wc_slots", "_event_slots", "_bookings", "_event_dates"]

  type SlotMetas = seq<Option<SlotMap>>

  datatype Field = Inventory | Stock | Quantity

  function Read(e: SlotEntry, f: Field): Option<int> {
    match f
    case Inventory => e.inventory
    case Stock => e.stock
    case Quantity => e.quantity
  }

  function Write(e: SlotEntry, f: Field, q: int): (r: SlotEntry)
    ensures Read(r, f) == Some(q)
  {
    match f
    case Inventory => e.(inventory := Some(q))
    case Stock => e.(stock := Some(q))
    case Quantity => e.(quantity := Some(q))
  }

  /** The field a keyed entry uses: inventory, then stock, then quantity. */
  function KeyedField(e: SlotEntry): (r: Option<Field>)
    ensures r.Some? ==> Read(e, r.value).Some?
    ensures r.None? <==> e.inventory.None? && e.stock.None? && e.quantity.None?
    ensures r == Some(Stock) ==> e.inventory.None?
    ensures r == Some(Quantity) ==> e.inventory.None? && e.stock.None?
  {
    if e.inventory.Some? then Some(Inventory)
    else if e.stock.Some? then Some(Stock)
    else if e.quantity.Some? then Some(Quantity)
    else None
  }

  /** The field a listed entry uses: stock, then inventory, then quantity. */
  function ListedField(e: SlotEntry): (r: Option<Field>)
    ensures r.Some? ==> Read(e, r.value).Some?
    ensures r.None? <==> e.inventory.None? && e.stock.None? && e.quantity.None?
    ensures r == Some(Inventory) ==> e.stock.None?
    ensures r == Some(Quantity) ==> e.inventory.None? && e.stock.None?
  {
    if e.stock.Some? then Some(Stock)
    else if e.inventory.Some? then Some(Inventory)
    else if e.quantity.Some? then Some(Quantity)
    else None
  }

  /** Writing one field keeps which fields are set, and the date and time. */
  predicate SameShape(a: SlotEntry, b: SlotEntry) {
    a.inventory.Some? == b.inventory.Some? && a.stock.Some? == b.stock.Some?
    && a.quantity.Some? == b.quantity.Some? && a.date == b.date && a.time == b.time
  }

  /** Format 1 looks under "<date>_<time>" when a time is given, else "<date>". */
  function FormatKey(date: string, time: string): (r: string)
    ensures Empty(time) ==> r == date
    ensures !Empty(time) ==> r == date + "_" + time
  {
    if Empty(time) then date else date + "_" + time
  }

  /** Whether the entry stored under "<date>" serves as a fall-back for a
      time: its own time must be close, or no time was asked for. */
  predicate DateEntryServes(e: SlotEntry, time: string) {
    (e.time.Some? && !Empty(time) && IsTimeClose(e.time.value, time, TimeBufferMinutes)) || Empty(time)
  }

  /** Format 1: the key of the entry consulted, when it has a stock field. */
  function KeyedKey(slots: SlotMap, date: string, time: string): (r: Option<string>)
    ensures r.Some? ==> Get(slots, r.value).Some? && KeyedField(Get(slots, r.value).value).Some?
    ensures r.Some? ==> r.value == FormatKey(date, time) || r.value == date
  {
    var key := FormatKey(date, time);
    match Get(slots, key)
    case Some(e) => if KeyedField(e).Some? then Some(key) else None
    case None =>
      match Get(slots, date)
      case Some(e) => if DateEntryServes(e, time) && KeyedField(e).Some? then Some(date) else None
      case None => None
  }

  /** Format 2: a listed entry for the date whose time is close (or no time
      was asked for) and that has a stock field. */
  predicate ListedMatch(e: SlotEntry, date: string, time: string) {
    e.date == Some(date)
    && ((!Empty(time) && e.time.Some? && IsTimeClose(e.time.value, time, TimeBufferMinutes)) || Empty(time))
    && ListedField(e).Some?
  }

  /** The first matching listed entry's stock value. */
  function FirstListed(slots: SlotMap, date: string, time: string): (r: Option<int>)
    ensures r.None? <==> forall i :: 0 <= i < |slots| ==> !ListedMatch(slots[i].1, date, time)
  {
    if |slots| == 0 then None
    else if ListedMatch(slots[0].1, date, time) then Read(slots[0].1, ListedField(slots[0].1).value)
    else
      assert forall i :: 1 <= i < |slots| ==> slots[1..][i - 1] == slots[i];
      FirstListed(slots[1..], date, time)
  }

  /** One slot array: the keyed entry, else the first listed entry. */
  function LookupIn(slots: SlotMap, date: string, time: string): (r: Option<int>)
    ensures r.None? <==> |slots| == 0 || (KeyedKey(slots, date, time).None? && FirstListed(slots, date, time).None?)
  {
    if |slots| == 0 then None
    else match KeyedKey(slots, date, time)
      case Some(k) =>
        var e := Get(slots, k).value;
        Read(e, KeyedField(e).value)
      case None => FirstListed(slots, date, time)
  }

  /** The slot-map part of `get_date_time_specific_inventory`: the first
      meta key whose array yields a value. */
  function Lookup(metas: SlotMetas, date: string, time: string): (r: Option<int>)
    ensures r.None? <==> forall i :: 0 <= i < |metas| && metas[i].Some? ==> LookupIn(metas[i].value, date, time).None?
  {
    if |metas| == 0 then None
    else if metas[0].Some? && LookupIn(metas[0].value, date, time).Some? then LookupIn(metas[0].value, date, time)
    else
      assert forall i :: 1 <= i < |metas| ==> metas[1..][i - 1] == metas[i];
      Lookup(metas[1..], date, time)
  }

  /** Format 2 writer: every matching listed entry gets q in its listed field. */
  function WriteListed(slots: SlotMap, date: string, time: string, q: int): (r: SlotMap)
    ensures |r| == |slots|
    ensures forall i :: 0 <= i < |slots| ==> r[i].0 == slots[i].0 && SameShape(r[i].1, slots[i].1)
  {
    if |slots| == 0 then []
    else
      var e := slots[0].1;
      var e' := if ListedMatch(e, date, time) then Write(e, ListedField(e).value, q) else e;
      [(slots[0].0, e')] + WriteListed(slots[1..], date, time, q)
  }

  /** One slot array: write the keyed entry, then every listed entry;
      report whether anything was written. */
  function UpdateIn(slots: SlotMap, date: string, time: string, q: int): (r: (SlotMap, bool))
  {
    if |slots| == 0 then (slots, false)
    else
      var k := KeyedKey(slots, date, time);
      var keyed := if k.Some? then
                     var e := Get(slots, k.value).value;
                     Put(slots, k.value, Write(e, KeyedField(e).value, q))
                   else slots;
      (WriteListed(keyed, date, time, q), k.Some? || FirstListed(keyed, date, time).Some?)
  }

  /** Whether a meta's array takes the write. */
  predicate Takes(m: Option<SlotMap>, date: string, time: string, q: int) {
    m.Some? && UpdateIn(m.value, date, time, q).1
  }

  /** The first meta whose array takes the write. */
  function FirstTaking(metas: SlotMetas, date: string, time: string, q: int): (r: Option<nat>)
    ensures r.Some? ==> r.value < |metas| && Takes(metas[r.value], date, time, q)
                        && forall j :: 0 <= j < r.value ==> !Takes(metas[j], date, time, q)
    ensures r.None? ==> forall j :: 0 <= j < |metas| ==> !Takes(metas[j], date, time, q)
  {
    FirstIndex(metas, m => Takes(m, date, time, q))
  }

  /** The slot-map part of `update_date_time_specific_inventory`: the first
      meta key whose array takes the write is replaced and saved; `None`
      (false) when no array takes it. */
  function Update(metas: SlotMetas, date: string, time: string, q: int): (r: Option<SlotMetas>)
    ensures r.Some? ==> |r.value| == |metas|
  {
    match FirstTaking(metas, date, time, q)
    case Some(i) => Some(metas[i := Some(UpdateIn(metas[i].value, date, time, q).0)])
    case None => None
  }

  // ---- Writer and reader agree ----

  lemma {:induction false} WriteListedGet(slots: SlotMap, date: string, time: string, q: int, k: string)
    ensures var g := Get(WriteListed(slots, date, time, q), k);
            (g.None? <==> Get(slots, k).None?)
            && (g.Some? ==> SameShape(g.value, Get(slots, k).value))
  {
    if |slots| > 0 {
      WriteListedGet(slots[1..], date, time, q, k);
    }
  }

  /** The keyed entry found before the write is found after it and holds q. */
  lemma KeyedAfterWrite(slots: SlotMap, date: string, time: string, q: int, k: string)
    requires KeyedKey(slots, date, time) == Some(k)
    ensures var e := Get(slots, k).value;
            var keyed := Put(slots, k, Write(e, KeyedField(e).value, q));
            KeyedKey(keyed, date, time) == Some(k)
            && Get(keyed, k) == Some(Write(e, KeyedField(e).value, q))
  {
    var e := Get(slots, k).value;
    var keyed := Put(slots, k, Write(e, KeyedField(e).value, q));
    PutGet(slots, k, Write(e, KeyedField(e).value, q), k);
    PutGet(slots, k, Write(e, KeyedField(e).value, q), FormatKey(date, time));
  }

  /** Writing q into the entry's own keyed field, then perhaps into its listed
      field, leaves q readable through the keyed field. */
  lemma KeyedValueSurvives(e: SlotEntry, g: SlotEntry, q: int, date: string, time: string)
    requires KeyedField(e).Some?
    requires var w := Write(e, KeyedField(e).value, q);
             g == w || g == Write(w, ListedField(w).value, q)
    requires ListedField(Write(e, KeyedField(e).value, q)).Some?
    ensures KeyedField(g) == KeyedField(e) && Read(g, KeyedField(g).value) == Some(q)
  {
  }

  lemma {:induction false} WriteListedKeyed(slots: SlotMap, date: string, time: string, q: int, k: string)
    requires Get(slots, k).Some?
    ensures var g := Get(WriteListed(slots, date, time, q), k);
            var e := Get(slots, k).value;
            g.Some? && (g.value == e || (ListedMatch(e, date, time) && g.value == Write(e, ListedField(e).value, q)))
  {
    if |slots| > 0 && slots[0].0 != k {
      WriteListedGet(slots[1..], date, time, q, k);
      WriteListedKeyed(slots[1..], date, time, q, k);
    }
  }

  lemma {:induction false} WriteListedSameKeyed(slots: SlotMap, date: string, time: string, q: int)
    ensures KeyedKey(WriteListed(slots, date, time, q), date, time) == KeyedKey(slots, date, time)
  {
    WriteListedGet(slots, date, time, q, FormatKey(date, time));
    WriteListedGet(slots, date, time, q, date);
  }

  lemma {:induction false} WriteListedFirst(slots: SlotMap, date: string, time: string, q: int)
    requires FirstListed(slots, date, time).Some?
    ensures FirstListed(WriteListed(slots, date, time, q), date, time) == Some(q)
  {
    var r := WriteListed(slots, date, time, q);
    assert r[0].1 == if ListedMatch(slots[0].1, date, time) then Write(slots[0].1, ListedField(slots[0].1).value, q) else slots[0].1;
    if !ListedMatch(slots[0].1, date, time) {
      assert r[1..] == WriteListed(slots[1..], date, time, q);
      WriteListedFirst(slots[1..], date, time, q);
    }
  }

  /** Replacing an entry by one of the same shape keeps whether a listed
      entry matches. */
  lemma {:induction false} PutKeepsListed(slots: SlotMap, k: string, e': SlotEntry, date: string, time: string)
    requires Get(slots, k).Some? && SameShape(Get(slots, k).value, e')
    ensures FirstListed(Put(slots, k, e'), date, time).None? <==> FirstListed(slots, date, time).None?
  {
    if slots[0].0 != k {
      var r := Put(slots, k, e');
      assert r[1..] == Put(slots[1..], k, e');
      PutKeepsListed(slots[1..], k, e', date, time);
    }
  }

  /** One array: a value is found exactly when a write is taken. */
  lemma UpdateInIffFound(slots: SlotMap, date: string, time: string, q: int)
    ensures UpdateIn(slots, date, time, q).1 <==> LookupIn(slots, date, time).Some?
  {
    if |slots| > 0 {
      var k := KeyedKey(slots, date, time);
      if k.Some? {
        var e := Get(slots, k.value).value;
        PutKeepsListed(slots, k.value, Write(e, KeyedField(e).value, q), date, time);
      }
    }
  }

  /** One array: after a taken write, the reader finds q. */
  lemma UpdateInRoundTrip(slots: SlotMap, date: string, time: string, q: int)
    requires UpdateIn(slots, date, time, q).1
    ensures LookupIn(UpdateIn(slots, date, time, q).0, date, time) == Some(q)
  {
    var r := UpdateIn(slots, date, time, q).0;
    match KeyedKey(slots, date, time)
    case Some(k) =>
      var e := Get(slots, k).value;
      var w := Write(e, KeyedField(e).value, q);
      var keyed := Put(slots, k, w);
      KeyedAfterWrite(slots, date, time, q, k);
      WriteListedSameKeyed(keyed, date, time, q);
      WriteListedKeyed(keyed, date, time, q, k);
      var g := Get(r, k).value;
      assert g == w || g == Write(w, ListedField(w).value, q);
      KeyedValueSurvives(e, g, q, date, time);
    case None =>
      WriteListedSameKeyed(slots, date, time, q);
      WriteListedFirst(slots, date, time, q);
  }

  /** The reader answers from the first meta that has a value. */
  lemma {:induction false} LookupAt(metas: SlotMetas, i: nat, date: string, time: string)
    requires i < |metas| && metas[i].Some? && LookupIn(metas[i].value, date, time).Some?
    requires forall j :: 0 <= j < i ==> metas[j].None? || LookupIn(metas[j].value, date, time).None?
    ensures Lookup(metas, date, time) == LookupIn(metas[i].value, date, time)
  {
    if i > 0 {
      assert forall j :: 0 <= j < i - 1 ==> metas[1..][j] == metas[j + 1];
      LookupAt(metas[1..], i - 1, date, time);
    }
  }

  lemma TakesIffFound(metas: SlotMetas, date: string, time: string, q: int)
    ensures forall j :: 0 <= j < |metas| && metas[j].Some? ==>
              (Takes(metas[j], date, time, q) <==> LookupIn(metas[j].value, date, time).Some?)
  {
    forall j | 0 <= j < |metas| && metas[j].Some?
      ensures Takes(metas[j], date, time, q) <==> LookupIn(metas[j].value, date, time).Some?
    {
      UpdateInIffFound(metas[j].value, date, time, q);
    }
  }

  /** All metas: the writer takes the write exactly when the reader finds a
      value, and afterwards the reader finds the written quantity. */
  lemma UpdateRoundTrip(metas: SlotMetas, date: string, time: string, q: int)
    ensures Update(metas, date, time, q).Some? <==> Lookup(metas, date, time).Some?
    ensures Update(metas, date, time, q).Some? ==> Lookup(Update(metas, date, time, q).value, date, time) == Some(q)
  {
    TakesIffFound(metas, date, time, q);
    match FirstTaking(metas, date, time, q)
    case Some(i) =>
      var u := UpdateIn(metas[i].value, date, time, q).0;
      var r := metas[i := Some(u)];
      UpdateInRoundTrip(metas[i].value, date, time, q);
      LookupAt(r, i, date, time);
    case None =>
  }

  /** The two formats pick different fields from the same entry: an entry
      with both inventory and stock answers inventory when keyed and stock
      when listed. */
  lemma FormatsDisagree(e: SlotEntry)
    requires e.inventory.Some? && e.stock.Some?
    ensures Read(e, KeyedField(e).value) == e.inventory
    ensures Read(e, ListedField(e).value) == e.stock
  {
  }
}

=== FILE: sorting.dfy ===
/** Stable sorting in descending order of an integer key, as PHP 8's
    `usort` (a stable sort) behaves with a comparator `$b[k] <=> $a[k]`. */
module Sorting {

  predicate SortedDesc<T>(xs: seq<T>, key: T -> int) {
    forall i, j :: 0 <= i < j < |xs| ==> key(xs[i]) >= key(xs[j])
  }

  /** The elements whose key is k, in their original order. */
  function WithKey<T>(xs: seq<T>, key: T -> int, k: int): (r: seq<T>)
    ensures |r| <= |xs|
  {
    if |xs| == 0 then []
    else if key(xs[0]) == k then [xs[0]] + WithKey(xs[1..], key, k)
    else WithKey(xs[1..], key, k)
  }

  /** Insert x behind every element whose key is at least its own. */
  function Insert<T>(x: T, s: seq<T>, key: T -> int): (r: seq<T>)
    ensures multiset(r) == multiset(s) + multiset{x}
  {
    if |s| == 0 || key(s[0]) < key(x) then [x] + s
    else
      assert s == [s[0]] + s[1..];
      [s[0]] + Insert(x, s[1..], key)
  }

  /** Sorting neither adds nor drops an element. */
  lemma SortDescMembers<T>(xs: seq<T>, key: T -> int, x: T)
    ensures x in SortDesc(xs, key) <==> x in xs
  {
    assert x in SortDesc(xs, key) <==> x in multiset(SortDesc(xs, key));
    assert x in xs <==> x in multiset(xs);
  }

  /** Insertion sort, each later element placed after the earlier ones of equal key. */
  function SortDesc<T>(xs: seq<T>, key: T -> int): (r: seq<T>)
    ensures multiset(r) == multiset(xs)
    ensures |r| == |xs|
  {
    if |xs| == 0 then []
    else
      assert xs == xs[..|xs| - 1] + [xs[|xs| - 1]];
      var r := Insert(xs[|xs| - 1], SortDesc(xs[..|xs| - 1], key), key);
      assert |multiset(r)| == |multiset(xs)|;
      r
  }

  lemma {:induction false} InsertSorted<T>(x: T, s: seq<T>, key: T -> int)
    requires SortedDesc(s, key)
    ensures SortedDesc(Insert(x, s, key), key)
  {
    if |s| > 0 && key(s[0]) >= key(x) {
      InsertSorted(x, s[1..], key);
      var r := Insert(x, s, key);
      var t := Insert(x, s[1..], key);
      assert r == [s[0]] + t;
      assert forall j :: 0 <= j < |t| ==> key(s[0]) >= key(t[j]) by {
        forall j | 0 <= j < |t| ensures key(s[0]) >= key(t[j]) {
          assert t[j] in multiset(t);
          assert t[j] in multiset(s[1..]) + multiset{x};
          if t[j] in multiset(s[1..]) {
            var k :| 0 <= k < |s[1..]| && s[1..][k] == t[j];
            assert s[1..][k] == s[k + 1];
          }
        }
      }
    }
  }

  /** A prefix of a sorted sequence is sorted. */
  lemma SortedPrefix<T>(xs: seq<T>, key: T -> int, n: nat)
    requires SortedDesc(xs, key) && n <= |xs|
    ensures SortedDesc(xs[..n], key)
  {
    forall i, j | 0 <= i < j < n ensures key(xs[..n][i]) >= key(xs[..n][j]) {
      assert xs[..n][i] == xs[i] && xs[..n][j] == xs[j];
    }
  }

  /** Cutting a sorted sequence to its first n elements keeps the largest
      keys: whatever is cut off has a key no larger than any kept one. */
  lemma TopPrefix<T>(xs: seq<T>, key: T -> int, n: nat, x: T)
    requires SortedDesc(xs, key) && n <= |xs|
    requires x in xs && x !in xs[..n]
    ensures SortedDesc(xs[..n], key)
    ensures forall d :: d in xs[..n] ==> key(d) >= key(x)
  {
    var j :| 0 <= j < |xs| && xs[j] == x;
    assert j >= n;
    forall d | d in xs[..n] ensures key(d) >= key(x) {
      var i :| 0 <= i < n && xs[..n][i] == d;
    }
  }

  /** The first n elements, or all of them when there are fewer. */
  function Top<T>(xs: seq<T>, n: nat): (r: seq<T>)
    ensures |r| <= n && |r| <= |xs|
    ensures |r| == n || |r| == |xs|
    ensures forall i :: 0 <= i < |r| ==> r[i] == xs[i]
  {
    if |xs| <= n then xs else xs[..n]
  }

  /** Cutting a sorted sequence to its top n keeps it sorted, keeps every
      element when there are at most n, and otherwise drops only elements
      whose key is no larger than any kept one. */
  lemma TopKeepsLargest<T>(xs: seq<T>, key: T -> int, n: nat, x: T)
    requires SortedDesc(xs, key) && x in xs
    ensures SortedDesc(Top(xs, n), key)
    ensures x !in Top(xs, n) ==> forall d :: d in Top(xs, n) ==> key(d) >= key(x)
    ensures |xs| <= n ==> x in Top(xs, n)
  {
    if |xs| > n {
      if x in xs[..n] {
        SortedPrefix(xs, key, n);
      } else {
        TopPrefix(xs, key, n, x);
      }
    }
  }

  /** The result is in non-increasing key order. */
  lemma {:induction false} SortDescSorted<T>(xs: seq<T>, key: T -> int)
    ensures SortedDesc(SortDesc(xs, key), key)
  {
    if |xs| > 0 {
      SortDescSorted(xs[..|xs| - 1], key);
      InsertSorted(xs[|xs| - 1], SortDesc(xs[..|xs| - 1], key), key);
    }
  }

  lemma {:induction false} WithKeyAppend<T>(a: seq<T>, b: seq<T>, key: T -> int, k: int)
    ensures WithKey(a + b, key, k) == WithKey(a, key, k) + WithKey(b, key, k)
  {
    if |a| == 0 {
      assert a + b == b;
    } else {
      assert (a + b)[0] == a[0];
      assert (a + b)[1..] == a[1..] + b;
      WithKeyAppend(a[1..], b, key, k);
      if key(a[0]) == k {
        assert WithKey(a + b, key, k) == [a[0]] + WithKey(a[1..] + b, key, k);
      } else {
        assert WithKey(a + b, key, k) == WithKey(a[1..] + b, key, k);
      }
    }
  }

  lemma {:induction false} WithKeyNone<T>(s: seq<T>, key: T -> int, k: int)
    requires forall i :: 0 <= i < |s| ==> key(s[i]) < k
    ensures WithKey(s, key, k) == []
  {
    if |s| > 0 {
      WithKeyNone(s[1..], key, k);
    }
  }

  lemma {:induction false} InsertStable<T>(x: T, s: seq<T>, key: T -> int, k: int)
    requires SortedDesc(s, key)
    ensures WithKey(Insert(x, s, key), key, k) == WithKey(s, key, k) + (if key(x) == k then [x] else [])
  {
    if |s| == 0 || key(s[0]) < key(x) {
      assert ([x] + s)[1..] == s;
      if key(x) == k {
        WithKeyNone(s, key, k);
      }
    } else {
      InsertStable(x, s[1..], key, k);
      assert ([s[0]] + Insert(x, s[1..], key))[1..] == Insert(x, s[1..], key);
    }
  }

  lemma WithKeySnoc<T>(xs: seq<T>, key: T -> int, k: int)
    requires |xs| > 0
    ensures WithKey(xs, key, k) == WithKey(xs[..|xs| - 1], key, k)
              + (if key(xs[|xs| - 1]) == k then [xs[|xs| - 1]] else [])
  {
    var init, last := xs[..|xs| - 1], xs[|xs| - 1];
    assert WithKey([last], key, k) == (if key(last) == k then [last] else []) by {
      assert [last][1..] == [];
    }
    assert xs == init + [last];
    WithKeyAppend(init, [last], key, k);
  }

  /** Stability: the elements of any one key keep their original order. */
  lemma {:induction false} SortDescStable<T>(xs: seq<T>, key: T -> int, k: int)
    ensures WithKey(SortDesc(xs, key), key, k) == WithKey(xs, key, k)
  {
    if |xs| > 0 {
      var init := xs[..|xs| - 1];
      SortDescStable(init, key, k);
      SortDescSorted(init, key);
      InsertStable(xs[|xs| - 1], SortDesc(init, key), key, k);
      WithKeySnoc(xs, key, k);
    }
  }
}

=== FILE: text.dfy ===
/** String primitives with PHP semantics: truthiness, case folding,
    digit runs, `intval`, `sprintf('%02d')`, `strpos` and `explode`. */
module Text {
  import opened Wrappers

  /** PHP's `empty()` on a string: the empty string and "0" are falsy. */
  predicate Empty(s: string) {
    s == "" || s == "0"
  }

  predicate IsDigit(c: char) {
    '0' <= c <= '9'
  }

  /** The PCRE `\s` class: space, tab, newline, vertical tab, form feed, carriage return. */
  predicate IsSpace(c: char) {
    c == ' ' || c == '\t' || c == '\n' || c == '\U{B}' || c == '\U{C}' || c == '\r'
  }

  predicate AllDigits(s: string) {
    forall i :: 0 <= i < |s| ==> IsDigit(s[i])
  }

  /** ASCII lower-casing, as PHP 8's `strtolower`. */
  function LowerChar(c: char): (r: char)
    ensures 'A' <= c <= 'Z' ==> r as int == c as int + 32
    ensures !('A' <= c <= 'Z') ==> r == c
  {
    if 'A' <= c <= 'Z' then (c as int + 32) as char else c
  }

  function ToLower(s: string): (r: string)
    ensures |r| == |s|
    ensures forall i :: 0 <= i < |s| ==> r[i] == LowerChar(s[i])
  {
    if |s| == 0 then "" else [LowerChar(s[0])] + ToLower(s[1..])
  }

  function DigitValue(c: char): nat
    requires IsDigit(c)
  {
    c as int - '0' as int
  }

  function DigitChar(d: nat): (c: char)
    requires d < 10
    ensures IsDigit(c) && DigitValue(c) == d
  {
    ('0' as int + d) as char
  }

  /** The number a run of decimal digits denotes. */
  function DigitsValue(s: string): nat
    requires AllDigits(s)
  {
    if |s| == 0 then 0 else DigitsValue(s[..|s| - 1]) * 10 + DigitValue(s[|s| - 1])
  }

  /** At most two digits denote a number below 100. */
  lemma DigitsValueBelow100(s: string)
    requires AllDigits(s) && |s| <= 2
    ensures DigitsValue(s) < 100
  {
    if |s| == 2 {
      assert DigitsValue(s[..1]) < 10 by {
        assert s[..1][..0] == [];
      }
    }
  }

  /** Decimal rendering of a natural number, as PHP's string conversion of an int. */
  function NatToString(n: nat): (r: string)
    ensures |r| >= 1 && AllDigits(r)
    ensures n < 10 ==> |r| == 1
    ensures n >= 10 ==> |r| >= 2
  {
    if n < 10 then [DigitChar(n)] else NatToString(n / 10) + [DigitChar(n % 10)]
  }

  /** Reading back a rendered number gives the number. */
  lemma {:induction false} NatToStringRoundTrip(n: nat)
    ensures DigitsValue(NatToString(n)) == n
  {
    if n >= 10 {
      var s := NatToString(n);
      assert s[..|s| - 1] == NatToString(n / 10);
      NatToStringRoundTrip(n / 10);
    }
  }

  /** `sprintf('%02d', n)` for a non-negative n. */
  function Pad2(n: nat): (r: string)
    ensures |r| >= 2 && AllDigits(r)
    ensures n < 100 ==> |r| == 2
    ensures DigitsValue(r) == n
  {
    NatToStringRoundTrip(n);
    if n < 10 then
      var r := "0" + NatToString(n);
      assert r[..|r| - 1] == "0";
      r
    else NatToString(n)
  }

  /** Length of the longest prefix of `s` made of digits. */
  function DigitPrefixLength(s: string): (k: nat)
    ensures k <= |s| && AllDigits(s[..k])
    ensures k < |s| ==> !IsDigit(s[k])
  {
    if |s| == 0 || !IsDigit(s[0]) then 0
    else
      var k := 1 + DigitPrefixLength(s[1..]);
      assert s[..k] == [s[0]] + s[1..][..k - 1];
      k
  }

  /** PHP's `intval` on a string: leading white space, an optional sign,
      then the longest digit prefix; 0 when there are no digits. */
  function IntVal(s: string): int
  {
    if |s| > 0 && IsSpace(s[0]) then IntVal(s[1..])
    else if |s| > 0 && (s[0] == '-' || s[0] == '+') then
      var k := DigitPrefixLength(s[1..]);
      var v := DigitsValue(s[1..][..k]);
      if s[0] == '-' then 0 - v else v
    else
      var k := DigitPrefixLength(s);
      DigitsValue(s[..k])
  }

  lemma IntValOfDigits(s: string)
    requires AllDigits(s)
    ensures IntVal(s) == DigitsValue(s)
  {
    assert s[..DigitPrefixLength(s)] == s;
  }

  predicate StartsWith(s: string, p: string) {
    |p| <= |s| && s[..|p|] == p
  }

  /** `sub` occurs in `s` at position i. */
  predicate OccursAt(s: string, sub: string, i: int) {
    0 <= i && i + |sub| <= |s| && s[i..i + |sub|] == sub
  }

  /** `strpos($s, $sub) !== false`. */
  predicate Contains(s: string, sub: string)
    decreases |s|
  {
    StartsWith(s, sub) || (|s| > 0 && Contains(s[1..], sub))
  }

  lemma {:induction false} ContainsIff(s: string, sub: string)
    ensures Contains(s, sub) <==> exists i :: OccursAt(s, sub, i)
    decreases |s|
  {
    if StartsWith(s, sub) {
      assert OccursAt(s, sub, 0);
    } else if |s| > 0 {
      ContainsIff(s[1..], sub);
      if Contains(s[1..], sub) {
        var i :| OccursAt(s[1..], sub, i);
        assert s[1..][i..i + |sub|] == s[i + 1..i + 1 + |sub|];
        assert OccursAt(s, sub, i + 1);
      }
      if i :| OccursAt(s, sub, i) {
        assert i != 0;
        assert s[1..][i - 1..i - 1 + |sub|] == s[i..i + |sub|];
        assert OccursAt(s[1..], sub, i - 1);
      }
    }
  }

  /** Index of the first occurrence of `c`, as `strpos` with a one-character needle. */
  function IndexOf(s: string, c: char): (r: Option<nat>)
    ensures r.Some? ==> r.value < |s| && s[r.value] == c && forall j :: 0 <= j < r.value ==> s[j] != c
    ensures r.None? ==> forall j :: 0 <= j < |s| ==> s[j] != c
  {
    if |s| == 0 then None
    else if s[0] == c then Some(0)
    else match IndexOf(s[1..], c)
      case None => None
      case Some(k) => Some(k + 1)
  }

  /** `explode($c, $s, 2)` when `$c` occurs: the part before its first
      occurrence and the rest; None when `$c` does not occur. */
  function SplitFirst(s: string, c: char): (r: Option<(string, string)>)
    ensures r.Some? <==> c in s
    ensures r.Some? ==> s == r.value.0 + [c] + r.value.1 && c !in r.value.0
  {
    match IndexOf(s, c)
    case None => None
    case Some(k) =>
      assert s == s[..k] + [c] + s[k + 1..];
      Some((s[..k], s[k + 1..]))
  }

  /** Splitting a joined key at its first separator gives back both parts
      exactly when the first part is free of the separator. */
  lemma SplitJoin(a: string, b: string, c: char)
    requires c !in a
    ensures SplitFirst(a + [c] + b, c) == Some((a, b))
  {
    var s := a + [c] + b;
    assert s[|a|] == c;
    var r := SplitFirst(s, c);
    assert r.Some?;
    var (x, y) := r.value;
    assert x == a;
    assert y == s[|a| + 1..];
  }
}

=== FILE: wrappers.dfy ===
/** Failure-compatible wrappers shared by the whole model. */
module Wrappers {

  /** An optional value: PHP's `null` versus a present value. */
  datatype Option<+T> = None | Some(value: T) {
    function GetOr(default: T): T {
      match this
      case Some(v) => v
      case None => default
    }
  }

  /** A value or an error message. */
  datatype Result<+R> = Success(value: R) | Failure(error: string) {
    predicate IsFailure() {
      Failure?
    }
  }

  /** The present results of f over xs, in order. */
  function Somes<A, B>(xs: seq<A>, f: A -> Option<B>): (r: seq<B>)
    ensures |r| <= |xs|
  {
    if |xs| == 0 then []
    else if f(xs[0]).Some? then [f(xs[0]).value] + Somes(xs[1..], f)
    else Somes(xs[1..], f)
  }

  /** A value is kept exactly when some element maps to it. */
  lemma {:induction false} SomesMembers<A, B>(xs: seq<A>, f: A -> Option<B>, y: B)
    ensures y in Somes(xs, f) <==> exists k :: 0 <= k < |xs| && f(xs[k]) == Some(y)
  {
    if |xs| > 0 {
      SomesMembers(xs[1..], f, y);
      if exists k :: 0 <= k < |xs| && f(xs[k]) == Some(y) {
        var k :| 0 <= k < |xs| && f(xs[k]) == Some(y);
        if k > 0 {
          assert xs[1..][k - 1] == xs[k];
        }
      }
      if y in Somes(xs[1..], f) {
        var k :| 0 <= k < |xs[1..]| && f(xs[1..][k]) == Some(y);
        assert xs[k + 1] == xs[1..][k];
      }
    }
  }

  /** The index of the first element satisfying p, if any. */
  function FirstIndex<T>(xs: seq<T>, p: T -> bool): (r: Option<nat>)
    ensures r.Some? ==> r.value < |xs| && p(xs[r.value]) && forall j :: 0 <= j < r.value ==> !p(xs[j])
    ensures r.None? ==> forall j :: 0 <= j < |xs| ==> !p(xs[j])
  {
    if |xs| == 0 then None
    else if p(xs[0]) then Some(0)
    else
      var r := FirstIndex(xs[1..], p);
      assert forall j :: 1 <= j < |xs| ==> xs[1..][j - 1] == xs[j];
      if r.Some? then Some(r.value + 1) else None
  }
}
